=== FILE: README.md ===
# laravel-relix seeding engine, modelled in Dafny

Relix is a Laravel package that seeds a database with fake data driven by its
schema. It works in five steps:

1. **Schema snapshot.** The introspector reads the database schema into a snapshot
   of tables, columns and foreign keys.
2. **Rules file.** The rules repository keeps a JSON file of rules per table and
   column:
   - `count`: how many rows to seed;
   - `strategy`: one of `literal`, `hash`, `fk` or `faker`;
   - `exclude_tables`: the tables to leave alone.
3. **Prompt.** The prompt builder turns the snapshot into a text that asks a
   language model to write that rules file.
4. **Generated code.** The seeder generator writes one seeder class per table and
   an aggregate seeder. The factory generator writes Eloquent model factories.
5. **Seeding.** The seeder runner seeds the tables:
   - it orders the tables with the table orderer, parents before the tables that
     reference them wherever no cycle intervenes;
   - it may truncate them;
   - it samples composite keys for pivot tables;
   - it fills every other row column by column through the value resolver, then
     inserts the rows in chunks.

This project models that core as pure functions and small methods over immutable
values:

- A PHP array is an ordered association list (`PhpValue.Value`).
- The schema snapshot is a set of datatypes (`Schema`).
- The following are oracles passed in as function-typed fields:
  - the JSON codec;
  - the inflector (`Str::plural`, `Str::singular`, `Str::studly`);
  - Faker, `Hash`, database reads and model factories;
  - the model registry;
  - the filesystem's existence checks.
- File writes are recorded as `Files.FileOp` values.
- The runner's own database writes are recorded as `SeederRunner.Event` values:
  inserts, truncates, statements and factory runs. The foreign row an `fk` rule's
  `create` inserts is the one write left to an oracle (see "## Left out").

The properties proved include:

- The table order emits every table once. It is exactly Kahn's algorithm with a
  first-in-first-out queue: in that prefix each dependency comes before its
  dependent. Tables that wait on a cycle, or on a table that is not being seeded,
  are appended afterwards in input order.
- Normalising the rules payload is idempotent. A rules file saved and then loaded
  gives back the normalised payload.
- `exclude_tables` and the command's `--exclude` option read back as sorted,
  duplicate-free, trimmed lists. Their members are characterised exactly.
- The prompt's exclusion line appears exactly when something is excluded, and its
  pivot guidance exactly when a kept table is a pivot. Its schema section lists
  exactly the kept tables, in schema order.
- Value resolution follows its precedence chain: rule, then declared foreign key,
  then inferred foreign key, then the name and type heuristic. A non-nullable
  column never receives null.
- Generated rows are inserted in chunks whose concatenation is exactly the rows.
  Pivot samples never repeat a composite key.
- Factory generation never overwrites a factory file. The seeder generator writes
  exactly the non-ignored tables.

## Model

| member | source | states |
|---|---|---|
| Schema.FirstNamed | src/Schema/TableSchema.php:16-25 | the shared lookup finds an element exactly when one carries the name, and returns the first such element |
| Schema.TableNamed | src/Schema/DatabaseSchema.php:15-24 | the lookup finds a table exactly when one has the name, and it returns the first such table |
| Schema.ColumnNamed | src/Schema/TableSchema.php:16-25 | the lookup finds a column exactly when one has the name, and it returns the first such column |
| Schema.PrimaryKeyColumns | src/Seeder/SeederRunner.php:114 | the primary-key columns are exactly the columns flagged as primary key |
| Schema.PrimaryKeyColumnsAppend | src/Seeder/SeederRunner.php:131 | the key-column filter distributes over concatenation, so the key columns keep their declaration order, the order the pivot joins its key values in |
| Rules.TableCount | src/Rules/Ruleset.php:16-21 | a table's count is present exactly when the rule's `count` is a PHP integer, and it is that integer |
| Rules.TableCountOnlyIntegers | src/Rules/Ruleset.php:18-20 | a count given as a string (or any other non-integer value) counts as no count |
| Rules.ExcludedTables | src/Rules/Ruleset.php:26-45 | the exclusions are strictly sorted, and a name is excluded exactly when it is a non-empty string value of an array `exclude_tables` |
| Rules.ExcludedTablesOrderIndependent | src/Rules/Ruleset.php:41-42 | two `exclude_tables` lists with the same values give the same exclusions, whatever their order or repetition |
| Rules.ColumnRule | src/Rules/Ruleset.php:57-62 | a column rule is present exactly when the rules hold an array for that table and column |
| Rules.NoTableRulesNoColumnRules | src/Rules/Ruleset.php:47-62 | a table without rules has no column rules |
| RulesRepository.Path | src/Rules/RulesRepository.php:17-26 | the configured path is used when it is a non-empty string, otherwise the default path |
| RulesRepository.NormalizeStringList | src/Rules/RulesRepository.php:157-177 | the list is clean (trimmed, non-empty, strictly sorted strings); a non-array gives the empty list |
| RulesRepository.NormalizeStringListMember | src/Rules/RulesRepository.php:157-177 | a name is in the normalised list exactly when it is the non-empty trim of some string value of the array |
| RulesRepository.NormalizeStringListFixed | src/Rules/RulesRepository.php:157-177 | a list that is already clean normalises to itself |
| RulesRepository.NormalizeEmptyList | src/Rules/RulesRepository.php:157-177 | the empty array normalises to the empty list |
| RulesRepository.NormalizePayloadKeys | src/Rules/RulesRepository.php:134-151 | `version` defaults to 1 only when unset, `tables` becomes `[]` unless it is an array, `exclude_tables` is normalised, and every other key is unchanged |
| RulesRepository.NormalizedVersion | src/Rules/RulesRepository.php:136-138 | `version` is kept when set and otherwise becomes 1 |
| RulesRepository.NormalizedTables | src/Rules/RulesRepository.php:140-142 | `tables` is kept when it is an array and otherwise becomes the empty array |
| RulesRepository.NormalizedExclusions | src/Rules/RulesRepository.php:144-148 | `exclude_tables` becomes the normalised string list of its old value |
| RulesRepository.NormalizedOthers | src/Rules/RulesRepository.php:134-151 | keys other than the three normalised ones keep their values |
| RulesRepository.DefaultVersion | src/Rules/RulesRepository.php:136-138 | setting the default version touches no other key |
| RulesRepository.DefaultArray | src/Rules/RulesRepository.php:140-142 | defaulting a key to an array touches no other key |
| RulesRepository.NormalizeIdempotent | src/Rules/RulesRepository.php:134-151 | normalising a normalised payload changes nothing |
| RulesRepository.Load | src/Rules/RulesRepository.php:28-46 | a missing file gives the empty payload without raw JSON; otherwise the raw JSON is kept and the payload is the normalised decoded array, or the empty payload when it does not decode to an array |
| RulesRepository.GetRequired | src/Rules/RulesRepository.php:48-74 | the rules are returned exactly when the file exists, is not blank, decodes to an array and has at least one table; a missing file is an error naming the path |
| RulesRepository.WritePayload | src/Rules/RulesRepository.php:116-128 | the file text is the encoded normalised payload followed by one newline |
| RulesRepository.Save | src/Rules/RulesRepository.php:76-95 | a save succeeds exactly when the JSON is not blank, decodes to an array and has a table, and then writes the normalised payload |
| RulesRepository.WithExclusions | src/Rules/RulesRepository.php:100-104 | replacing the exclusions sets `exclude_tables` to the normalised list and keeps every other key, so the table count too |
| RulesRepository.SetExcludedTables | src/Rules/RulesRepository.php:100-111 | exclusions can be set exactly when the current rules have a table, and then the payload with the new exclusions is written |
| RulesRepository.SaveThenLoad | src/Rules/RulesRepository.php:28-95 | with a codec that round-trips, loading what was saved gives the normalised submitted payload |
| RulesRepository.SaveUsersExample | src/Rules/RulesRepository.php:76-95 | saving `{"tables":{"users":{}}}` succeeds and loads back with version 1 and no exclusions |
| RulesRepository.SetExcludedThenRead | src/Rules/RulesRepository.php:100-111 | after setting exclusions, the reloaded rules report exactly the normalised new list |
| RelixManager.ExcludedTables | src/RelixManager.php:42-63 | the combined exclusions are clean: trimmed, non-empty and strictly sorted |
| RelixManager.ExcludedTablesMember | src/RelixManager.php:42-63 | a name is excluded exactly when it is the non-empty trim of a string in the config list (a scalar cast to a one-element list) or of a rules exclusion |
| RelixManager.SingleConfiguredString | src/RelixManager.php:44 | a configured single string (not a list) still excludes that table |
| PrintLlmPromptCommand.ParseExcludeOption | src/Commands/PrintLlmPromptCommand.php:30-55 | the parsed option is clean; a non-array option gives the empty list |
| PrintLlmPromptCommand.ParseExcludeOptionMember | src/Commands/PrintLlmPromptCommand.php:30-55 | a name is parsed exactly when it is the non-empty trim of a comma-separated piece of some string value |
| PrintLlmPromptCommand.CommaOrRepeat | src/Commands/PrintLlmPromptCommand.php:43-52 | `--exclude=a,b` and `--exclude=b --exclude=a` give the same list |
| PromptBuilder.NormalizeExcluded | src/Prompt/PromptBuilder.php:16-17 | the prompt's exclusions are strictly sorted, and they are exactly the non-empty strings given |
| PromptBuilder.AllForeignNotAuto | src/Prompt/PromptBuilder.php:109-115 | the check holds exactly when every key column has a foreign key and is not auto-increment |
| PromptBuilder.PivotDetectionsAgree | src/Prompt/PromptBuilder.php:101-116 | the prompt's pivot test and the runner's pivot test agree on every table |
| PromptBuilder.PivotCandidatesMembers | src/Prompt/PromptBuilder.php:19-27 | a name is a pivot candidate exactly when a table of that name is not excluded and is a pivot |
| PromptBuilder.PivotTables | src/Prompt/PromptBuilder.php:19-28 | the detected pivots are the candidates sorted, none of them excluded |
| PromptBuilder.ExcludeSection | src/Prompt/PromptBuilder.php:53-55 | the exclusion section has a line exactly when something is excluded |
| PromptBuilder.PivotSection | src/Prompt/PromptBuilder.php:56-63 | the guidance appears only when there are pivots, and it ends with the line listing them joined by commas |
| PromptBuilder.ColumnParts | src/Prompt/PromptBuilder.php:75-83 | a column's description starts with its type, says `nullable` exactly when it is nullable, and ends with `fk->table.column` exactly when it has a foreign key |
| PromptBuilder.Header | src/Prompt/PromptBuilder.php:72-73 | a table's header is marked `(pivot)` exactly when the table is a pivot |
| PromptBuilder.TableSection | src/Prompt/PromptBuilder.php:72-85 | a table's section is its header, one line per column in order, then a blank line |
| PromptBuilder.KeptMembers | src/Prompt/PromptBuilder.php:68-71 | the schema section keeps exactly the tables that are not excluded |
| PromptBuilder.ExcludeLineWith | src/Prompt/PromptBuilder.php:30-55 | for any preamble, the line after it sets `exclude_tables` to the encoded list when something is excluded, and otherwise is the blank line that starts the rest |
| PromptBuilder.ExcludeLineIffExcluded | src/Prompt/PromptBuilder.php:30-55 | the prompt starts with its preamble, followed by the exclusion line exactly when exclusions are given |
| PromptBuilder.HasPivotIff | src/Prompt/PromptBuilder.php:19-28 | some kept table is a pivot exactly when the detected pivot list is non-empty |
| PromptBuilder.PivotGuidanceWith | src/Prompt/PromptBuilder.php:56-66 | for any texts of the prompt's shape, the pivot heading appears exactly when a kept table is a pivot, and the detected line then lists the sorted pivots |
| PromptBuilder.PivotGuidanceIffPivots | src/Prompt/PromptBuilder.php:56-66 | the prompt carries pivot guidance exactly when a kept table is a pivot, naming the sorted pivots |
| PromptBuilder.SchemaSectionWith | src/Prompt/PromptBuilder.php:64-96 | for any texts of the prompt's shape, the prompt ends with the schema introduction, one section per kept table in schema order, then the guidelines |
| PromptBuilder.SchemaSectionListsKeptTables | src/Prompt/PromptBuilder.php:64-98 | the prompt ends with the schema introduction, the sections of exactly the kept tables in schema order, then the guidelines |
| Introspector.ForeignColumnAt | src/Schema/Introspector.php:54 | a local column maps to the foreign column at the same position, else the first foreign column, else `id` |
| Introspector.ConstraintMapDomain | src/Schema/Introspector.php:47-57 | one constraint maps exactly its local columns |
| Introspector.ConstraintMapValue | src/Schema/Introspector.php:47-57 | within one constraint, a local column maps to its table and to the foreign column at its last position |
| Introspector.ByLocalColumnDomain | src/Schema/Introspector.php:47-57 | the foreign-key map covers exactly the local columns of all constraints |
| Introspector.ByLocalColumnValue | src/Schema/Introspector.php:47-57 | a local column maps to what the last constraint naming it gives |
| Introspector.LaterConstraintWins | src/Schema/Introspector.php:50-56 | when two constraints share a local column, the later one decides its target |
| Introspector.SnapshotColumn | src/Schema/Introspector.php:59-72 | a snapshot column keeps name and type, is nullable exactly when not `NOT NULL`, is a key exactly when listed in the primary key, and has a foreign key exactly when the map has one |
| Introspector.PrimaryColumns | src/Schema/Introspector.php:41-45 | a table without a primary key has no key columns |
| Introspector.SnapshotTable | src/Schema/Introspector.php:59-74 | a snapshot table has one column per column read, in order, each built from the key list and the foreign-key map |
| Introspector.Introspect | src/Schema/Introspector.php:17-78 | the snapshot lists exactly the tables read, sorted by name, each built from its own details |
| Introspector.NoPrimaryKeyNoFlags | src/Schema/Introspector.php:41-45 | without a primary key, no column is flagged as one |
| Introspector.DropBlank | src/Schema/Introspector.php:161 | the filtered parameters are exactly those that are neither null nor empty |
| Introspector.DropBlankFind | src/Schema/Introspector.php:161 | with distinct keys, filtering keeps each key's value unless it is null or empty, in which case the key is gone |
| Introspector.ServerKeysKept | src/Schema/Introspector.php:148-161 | server keys holding the config values survive the filter exactly as `ServerKeys` says |
| Introspector.MysqlEntries | src/Schema/Introspector.php:146-159 | the MySQL parameters start with the driver and include the socket exactly when it is set |
| Introspector.MysqlParams | src/Schema/Introspector.php:146-162 | no value is blank; `driver` is `pdo_mysql`; `host`, `dbname`, `user`, `password`, `port` and `charset` hold the config's `host`, `database`, `username`, `password`, `port` and `charset`, absent when blank; `unix_socket` is present exactly when the config socket is truthy; no other key appears |
| Introspector.PgsqlParams | src/Schema/Introspector.php:164-175 | no value is blank; `driver` is `pdo_pgsql`; the five server keys hold their config values, absent when blank; no other key appears, so no charset or socket |
| Introspector.SqliteParams | src/Schema/Introspector.php:177-188 | SQLite needs a non-empty database string; `:memory:` selects memory mode, anything else is the path |
| Introspector.DoctrineParams | src/Schema/Introspector.php:141-191 | MySQL and PostgreSQL succeed with the key mapping above; SQLite fails exactly without a path and gives the in-memory or path parameters; any other driver is an error naming it |
| TableOrderer.ColumnDeps | src/Seeder/TableOrderer.php:24-39 | a column with a foreign key depends on exactly its target table, whether or not that table is present; a column without one depends on its `_id` guess exactly when the guess is a non-empty present table name, and on nothing otherwise |
| TableOrderer.TableDeps | src/Seeder/TableOrderer.php:21-41 | a table depends on exactly the tables its columns point to, never on itself |
| TableOrderer.LastNamed | src/Seeder/TableOrderer.php:16-19 | the table used for a name is the last one carrying that name |
| TableOrderer.Nodes | src/Seeder/TableOrderer.php:16-19 | the nodes are the table names, each once; when the names are already distinct they are the input names in input order, the order the FIFO tie-break reads against |
| TableOrderer.Dependencies | src/Seeder/TableOrderer.php:21-41 | every table name has a dependency set, computed from the last table of that name |
| TableOrderer.Ready | src/Seeder/TableOrderer.php:48-53 | the initial queue holds exactly the tables with no dependencies |
| TableOrderer.FreedMember | src/Seeder/TableOrderer.php:60-68 | emitting a table frees exactly those whose only pending dependency was that table |
| TableOrderer.Release | src/Seeder/TableOrderer.php:60-68 | releasing a table removes it from every pending set, keeps the counts equal to the set sizes, and queues exactly the freed tables |
| TableOrderer.ReleaseOne | src/Seeder/TableOrderer.php:61-67 | one release step updates only its own table and queues it when its last dependency went |
| TableOrderer.Kahn | src/Seeder/TableOrderer.php:55-69 | the emitted order is exactly `KahnOrder`, the run that serves the queue first in, first out and queues freed tables in input order; it is duplicate-free, every dependency of an emitted table is emitted before it, all initially ready tables are emitted, and every table left over still waits on an unemitted table |
| TableOrderer.RunStep | src/Seeder/TableOrderer.php:56-68 | one iteration of the loop (take the queue head, drop it from every pending set, queue the freed tables) is one step of the first-in-first-out reference run |
| TableOrderer.DropWaiting | src/Seeder/TableOrderer.php:60-68 | each table freed by an emission leaves the count of waiting tables, so the loop ends |
| TableOrderer.RunKeepsOrder | src/Seeder/TableOrderer.php:55-69 | from any consistent loop state the reference run extends the order keeping it duplicate-free, within the table names and dependency-first, and leaves over only tables waiting on an unemitted table |
| TableOrderer.KahnOrderSound | src/Seeder/TableOrderer.php:55-69 | the first-in-first-out reference order is duplicate-free, lists only table names, puts every dependency before its dependent, and leaves over only tables waiting on an unemitted table |
| TableOrderer.FifoTieBreak | src/Seeder/TableOrderer.php:48-69 | with `a` and `b` ready and `c` waiting on `a`, `d` on `b`, the order is `a, b, c, d`: a freed table queues behind the tables already waiting, not straight after its parent |
| TableOrderer.KahnStep | src/Seeder/TableOrderer.php:57-68 | one step of the loop keeps its invariant: dependencies emitted first, pending sets exact, queue fresh |
| TableOrderer.Remaining | src/Seeder/TableOrderer.php:71-75 | the leftovers are exactly the names not emitted, each once |
| TableOrderer.OrderedThenRemaining | src/Seeder/TableOrderer.php:71-77 | the emitted tables followed by the leftovers list every table exactly once |
| TableOrderer.TablesFor | src/Seeder/TableOrderer.php:77 | each name maps to an input table of that name after which no input table carries the name, as the `$byName` map keeps the last |
| TableOrderer.Order | src/Seeder/TableOrderer.php:14-78 | the names of the order are exactly `OrderNames`: the first-in-first-out Kahn order, then the leftovers in input order; it is a permutation of the table names, each mapped to the last table of that name; in its emitted prefix every dependency comes first and every leftover waits on an unemitted table |
| TableOrderer.OrderNamesSound | src/Seeder/TableOrderer.php:14-78 | the order names every table exactly once and starts with the Kahn order, in which every dependency comes first and after which every table left waits on an unemitted table |
| TableOrderer.UsersBeforePosts | src/Seeder/TableOrderer.php:14-78 | `posts` with a `user_id` foreign key is ordered after `users`, whatever their input order |
| TableOrderer.DependencyExample | src/Seeder/TableOrderer.php:21-41 | in that example `users` depends on nothing and `posts` on `users` only |
| TableOrderer.SingleForeignKeyDep | src/Seeder/TableOrderer.php:25-28 | a table whose one column is a foreign key to another table depends on exactly that table |
| TableOrderer.NoColumnsNoDeps | src/Seeder/TableOrderer.php:21-41 | a table without columns has no dependencies |
| TableOrderer.TwoTablesOrdered | src/Seeder/TableOrderer.php:55-78 | with two tables of which one depends on the other, any order meeting the orderer's guarantees is parent-first |
| SeederRunner.SlotOf | src/Seeder/SeederRunner.php:323-354 | a row has a value for a column exactly when the column is among its keys |
| SeederRunner.SetSlot | src/Seeder/SeederRunner.php:323-354 | setting a column changes that column only and adds it to the keys |
| SeederRunner.Fill | src/Seeder/SeederRunner.php:327-344 | after filling, the row's keys are its old keys plus every assigned column |
| SeederRunner.FillUntouched | src/Seeder/SeederRunner.php:327-344 | a column the loop does not assign keeps its value |
| SeederRunner.FillKeeps | src/Seeder/SeederRunner.php:178-181 | when existing keys are kept, a column already in the row keeps its value |
| SeederRunner.FillAssigns | src/Seeder/SeederRunner.php:327-344 | an assigned, uniquely named column gets its resolved cell |
| SeederRunner.Stamp | src/Seeder/SeederRunner.php:346-351 | `created_at` and `updated_at` are set to now exactly when the table has them, and nothing else changes |
| SeederRunner.MakeRow | src/Seeder/SeederRunner.php:323-354 | a row has exactly the assigned columns plus the timestamps the table has, never `deleted_at`, with the timestamps set to now |
| SeederRunner.MakeRowValue | src/Seeder/SeederRunner.php:327-344 | each assigned column holds its resolved cell |
| SeederRunner.RuleFor | src/Seeder/SeederRunner.php:336 | a column's rule is either null or an array |
| SeederRunner.CellFor | src/Seeder/SeederRunner.php:336-341 | a non-nullable column never gets null; a non-null resolved value is used as is; a nullable column takes whatever was resolved |
| SeederRunner.Chunk | src/Seeder/SeederRunner.php:97-109 | the batches concatenate to exactly the rows, none is empty, all but the last are full, none exceeds the chunk size, and they are `Batches`, the only batching with those properties |
| SeederRunner.BatchesUnique | src/Seeder/SeederRunner.php:97-109 | any split of the rows into non-empty batches of at most the chunk size, all but the last full, concatenating to the rows, is `Batches` |
| SeederRunner.BatchesFacts | src/Seeder/SeederRunner.php:97-109 | `Batches` concatenate to the rows, each of one to chunk-size rows |
| SeederRunner.InsertedBatches | src/Seeder/SeederRunner.php:97-109 | the rows inserted by the batch events are exactly the rows chunked |
| SeederRunner.BatchEvents | src/Seeder/SeederRunner.php:206-216 | one insert per batch into the table, `insertOrIgnore` for pivots and a plain insert otherwise |
| SeederRunner.TruncateEvents | src/Seeder/SeederRunner.php:358-384 | PostgreSQL issues exactly one `TRUNCATE TABLE … RESTART IDENTITY CASCADE` statement over the quoted tables joined with `, `; MySQL and SQLite issue the checks-off statement, one truncate per table in the given order and the checks-on statement, nothing else; any other driver truncates each table in order |
| SeederRunner.TruncateStatementNamesTables | src/Seeder/SeederRunner.php:362-366 | reading the PostgreSQL statement's table list back gives exactly the quoted tables in the given order, when no quoted name contains a comma |
| SeederRunner.IsCompositeFkPrimaryKeyPivot | src/Seeder/SeederRunner.php:112-127 | a table is a pivot exactly when it has at least two key columns, each a foreign key and none auto-increment |
| SeederRunner.SinglePrimaryKeyIsNotPivot | src/Seeder/SeederRunner.php:112-127 | a table with at most one key column is never a pivot |
| SeederRunner.NonNull | src/Seeder/SeederRunner.php:248 | the values kept are exactly the non-null ones |
| SeederRunner.PivotChoices | src/Seeder/SeederRunner.php:222-264 | a key column draws from its literal value, from the rule's foreign table, or from its declared foreign key, never null, and draws nothing without one of them |
| SeederRunner.MaxCombosIsProduct | src/Seeder/SeederRunner.php:142-149 | below the cap, the maximum number of key combinations is the product of the pool sizes |
| SeederRunner.Draw | src/Seeder/SeederRunner.php:166-170 | a draw picks one value from each pool |
| SeederRunner.SamplePivot | src/Seeder/SeederRunner.php:151-176 | the sampled composite keys are exactly `Sample`, the reference draw loop: distinct, at most the target, at most the number of combinations, drawn from the pools, within the attempt budget |
| SeederRunner.SampleFromSound | src/Seeder/SeederRunner.php:151-176 | from distinct picks within the target, every further draw keeps the picks distinct, within the target and drawn from the pools |
| SeederRunner.SampleSound | src/Seeder/SeederRunner.php:142-176 | the reference sample has distinct keys, at most the target and, below the cap, at most the product of the pool sizes, each drawn from its column's pool |
| SeederRunner.PivotPicksSound | src/Seeder/SeederRunner.php:129-176 | a key column with an empty pool makes the pivot sample nothing; otherwise its picks are distinct, at most the target and the combination count, drawn from the pools |
| SeederRunner.Pools | src/Seeder/SeederRunner.php:133-140 | there is one pool per primary-key column, each its column's choices |
| SeederRunner.PkRowKeys | src/Seeder/SeederRunner.php:166-170 | a pivot row starts with exactly the key columns |
| SeederRunner.PivotRow | src/Seeder/SeederRunner.php:166-204 | a pivot row holds every key column and no `deleted_at` unless it is a key |
| SeederRunner.PivotRowKeepsKey | src/Seeder/SeederRunner.php:178-197 | filling a pivot row never overwrites its sampled key values |
| SeederRunner.PkRowSlot | src/Seeder/SeederRunner.php:166-170 | each key column holds its sampled value |
| SeederRunner.RowCount | src/Seeder/SeederRunner.php:77 | the row count is the explicit count, else the rule's integer count, else the configured default |
| SeederRunner.GeneratedRowShape | src/Seeder/SeederRunner.php:97-99 | row i holds exactly the assigned columns plus the timestamps the table has; with unique column names each assigned column holds the cell resolved for row i, never null when the column is not nullable |
| SeederRunner.SeedPivot | src/Seeder/SeederRunner.php:129-217 | a pivot seeds nothing when a key column has no choices; otherwise its picks are `PivotPicks` (distinct, at most the target and the product of the pool sizes, each from its column's pool) and it inserts exactly the pivot rows built from those picks, with `insertOrIgnore` in bounded batches |
| SeederRunner.SeedRows | src/Seeder/SeederRunner.php:94-109 | the inserted rows are exactly the generated rows, one plain insert per `Batches` chunk |
| SeederRunner.SeedTable | src/Seeder/SeederRunner.php:68-110 | the events are exactly `TableEvents`, the reference whose paths the two lemmas below describe |
| SeederRunner.TableEventsPaths | src/Seeder/SeederRunner.php:68-110 | for a known table without truncation: the pivot path inserts with `insertOrIgnore` exactly the pivot rows of the sampled picks, the factory path is one factory run of the row count, and the rows path inserts exactly the generated rows, every batch non-empty and within the chunk limit |
| SeederRunner.TableEventsTruncation | src/Seeder/SeederRunner.php:68-92 | an unknown table writes nothing; without truncation nothing is truncated; with it the table's truncation comes first |
| SeederRunner.Ignored | src/Seeder/SeederRunner.php:34-38 | the ignored tables are strictly sorted and are exactly the configured string entries and the rules' exclusions |
| SeederRunner.SelectTables | src/Seeder/SeederRunner.php:40-46 | the selected tables are those named in `only` (when given) that are not ignored |
| SeederRunner.SelectedNames | src/Seeder/SeederRunner.php:40-46 | a name is selected exactly when it is a table, in `only` when given, and not ignored |
| SeederRunner.Present | src/Seeder/SeederRunner.php:55 | the skipped names are exactly the ignored tables that exist |
| SeederRunner.PresentSorted | src/Seeder/SeederRunner.php:55 | the skipped names stay sorted |
| SeederRunner.Reverse | src/Seeder/SeederRunner.php:51 | truncation takes the order back to front |
| SeederRunner.Seed | src/Seeder/SeederRunner.php:31-66 | the order is the table orderer's order of the selected tables (in `only` when given, not ignored), each once; the skipped list is the sorted existing ignored tables; the events are the reverse-order truncation when asked, then each table's `TableEvents` in that order, and nothing is truncated otherwise |
| SeederRunner.SeedEach | src/Seeder/SeederRunner.php:57-60 | every table in the order is seeded once, in order, without truncation: the events are the tables' `TableEvents` concatenated |
| FakerValueResolver.Heuristic | src/Seeder/FakerValueResolver.php:211-321 | timestamp names and types get a date-time first, then name patterns apply, then types |
| FakerValueResolver.ByName | src/Seeder/FakerValueResolver.php:224-286 | `password` wins over every other name pattern; `email` wins when no secret-like pattern matches first |
| FakerValueResolver.ByType | src/Seeder/FakerValueResolver.php:288-320 | any type containing `int` (other than `string`/`text`) gets a number; exactly `blob` and `binary` get text; a type gets nothing exactly when it contains no `int` and is none of the listed types |
| FakerValueResolver.Fallback | src/Seeder/FakerValueResolver.php:99-114 | the fallback is never null: `false` for booleans, `1` for integer types, `0` for decimals and floats; `n/a` exactly when none of these applies and the heuristic has nothing |
| FakerValueResolver.NormalizeFakerMethod | src/Seeder/FakerValueResolver.php:323-351 | a blank name is dropped; an existing method is kept as trimmed; otherwise the alias of the lower-cased name is used exactly when it exists and the generator has it, and the trimmed name is kept in every other case |
| FakerValueResolver.Alias | src/Seeder/FakerValueResolver.php:335-345 | exactly `datetime`, `date_time`, `date-time` and `timestamp` map to `dateTime`, and exactly the three `between` spellings map to `dateTimeBetween` |
| FakerValueResolver.FirstPrimaryKey | src/Seeder/FakerValueResolver.php:154-160 | there is a first key column exactly when some column is a key, and the name is a key column's |
| FakerValueResolver.BaseName | src/Seeder/FakerValueResolver.php:143 | a name ending in `_id` is its base followed by `_id` |
| FakerValueResolver.InferForeignKey | src/Seeder/FakerValueResolver.php:137-165 | a foreign key is inferred exactly when the name is `<base>_id` with a non-empty base whose plural is a table, and it points at that table |
| FakerValueResolver.ForeignKeyFromRuleOrInference | src/Seeder/FakerValueResolver.php:170-184 | a rule naming an existing table decides the target; otherwise the foreign key is inferred |
| FakerValueResolver.RuleTable | src/Seeder/FakerValueResolver.php:172-178 | the rule's table is used exactly when it is a non-empty string naming a schema table |
| FakerValueResolver.RuleColumn | src/Seeder/FakerValueResolver.php:176 | the rule's column is used when it is a non-empty string, otherwise `id` |
| FakerValueResolver.ResolveRule | src/Seeder/FakerValueResolver.php:27-85 | no rule falls through; `literal` gives its value, `hash` hashes its value or `password`; `fk` gives nothing without a foreign key, the picked value when it is not null, else, when `create` is truthy, the created value (even null), else nothing; `faker` is exactly the faker rule |
| FakerValueResolver.FakerRule | src/Seeder/FakerValueResolver.php:54-84 | a name that does not normalise gives nothing; otherwise the call's value when the call answers, else the formatter's value when it answers, else nothing |
| FakerValueResolver.ResolveFromSchema | src/Seeder/FakerValueResolver.php:87-96 | a declared foreign key comes first, then an inferred one, then the heuristic |
| FakerValueResolver.Resolve | src/Seeder/FakerValueResolver.php:25-97 | the rule's answer wins when it has one, otherwise the schema-driven steps decide |
| FakerValueResolver.LiteralBeatsForeignKey | src/Seeder/FakerValueResolver.php:30-32 | a literal rule wins even over a declared foreign key |
| FakerValueResolver.HashDefaultsToPassword | src/Seeder/FakerValueResolver.php:34-38 | a hash rule without a value hashes `password` |
| FakerValueResolver.FkRuleFallsThrough | src/Seeder/FakerValueResolver.php:40-52 | an `fk` rule with no existing value and no `create` falls through to the schema-driven steps |
| FakerValueResolver.DeclaredBeatsInferred | src/Seeder/FakerValueResolver.php:87-94 | without a rule, a declared foreign key is used even when an `_id` guess would match |
| FakerValueResolver.AtSuffixIsDateTime | src/Seeder/FakerValueResolver.php:216-222 | a name ending in `_at` gets a date-time whatever its type |
| FakerValueResolver.UnknownTypeIsNull | src/Seeder/FakerValueResolver.php:99-114 | example: `shape` of type `geometry` matches no heuristic and falls back to `n/a` (the all-input contracts are on `Heuristic` and `Fallback`) |
| FakerValueResolver.FakerMethodExamples | src/Seeder/FakerValueResolver.php:323-351 | examples of the `NormalizeFakerMethod` contract: a blank name is dropped, `datetime` resolves to `dateTime`, and an unknown name is kept |
| FactoryGenerator.ModelOf | src/Eloquent/FactoryGenerator.php:35-39 | a table has a model exactly when the registry gives a truthy class name |
| FactoryGenerator.ForeignModel | src/Eloquent/FactoryGenerator.php:115-120 | a foreign-key column uses the foreign model's factory exactly when that model exists and has a factory |
| FactoryGenerator.TypeStep | src/Eloquent/FactoryGenerator.php:186-214 | the factory's type step is the resolver's without its binary case |
| FactoryGenerator.Expression | src/Eloquent/FactoryGenerator.php:110-215 | the foreign factory wins, then the name patterns, then the type; the default word is used exactly when none applies |
| FactoryGenerator.FactoryAgreesWithHeuristic | src/Eloquent/FactoryGenerator.php:122-214 | away from foreign models and timestamps, the factory picks the same generator as the resolver's heuristic, except for binary columns |
| FactoryGenerator.EmailTimestampDiffers | src/Eloquent/FactoryGenerator.php:130-132 | `email_verified_at` gets an e-mail in a factory but a date-time from the resolver |
| FactoryGenerator.ExprText | src/Eloquent/FactoryGenerator.php:118 | a foreign factory call is written with exactly one leading backslash |
| FactoryGenerator.ValueText | src/Eloquent/FactoryGenerator.php:94-97 | a nullable column's value is the expression behind a one-in-ten null |
| FactoryGenerator.DefinitionColumnsMembers | src/Eloquent/FactoryGenerator.php:86-93 | the definition lists exactly the columns that are not auto-increment, not key and not timestamps |
| FactoryGenerator.FactoryClass | src/Eloquent/FactoryGenerator.php:41 | the factory class is the model's base name followed by `Factory`, with no namespace separator |
| FactoryGenerator.RenderFactory | src/Eloquent/FactoryGenerator.php:63-108 | the factory has its fixed header, one entry per definition column and the fixed footer |
| FactoryGenerator.DefinitionLinesMatchColumns | src/Eloquent/FactoryGenerator.php:68-107 | between header and footer, entry i belongs to the i-th definition column |
| FactoryGenerator.Step | src/Eloquent/FactoryGenerator.php:34-50 | a table is skipped without a model, skipped when its factory file exists, and otherwise gets a new file |
| FactoryGenerator.PlanClassifies | src/Eloquent/FactoryGenerator.php:34-51 | every table is classified, and a generated one is written at its model's factory path |
| FactoryGenerator.PutsPlusSkipped | src/Eloquent/FactoryGenerator.php:34-51 | every table is either written or skipped |
| FactoryGenerator.PutsAndSkippedContents | src/Eloquent/FactoryGenerator.php:34-51 | the writes are exactly the generated tables' factory files, and the skipped labels exactly those of the other tables |
| FactoryGenerator.Sweep | src/Eloquent/FactoryGenerator.php:34-51 | the loop follows the plan; no written path existed before, and no two writes share a path |
| FactoryGenerator.Generate | src/Eloquent/FactoryGenerator.php:23-58 | the directory is created when missing, the count is the number of writes, and generated plus skipped is the number of tables |
| Files.JoinPath | src/Seeder/SeederGenerator.php:46 | the joined path is the directory without trailing separators, one separator, then the file |
| Files.JoinPathIgnoresTrailingSeparator | src/Eloquent/FactoryGenerator.php:42 | a trailing separator on the directory does not change the path |
| Files.JoinPathInjective | src/Eloquent/FactoryGenerator.php:42 | different file names in one directory give different paths |
| Files.EnsureDirectory | src/Seeder/SeederGenerator.php:32-34 | the directory is created exactly when it does not exist |
| SeederGenerator.ClassName | src/Seeder/SeederGenerator.php:64-69 | the seeder class is the studly singular table name followed by `Seeder` |
| SeederGenerator.ClassNameInjective | src/Seeder/SeederGenerator.php:64-69 | two tables share a seeder class exactly when their studly singular names coincide |
| SeederGenerator.OutputPath | src/Seeder/SeederGenerator.php:25 | the given path is used unless it is null, empty or `"0"` |
| SeederGenerator.TableWrite | src/Seeder/SeederGenerator.php:41-48 | each table's seeder is written at its class's path with the count fixed by the usual precedence |
| SeederGenerator.SkippedNames | src/Seeder/SeederGenerator.php:26-30 | the skipped names are exactly the ignored tables that exist |
| SeederGenerator.EveryTableSeededOrSkipped | src/Seeder/SeederGenerator.php:39-50 | every table is either given a seeder or skipped |
| SeederGenerator.CallLineInjective | src/Seeder/SeederGenerator.php:110-113 | distinct seeder classes give distinct call lines |
| SeederGenerator.Calls | src/Seeder/SeederGenerator.php:108-113 | the aggregate seeder calls one seeder per ordered table, in order |
| SeederGenerator.CallsDistinct | src/Seeder/SeederGenerator.php:108-113 | the aggregate's call lines are distinct exactly when no two ordered tables share a studly singular name |
| SeederGenerator.Generate | src/Seeder/SeederGenerator.php:23-62 | seeders are written for exactly the non-ignored tables, the ignored ones are skipped, and the aggregate seeder is written last and calls each written table once, in the table orderer's order of those tables |
| Strings.Trim | src/Rules/RulesRepository.php:166 | exactly the leading and the trailing run of PHP's default trim characters are removed: the result is the infix of the original at some `k`, every character before `k` and after the infix is trimmable, and the result neither starts nor ends with one |
| Strings.TrimIdempotent | src/Rules/RulesRepository.php:166 | trimming twice is trimming once |
| Strings.Lower | src/Seeder/FakerValueResolver.php:213 | lower-casing keeps the length and lower-cases each character |
| Strings.SplitPiecesHaveNoSeparator | src/Commands/PrintLlmPromptCommand.php:46 | no piece contains the separator |
| Strings.JoinSplit | src/Commands/PrintLlmPromptCommand.php:46 | joining the pieces with the separator gives back the string |
| Strings.SplitJoinSpaced | src/Seeder/SeederRunner.php:364 | exploding a list imploded with a separator and a space gives back every part, those after the first with their leading space, when no part contains the separator |
| Strings.SplitAround | src/Commands/PrintLlmPromptCommand.php:46 | `a,b` splits into `a` and `b` when neither holds a comma |
| Strings.AfterLast | src/Eloquent/FactoryGenerator.php:41 | the base name is the longest suffix without the separator |
| Sorting.Sort | src/Rules/Ruleset.php:42 | sorting gives a sorted permutation |
| Sorting.SortedSet | src/Rules/Ruleset.php:41-42 | deduplicating and sorting gives a strictly sorted list with the same members |
| Sorting.Dedupe | src/Rules/Ruleset.php:41 | `array_unique`: distinct, the same members, and a list without duplicates comes back unchanged |
| Sorting.StrictlySortedUnique | src/Rules/Ruleset.php:41-42 | two strictly sorted lists with the same members are equal |
| StringLists.TrimmedStringsMember | src/RelixManager.php:50-57 | a name is kept exactly when it is the non-empty trim of some string value |
| StringLists.CleanFixed | src/Rules/RulesRepository.php:157-177 | deduplicating and sorting a clean list changes nothing |
| PhpValue.Put | src/Rules/RulesRepository.php:102-104 | assigning a key sets it, keeps the position of an existing key and appends a new one, and leaves other keys alone |
| PhpValue.CastToList | src/RelixManager.php:44 | `(array)` turns null into the empty list, keeps an array's values and wraps a scalar |

## Left out

- The HTTP UI, the language-model clients, the Artisan command wrappers other than the exclude parsing, and the service provider. They only route calls into the core.
- `RelixManager` methods other than `excludedTables` delegate to the repository, generators or runner, so they are modelled there.
- `RelixManager::prompt` and `PrintLlmPromptCommand::handle`: the parsed `--exclude` list is handed to `prompt()`, which builds the prompt from the manager's own exclusions and does not use the list. The list is therefore not modelled as filtering the prompt.
- Database access is not performed. Reads (`inRandomOrder()->value`, `pluck`, the Doctrine schema reads) are oracles. The runner's inserts, truncates, statements and factory runs are recorded as events; the one exception is named under FakerValueResolver.ResolveRule below.
- Faker, `Hash::make`, `Str::random`, the inflector, `now()`, the JSON codec and the model registry are oracles. Their outputs are tags or oracle results, not computed.
- Exceptions thrown by Faker formatters, and by the factory that `create` calls for an `fk` rule, are caught in the source and modelled as the oracle returning nothing.
- SeederRunner.TableEvents: a failing model factory on the factory path makes the source rethrow a `RuntimeException`, which aborts `seedTable` and the rest of the seed run. The model assumes factories succeed, so `FactoryCreate` is always recorded and the run carries on with the next table.
- FakerValueResolver.ResolveRule: the foreign row that `create` inserts through the foreign model's factory is not recorded as an event. The created value comes from an oracle, so `Seed`'s events omit those inserts.
- PHP's `sort()` on strings is modelled as code-point order. PHP's mixed numeric and string comparison rules are not modelled.
- `Str::lower` and `strtolower` are ASCII-only here. `trim` removes the ASCII whitespace set PHP trims by default.
- PhpValue.Value: JSON numbers with a fraction (PHP floats) are not represented. A float `count` (such as `10.0`, which `is_int` rejects), a float literal rule value and a float `version` cannot be written in the model.
- Numeric-looking string keys in PHP arrays are not converted to integer keys.
- The file text produced by the generators is kept as the values it interpolates (class name, table, count, call lines). The seeder heredoc is not reproduced character by character.
- Introspector: `typeName`, the schema-manager selection, the Doctrine connection and `connectionConfig` call into Doctrine and Laravel code that is not visible. Column type names arrive already mapped.
- SeederRunner.TruncateEvents: the PostgreSQL statement text is built as the source builds it, but the grammar's table quoting (`wrapTable`) is an oracle, `wrap`.
- MySQL and SQLite re-enable foreign-key checks after truncation without a `finally`. Exceptions are not modelled, so the model always re-enables them.
- The runner's resolver is an oracle indexed by table and row, so each row may draw different Faker values.
- `insertOrIgnore` is assumed available.
- The `$schema ??=` lazy introspection in `seedTable` is modelled by passing the schema in.
- SeederRunner.Ignored: non-string configured entries are dropped, whereas the source keeps them in its ignore list. No table name equals a non-string under a strict `in_array`, but `array_intersect` compares loosely, so an integer entry `1` would also list a table named `"1"` as skipped.
- FakerValueResolver.ByType: the float and decimal generator returns a float in PHP; only its tag is modelled.
- The unused `$schema` and `$table` arguments of `expressionForColumn` and `heuristic` are dropped.
- Seeder classes whose studly singular names collide overwrite each other's file. The model records both writes and proves when two names collide (SeederGenerator.ClassNameInjective), but does not dedupe.
- The prompt's fixed texts are kept as constants. The prompt lemmas are proved for any texts of the prompt's shape, and so for those constants.
- Configuration values arrive already cast: the default count and chunk size as integers, the ignore list as a PHP value.
- FakerValueResolver.FakerArgs: the `args` values are passed in order as positional arguments. PHP's spread turns string keys into named arguments, and that binding is not modelled; the call oracle receives the values only.
- RulesRepository.WritePayload: creating the rules directory when it is missing is a filesystem effect and is not modelled. `json_encode` failing and returning `false`, which PHP would write as an empty string, is not modelled either: the codec oracle always returns text.

=== FILE: factory_generator.dfy ===
/** `FactoryGenerator`: writes an Eloquent model factory for each table that maps to a
    model and has no factory file yet. The definition has one entry per ordinary
    column; its expression is the foreign model's factory when there is one, else the
    resolver's name patterns, else a type step, else `$this->faker->word()`. */
module FactoryGenerator {
  import opened Wrappers
  import opened Strings
  import opened PhpValue
  import opened Schema
  import opened Files
  import R = FakerValueResolver

  /** The model registry and class reflection: `modelFor(table)` is
      `ModelRegistry::modelForTable`, `hasFactory(model)` is
      `method_exists($model, 'factory')`. */
  datatype Models = Models(modelFor: string -> Option<string>, hasFactory: string -> bool)

  /** The model class of a table; an empty or `"0"` class name counts as none, as PHP's
      `! $modelClass` has it. */
  function ModelOf(models: Models, table: string): (r: Option<string>)
    ensures r.Some? <==> models.modelFor(table).Some? && Truthy(Str(models.modelFor(table).value))
    ensures r.Some? ==> r == models.modelFor(table) && r.value != ""
  {
    match models.modelFor(table)
    case Some(m) => if Truthy(Str(m)) then Some(m) else None
    case None => None
  }

  // ----- expressions -----

  /** A column's factory expression: a foreign model's factory, one of the resolver's
      generators, or the default `$this->faker->word()`. */
  datatype Expr = ForeignFactory(model: string) | Faker(g: R.Gen) | Word

  /** The model whose factory a foreign-key column uses, if the foreign table maps to
      a model that has a `factory` method. */
  function ForeignModel(c: Column, models: Models): (r: Option<string>)
    ensures r.Some? <==> c.foreignKey.Some? && ModelOf(models, c.foreignKey.value.foreignTable).Some?
                         && models.hasFactory(ModelOf(models, c.foreignKey.value.foreignTable).value)
    ensures r.Some? ==> r == ModelOf(models, c.foreignKey.value.foreignTable)
  {
    if c.foreignKey.None? then None
    else
      match ModelOf(models, c.foreignKey.value.foreignTable)
      case Some(m) => if models.hasFactory(m) then Some(m) else None
      case None => None
  }

  /** The type step: the resolver's type step without its `blob`/`binary` case, which
      falls to the default word here. */
  function TypeStep(typeName: string): (r: Expr)
    ensures r.Faker? <==> R.ByType(typeName).Some? && R.ByType(typeName) != Some(R.Text50)
    ensures r.Faker? ==> Some(r.g) == R.ByType(typeName)
    ensures !r.ForeignFactory?
  {
    match R.ByType(typeName)
    case Some(g) => if g == R.Text50 then Word else Faker(g)
    case None => Word
  }

  /** `expressionForColumn`: the foreign model's factory first, then the name patterns
      on the lower-cased name, then the type; there is no timestamp step. */
  function Expression(c: Column, models: Models): (r: Expr)
    ensures r.ForeignFactory? <==> ForeignModel(c, models).Some?
    ensures r.ForeignFactory? ==> Some(r.model) == ForeignModel(c, models)
    ensures ForeignModel(c, models).None? && R.ByName(Lower(c.name)).Some? ==> r == Faker(R.ByName(Lower(c.name)).value)
    ensures r == Word <==> (ForeignModel(c, models).None? && R.ByName(Lower(c.name)).None?
                            && (R.ByType(c.typeName).None? || R.ByType(c.typeName) == Some(R.Text50)))
  {
    match ForeignModel(c, models)
    case Some(m) => ForeignFactory(m)
    case None =>
      match R.ByName(Lower(c.name))
      case Some(g) => Faker(g)
      case None => TypeStep(c.typeName)
  }

  /** Away from foreign models and timestamps, the factory picks the generator the
      resolver's heuristic would use, except that it has no `blob`/`binary` case. */
  lemma {:induction false} FactoryAgreesWithHeuristic(c: Column, models: Models, g: R.Gen)
    requires ForeignModel(c, models).None?
    requires !R.IsTimestamp(Lower(c.name), c.typeName)
    ensures Expression(c, models) == Faker(g) <==> R.Heuristic(c.name, c.typeName) == Some(g) && g != R.Text50
  {
  }

  /** Name patterns come before types and there is no timestamp step, so a column
      such as `email_verified_at` gets an e-mail address in a factory although the
      resolver gives it a date-time. */
  lemma EmailTimestampDiffers(c: Column, models: Models)
    requires ForeignModel(c, models).None? && EndsWith(c.name, "_at")
    requires Contains(Lower(c.name), "email")
    requires !Contains(Lower(c.name), "password") && !Contains(Lower(c.name), "token")
    requires !Contains(Lower(c.name), "api_key") && !Contains(Lower(c.name), "secret")
    ensures Expression(c, models) == Faker(R.UniqueSafeEmail)
    ensures R.Heuristic(c.name, c.typeName) == Some(R.DateTimeBetween)
  {
    R.AtSuffixIsDateTime(c.name, c.typeName);
  }

  /** The PHP source text of a generator call. */
  function GenText(g: R.Gen): (r: string)
    ensures |r| > 0
  {
    match g
    case DateTimeBetween => "$this->faker->dateTimeBetween(\"-1 year\", \"now\")"
    case HashedPassword => "Hash::make('password')"
    case Random40 => "Str::random(40)"
    case UniqueSafeEmail => "$this->faker->unique()->safeEmail()"
    case UniqueUserName => "$this->faker->unique()->userName()"
    case FirstName => "$this->faker->firstName()"
    case LastName => "$this->faker->lastName()"
    case FullName => "$this->faker->name()"
    case PhoneNumber => "$this->faker->phoneNumber()"
    case StreetAddress => "$this->faker->streetAddress()"
    case City => "$this->faker->city()"
    case State => "$this->faker->state()"
    case Postcode => "$this->faker->postcode()"
    case Country => "$this->faker->country()"
    case Url => "$this->faker->url()"
    case Uuid => "$this->faker->uuid()"
    case Slug => "Str::slug($this->faker->sentence(3))"
    case Paragraph => "$this->faker->paragraph()"
    case Words3 => "$this->faker->words(3, true)"
    case NumberBetween => "$this->faker->numberBetween(1, 10000)"
    case RandomFloat => "$this->faker->randomFloat(2, 1, 10000)"
    case RandomBool => "$this->faker->boolean()"
    case Date => "$this->faker->date()"
    case JsonWord => "['value' => $this->faker->word()]"
    case Text50 => "$this->faker->text(50)"
  }

  /** The PHP source text of an expression; a foreign factory is written with exactly
      one leading backslash. */
  function ExprText(e: Expr): (r: string)
    ensures |r| > 0
    ensures e.ForeignFactory? ==> |r| > 1 && r[0] == '\\' && r[1] != '\\'
  {
    match e
    case ForeignFactory(m) => "\\" + DropLeading(m, '\\') + "::factory()"
    case Faker(g) => GenText(g)
    case Word => "$this->faker->word()"
  }

  const NullablePrefix := "$this->faker->boolean(10) ? null : "

  // ----- the definition -----

  /** Auto-increment, primary-key and timestamp columns are left out of the
      definition. */
  predicate InDefinition(c: Column) {
    !c.autoIncrement && !c.isPrimaryKey && c.name !in ["created_at", "updated_at", "deleted_at"]
  }

  /** The columns the definition lists, in declaration order. */
  function DefinitionColumns(cs: seq<Column>): seq<Column> {
    if |cs| == 0 then []
    else (if InDefinition(cs[0]) then [cs[0]] else []) + DefinitionColumns(cs[1..])
  }

  /** A column is listed exactly when it is declared and belongs in the definition. */
  lemma {:induction false} DefinitionColumnsMembers(cs: seq<Column>)
    ensures forall c :: c in DefinitionColumns(cs) <==> c in cs && InDefinition(c)
  {
    if |cs| > 0 {
      DefinitionColumnsMembers(cs[1..]);
      assert cs == [cs[0]] + cs[1..];
    }
  }

  /** A column's value in the definition: its expression, behind a one-in-ten null
      when the column is nullable. */
  function ValueText(c: Column, models: Models): (r: string)
    ensures c.nullable ==> StartsWith(r, NullablePrefix) && r[|NullablePrefix|..] == ExprText(Expression(c, models))
    ensures !c.nullable ==> r == ExprText(Expression(c, models))
  {
    var e := ExprText(Expression(c, models));
    if c.nullable then
      assert (NullablePrefix + e)[..|NullablePrefix|] == NullablePrefix;
      NullablePrefix + e
    else e
  }

  /** `            'name' => value,` */
  function EntryLine(c: Column, models: Models): string {
    "            '" + c.name + "' => " + ValueText(c, models) + ","
  }

  function Entries(cs: seq<Column>, models: Models): (r: seq<string>)
    ensures |r| == |cs|
    ensures forall i :: 0 <= i < |cs| ==> r[i] == EntryLine(cs[i], models)
  {
    seq(|cs|, i requires 0 <= i < |cs| => EntryLine(cs[i], models))
  }

  /** `class_basename($modelClass) . 'Factory'`. */
  function FactoryClass(model: string): (r: string)
    ensures EndsWith(r, "Factory")
    ensures '\\' !in r
  {
    var base := AfterLast(model, '\\');
    assert (base + "Factory")[|base|..] == "Factory";
    base + "Factory"
  }

  /** The lines before the definition's entries. */
  function Header(model: string): (r: seq<string>)
    ensures |r| == 16
  {
    ["<?php",
     "",
     "namespace Database\\Factories;",
     "",
     "use Illuminate\\Database\\Eloquent\\Factories\\Factory;",
     "use Illuminate\\Support\\Facades\\Hash;",
     "use Illuminate\\Support\\Str;",
     "use " + DropLeading(model, '\\') + ";",
     "",
     "class " + FactoryClass(model) + " extends Factory",
     "{",
     "    protected $model = " + AfterLast(model, '\\') + "::class;",
     "",
     "    public function definition(): array",
     "    {",
     "        return ["]
  }

  const Footer: seq<string> := ["        ];", "    }", "}", ""]

  /** `renderFactory`, as the lines the file text joins with newlines. */
  function RenderFactory(model: string, t: Table, models: Models): (r: seq<string>)
    ensures |r| == |Header(model)| + |DefinitionColumns(t.columns)| + |Footer|
  {
    Header(model) + (Entries(DefinitionColumns(t.columns), models) + Footer)
  }

  /** Between the fixed header and footer, the factory has one entry per column that is
      not auto-increment, primary key or a timestamp, in declaration order. */
  lemma DefinitionLinesMatchColumns(model: string, t: Table, models: Models)
    ensures Framed(RenderFactory(model, t, models), Header(model),
                   Entries(DefinitionColumns(t.columns), models), Footer)
    ensures forall c :: c in DefinitionColumns(t.columns) <==> c in t.columns && InDefinition(c)
  {
    Sections(Header(model), Entries(DefinitionColumns(t.columns), models), Footer);
    DefinitionColumnsMembers(t.columns);
  }

  /** `r` is `h`, then `e`, then `f`, each read back by position. */
  predicate Framed(r: seq<string>, h: seq<string>, e: seq<string>, f: seq<string>) {
    |r| == |h| + |e| + |f| && r[..|h|] == h && r[|r| - |f|..] == f
    && forall i :: 0 <= i < |e| ==> r[|h| + i] == e[i]
  }

  /** The three parts of `RenderFactory`, read back by position. */
  lemma Sections(h: seq<string>, e: seq<string>, f: seq<string>)
    ensures Framed(h + (e + f), h, e, f)
  {
  }

  // ----- generate -----

  /** A factory file to write: the factory of `model` for table `t`, whose text is
      `RenderFactory(model, t, models)`. */
  datatype Factory = Factory(model: string, t: Table)

  /** What `generate` does with one table. */
  datatype Outcome =
    | NoModel(table: string)
    | FactoryExists(table: string)
    | Generated(table: string, path: string, factory: Factory)

  function FactoryFile(dir: string, model: string): string {
    JoinPath(dir, FactoryClass(model) + ".php")
  }

  /** One table: skipped without a model, skipped when its factory file exists (before
      the run, or written earlier in it: `taken`), else its factory is generated. */
  function Step(t: Table, models: Models, dir: string, existsBefore: string -> bool, taken: set<string>): (r: Outcome)
    ensures r.table == t.name
    ensures r.NoModel? <==> ModelOf(models, t.name).None?
    ensures r.FactoryExists? <==> (ModelOf(models, t.name).Some?
      && (existsBefore(FactoryFile(dir, ModelOf(models, t.name).value))
          || FactoryFile(dir, ModelOf(models, t.name).value) in taken))
    ensures r.Generated? ==> (r.path == FactoryFile(dir, ModelOf(models, t.name).value)
      && r.factory == Factory(ModelOf(models, t.name).value, t))
    ensures r.Generated? ==> !existsBefore(r.path) && r.path !in taken
  {
    match ModelOf(models, t.name)
    case None => NoModel(t.name)
    case Some(m) =>
      var p := FactoryFile(dir, m);
      if existsBefore(p) || p in taken then FactoryExists(t.name) else Generated(t.name, p, Factory(m, t))
  }

  function Taken(taken: set<string>, o: Outcome): set<string> {
    if o.Generated? then taken + {o.path} else taken
  }

  /** The outcome of every table, in schema order. */
  function Plan(tables: seq<Table>, models: Models, dir: string, existsBefore: string -> bool,
                taken: set<string>): (r: seq<Outcome>)
    ensures |r| == |tables|
  {
    if |tables| == 0 then []
    else
      var o := Step(tables[0], models, dir, existsBefore, taken);
      [o] + Plan(tables[1..], models, dir, existsBefore, Taken(taken, o))
  }

  /** `Plan` from position `i` starts with the step for table `i`. */
  lemma PlanFrom(tables: seq<Table>, i: nat, models: Models, dir: string, existsBefore: string -> bool,
                 taken: set<string>)
    requires i < |tables|
    ensures var o := Step(tables[i], models, dir, existsBefore, taken);
      Plan(tables[i..], models, dir, existsBefore, taken)
      == [o] + Plan(tables[i + 1..], models, dir, existsBefore, Taken(taken, o))
  {
    assert tables[i..][0] == tables[i];
    assert tables[i..][1..] == tables[i + 1..];
  }

  /** A table is generated exactly when it has a model and its factory file is new. */
  lemma {:induction false} PlanClassifies(tables: seq<Table>, models: Models, dir: string,
                                          existsBefore: string -> bool, taken: set<string>, i: nat)
    requires i < |tables|
    ensures var r := Plan(tables, models, dir, existsBefore, taken);
      (r[i].NoModel? <==> ModelOf(models, tables[i].name).None?)
      && (r[i].Generated? ==> (r[i].path == FactoryFile(dir, ModelOf(models, tables[i].name).value)
                               && r[i].factory == Factory(ModelOf(models, tables[i].name).value, tables[i])))
  {
    if i > 0 {
      var o := Step(tables[0], models, dir, existsBefore, taken);
      PlanClassifies(tables[1..], models, dir, existsBefore, Taken(taken, o), i - 1);
    }
  }

  /** The skip message of a table: `table (no model)` or `table (factory exists)`. */
  function Label(o: Outcome): string {
    if o.NoModel? then o.table + " (no model)" else o.table + " (factory exists)"
  }

  function Skipped(os: seq<Outcome>): (r: seq<string>)
    ensures |r| <= |os|
  {
    if |os| == 0 then []
    else (if os[0].Generated? then [] else [Label(os[0])]) + Skipped(os[1..])
  }

  function Puts(os: seq<Outcome>): (r: seq<FileOp<Factory>>)
    ensures |r| <= |os|
    ensures forall i :: 0 <= i < |r| ==> r[i].Put?
  {
    if |os| == 0 then []
    else (if os[0].Generated? then [Put(os[0].path, os[0].factory)] else []) + Puts(os[1..])
  }

  /** Every outcome is either written or skipped. */
  lemma {:induction false} PutsPlusSkipped(os: seq<Outcome>)
    ensures |Puts(os)| + |Skipped(os)| == |os|
  {
    if |os| > 0 {
      PutsPlusSkipped(os[1..]);
    }
  }

  /** A factory is written for exactly the generated outcomes, at their paths, and a
      skip message is printed for exactly the others. */
  lemma {:induction false} PutsAndSkippedContents(os: seq<Outcome>)
    ensures forall w :: w in Puts(os) <==>
      exists i :: 0 <= i < |os| && os[i].Generated? && w == Put(os[i].path, os[i].factory)
    ensures forall l :: l in Skipped(os) <==> exists i :: 0 <= i < |os| && !os[i].Generated? && l == Label(os[i])
  {
    if |os| > 0 {
      PutsAndSkippedContents(os[1..]);
      forall w
        ensures w in Puts(os) <==> exists i :: 0 <= i < |os| && os[i].Generated? && w == Put(os[i].path, os[i].factory)
      {
        if exists i :: 0 <= i < |os| && os[i].Generated? && w == Put(os[i].path, os[i].factory) {
          var i :| 0 <= i < |os| && os[i].Generated? && w == Put(os[i].path, os[i].factory);
          if i > 0 {
            assert os[1..][i - 1] == os[i];
          }
        }
        if w in Puts(os[1..]) {
          var i :| 0 <= i < |os[1..]| && os[1..][i].Generated? && w == Put(os[1..][i].path, os[1..][i].factory);
          assert os[i + 1] == os[1..][i];
        }
      }
      forall l
        ensures l in Skipped(os) <==> exists i :: 0 <= i < |os| && !os[i].Generated? && l == Label(os[i])
      {
        if exists i :: 0 <= i < |os| && !os[i].Generated? && l == Label(os[i]) {
          var i :| 0 <= i < |os| && !os[i].Generated? && l == Label(os[i]);
          if i > 0 {
            assert os[1..][i - 1] == os[i];
          }
        }
        if l in Skipped(os[1..]) {
          var i :| 0 <= i < |os[1..]| && !os[1..][i].Generated? && l == Label(os[1..][i]);
          assert os[i + 1] == os[1..][i];
        }
      }
    }
  }

  lemma {:induction false} PutsAppend(a: seq<Outcome>, o: Outcome)
    ensures Puts(a + [o]) == Puts(a) + (if o.Generated? then [Put(o.path, o.factory)] else [])
    ensures Skipped(a + [o]) == Skipped(a) + (if o.Generated? then [] else [Label(o)])
  {
    if |a| > 0 {
      assert (a + [o])[1..] == a[1..] + [o];
      PutsAppend(a[1..], o);
    }
  }

  /** Every write is a `put` of a path that did not exist before and is taken. */
  predicate FreshPuts(puts: seq<FileOp<Factory>>, existsBefore: string -> bool, taken: set<string>) {
    forall k :: 0 <= k < |puts| ==> puts[k].Put? && !existsBefore(puts[k].path) && puts[k].path in taken
  }

  /** No two writes share a path. */
  predicate DistinctPuts(puts: seq<FileOp<Factory>>) {
    forall k, l :: 0 <= k < l < |puts| ==> puts[k].path != puts[l].path
  }

  /** Writing a path that neither existed nor was taken keeps the writes fresh and
      distinct. */
  lemma AddPut(puts: seq<FileOp<Factory>>, p: string, f: Factory, existsBefore: string -> bool, taken: set<string>)
    requires FreshPuts(puts, existsBefore, taken) && DistinctPuts(puts)
    requires !existsBefore(p) && p !in taken
    ensures FreshPuts(puts + [Put(p, f)], existsBefore, taken + {p})
    ensures DistinctPuts(puts + [Put(p, f)])
  {
    var more := puts + [Put(p, f)];
    forall k, l | 0 <= k < l < |more|
      ensures more[k].path != more[l].path
    {
      assert more[k] == puts[k];
      if l < |puts| {
        assert more[l] == puts[l];
      }
    }
  }

  /** The loop of `generate`: each table in schema order is skipped or gets its
      factory, as `Plan` says. A factory file is never overwritten: no written path
      existed before, and no two writes share a path. */
  method Sweep(tables: seq<Table>, models: Models, path: string, existsBefore: string -> bool)
    returns (generated: nat, skipped: seq<string>, puts: seq<FileOp<Factory>>)
    ensures var plan := Plan(tables, models, path, existsBefore, {});
      skipped == Skipped(plan) && puts == Puts(plan)
    ensures generated == |puts| && generated + |skipped| == |tables|
    ensures forall k :: 0 <= k < |puts| ==> puts[k].Put? && !existsBefore(puts[k].path)
    ensures forall k, l :: 0 <= k < l < |puts| ==> puts[k].path != puts[l].path
  {
    ghost var done: seq<Outcome> := [];
    var taken: set<string> := {};
    puts := [];
    generated := 0;
    skipped := [];
    for i := 0 to |tables|
      invariant Plan(tables, models, path, existsBefore, {}) == done + Plan(tables[i..], models, path, existsBefore, taken)
      invariant skipped == Skipped(done) && puts == Puts(done) && generated == |puts|
      invariant FreshPuts(puts, existsBefore, taken) && DistinctPuts(puts)
    {
      var o := Step(tables[i], models, path, existsBefore, taken);
      PlanFrom(tables, i, models, path, existsBefore, taken);
      ghost var tail := Plan(tables[i + 1..], models, path, existsBefore, Taken(taken, o));
      assert done + ([o] + tail) == (done + [o]) + tail;
      if o.Generated? {
        AddPut(puts, o.path, o.factory, existsBefore, taken);
        puts := puts + [Put(o.path, o.factory)];
        generated := generated + 1;
      } else {
        skipped := skipped + [Label(o)];
      }
      taken := Taken(taken, o);
      PutsAppend(done, o);
      done := done + [o];
    }
    assert tables[|tables|..] == [];
    assert done == Plan(tables, models, path, existsBefore, {});
    PutsPlusSkipped(done);
  }

  /** `generate`: the directory is created when missing, then the factories `Sweep`
      decides on are written. */
  method Generate(schema: Database, models: Models, path: string, isDirectory: bool,
                  existsBefore: string -> bool)
    returns (generated: nat, skipped: seq<string>, writes: seq<FileOp<Factory>>)
    ensures var plan := Plan(schema.tables, models, path, existsBefore, {});
      skipped == Skipped(plan)
      && writes == EnsureDirectory(path, isDirectory) + Puts(plan)
      && generated == |Puts(plan)|
    ensures generated + |skipped| == |schema.tables|
    ensures forall k :: |EnsureDirectory<Factory>(path, isDirectory)| <= k < |writes| ==>
      writes[k].Put? && !existsBefore(writes[k].path)
  {
    var puts;
    generated, skipped, puts := Sweep(schema.tables, models, path, existsBefore);
    writes := EnsureDirectory(path, isDirectory) + puts;
  }
}

=== FILE: faker_value_resolver.dfy ===
/** Value resolution for one column of one generated row (`FakerValueResolver`).
    The outcome is a `Cell`: either a concrete value, or a tag naming which generator
    would produce it (Faker, `Hash::make`, `Str::random`), so the model states which
    branch of the precedence chain fires. Database reads, record creation through a
    model factory, and Faker calls are oracles carried in an `Env`. */
module FakerValueResolver {
  import opened Wrappers
  import opened Strings
  import opened PhpValue
  import opened Schema

  /** The generators the name/type heuristic can pick. */
  datatype Gen =
    | DateTimeBetween      // `$faker->dateTimeBetween('-1 year', 'now')`
    | HashedPassword       // `Hash::make('password')`
    | Random40             // `Str::random(40)`
    | UniqueSafeEmail
    | UniqueUserName
    | FirstName
    | LastName
    | FullName
    | PhoneNumber
    | StreetAddress
    | City
    | State
    | Postcode
    | Country
    | Url
    | Uuid
    | Slug                 // `Str::slug($faker->sentence(3))`
    | Paragraph
    | Words3               // `$faker->words(3, true)`
    | NumberBetween        // `$faker->numberBetween(1, 10_000)`
    | RandomFloat          // `$faker->randomFloat(2, 1, 10_000)`
    | RandomBool
    | Date
    | JsonWord             // `json_encode(['value' => $faker->word()])`
    | Text50

  /** A resolved cell. `Given` is a concrete value (a literal rule, a value read from
      the database, a created record's key, or null); `Hashed` is `Hash::make(plain)`;
      `Generated` is a heuristic generator; `FakerCall` and `FakerFormat` are a rule's
      Faker formatter, called directly or through `format()`, with the value it
      returned. */
  datatype Cell =
    | Given(v: Value)
    | Hashed(plain: string)
    | Generated(g: Gen)
    | FakerCall(formatter: string, unique: bool, args: seq<Value>, result: Value)
    | FakerFormat(formatter: string, unique: bool, result: Value)

  /** The cell is PHP null. Heuristic generators and hashes never are. */
  predicate IsNull(c: Cell) {
    match c
    case Given(v) => v == Null
    case FakerCall(_, _, _, v) => v == Null
    case FakerFormat(_, _, v) => v == Null
    case _ => false
  }

  /** The outside world as the resolver sees it.
      `pick(fk)`: `inRandomOrder()->value(column)` on the foreign table (null when empty).
      `create(table, column)`: a record made through the table's model factory, read at
      `column`; null when there is no model, no factory, or creation fails.
      `hasMethod(m)`: `method_exists($faker, m)`.
      `call(m, unique, args)`: the formatter's result, none when it throws.
      `format(m, unique)`: the `format(m)` retry's result, none when it throws or the
      generator has no `format` method.
      `plural(s)`: `Str::plural`. */
  datatype Env = Env(
    pick: ForeignKey -> Value,
    create: (string, string) -> Value,
    hasMethod: string -> bool,
    call: (string, bool, seq<Value>) -> Option<Value>,
    format: (string, bool) -> Option<Value>,
    plural: string -> string)

  // ----- name helpers -----

  predicate In(s: string, options: seq<string>) {
    s in options
  }

  const DateTimeTypes: seq<string> := ["datetime", "datetimetz", "datetime_immutable", "datetimetz_immutable"]

  /** The timestamp test that comes before every other: a name ending in `_at` or
      containing `_timestamp`, or a date-time type. */
  predicate IsTimestamp(name: string, typeName: string) {
    EndsWith(name, "_at") || Contains(name, "_timestamp") || In(typeName, DateTimeTypes)
  }

  /** The generator the heuristic picks for a column, or none (null) when nothing
      matches. Names are lower-cased first; timestamps are recognised before anything
      else, then name patterns, then types. */
  function Heuristic(columnName: string, typeName: string): (r: Option<Gen>)
    ensures IsTimestamp(Lower(columnName), typeName) ==> r == Some(DateTimeBetween)
    ensures !IsTimestamp(Lower(columnName), typeName) && ByName(Lower(columnName)).Some? ==>
      r == ByName(Lower(columnName))
    ensures !IsTimestamp(Lower(columnName), typeName) && ByName(Lower(columnName)).None? ==>
      r == ByType(typeName)
  {
    var name := Lower(columnName);
    if IsTimestamp(name, typeName) then Some(DateTimeBetween)
    else
      match ByName(name)
      case Some(g) => Some(g)
      case None => ByType(typeName)
  }

  /** The name patterns of the heuristic, in the order they are tried. */
  function ByName(name: string): (r: Option<Gen>)
    ensures Contains(name, "password") ==> r == Some(HashedPassword)
    ensures (Contains(name, "email") && !Contains(name, "password") && !Contains(name, "token")
             && !Contains(name, "api_key") && !Contains(name, "secret")) ==> r == Some(UniqueSafeEmail)
    ensures r != Some(Text50)
  {
    if Contains(name, "password") then Some(HashedPassword)
    else if Contains(name, "token") || Contains(name, "api_key") || Contains(name, "secret") then Some(Random40)
    else if name == "email" || Contains(name, "email") then Some(UniqueSafeEmail)
    else if name == "username" || Contains(name, "user_name") then Some(UniqueUserName)
    else if name == "first_name" then Some(FirstName)
    else if name == "last_name" then Some(LastName)
    else if name == "name" then Some(FullName)
    else if Contains(name, "phone") then Some(PhoneNumber)
    else if Contains(name, "address") then Some(StreetAddress)
    else if name == "city" then Some(City)
    else if In(name, ["state", "province", "region"]) then Some(State)
    else if In(name, ["zip", "zipcode", "postal_code"]) then Some(Postcode)
    else if name == "country" then Some(Country)
    else if Contains(name, "url") || Contains(name, "website") then Some(Url)
    else if Contains(name, "uuid") then Some(Uuid)
    else if Contains(name, "slug") then Some(Slug)
    else None
  }

  /** The type step of the heuristic. Its second date-time test can never fire: the
      timestamp test has already taken those types. */
  function ByType(t: string): (r: Option<Gen>)
    ensures In(t, ["integer", "bigint", "smallint"]) ==> r == Some(NumberBetween)
    ensures Contains(t, "int") && !In(t, ["string", "text"]) ==> r == Some(NumberBetween)
    ensures r == Some(Text50) <==> In(t, ["blob", "binary"])
    ensures r.None? <==> !Contains(t, "int") && !In(t, KnownTypes)
  {
    NotContains("blob", "int", 0);
    NotContains("binary", "int", 2);
    if In(t, ["string", "text"]) then (if t == "text" then Some(Paragraph) else Some(Words3))
    else if In(t, ["integer", "bigint", "smallint"]) || Contains(t, "int") then Some(NumberBetween)
    else if In(t, ["decimal", "float"]) then Some(RandomFloat)
    else if t == "boolean" then Some(RandomBool)
    else if In(t, ["date", "date_immutable"]) then Some(Date)
    else if In(t, DateTimeTypes) then Some(DateTimeBetween)
    else if In(t, ["json", "jsonb"]) then Some(JsonWord)
    else if In(t, ["blob", "binary"]) then Some(Text50)
    else None
  }

  /** Every type the type step names. */
  const KnownTypes: seq<string> := ["string", "text", "integer", "bigint", "smallint", "decimal", "float", "boolean",
    "date", "date_immutable", "json", "jsonb", "blob", "binary"] + DateTimeTypes

  /** `fallback`: a non-null value for a non-nullable column whose resolved value was
      null. */
  function Fallback(column: Column): (r: Cell)
    ensures !IsNull(r)
    ensures column.typeName == "boolean" ==> r == Given(Bool(false))
    ensures column.typeName != "boolean" && Contains(column.typeName, "int") ==> r == Given(Int(1))
    ensures In(column.typeName, ["decimal", "float"]) ==> r == Given(Int(0))
    ensures r == Given(Str("n/a")) <==>
      (column.typeName != "boolean" && !Contains(column.typeName, "int")
       && !In(column.typeName, ["decimal", "float"]) && Heuristic(column.name, column.typeName).None?)
  {
    NotContains("decimal", "int", 1);
    NotContains("float", "int", 0);
    var t := column.typeName;
    if t == "boolean" then Given(Bool(false))
    else if Contains(t, "int") then Given(Int(1))
    else if In(t, ["decimal", "float"]) then Given(Int(0))
    else
      match Heuristic(column.name, t)
      case Some(g) => Generated(g)
      case None => Given(Str("n/a"))
  }

  /** `normalizeFakerMethod`: the trimmed name when the generator has it; otherwise a
      known alias of `dateTime`/`dateTimeBetween` (matched case-insensitively) when the
      generator has that; otherwise the trimmed name unchanged. A blank name gives
      none. */
  function NormalizeFakerMethod(name: string, hasMethod: string -> bool): (r: Option<string>)
    ensures r.None? <==> Trim(name) == ""
    ensures r.Some? ==> r.value == Trim(name) || (r.value in AliasTargets && hasMethod(r.value))
    ensures r.Some? && hasMethod(Trim(name)) ==> r.value == Trim(name)
    ensures (Trim(name) != "" && !hasMethod(Trim(name)) && Alias(Lower(Trim(name))).Some?
             && hasMethod(Alias(Lower(Trim(name))).value)) ==> r == Alias(Lower(Trim(name)))
    ensures (Trim(name) != "" && (hasMethod(Trim(name)) || Alias(Lower(Trim(name))).None?
                                  || !hasMethod(Alias(Lower(Trim(name))).value))) ==> r == Some(Trim(name))
  {
    var m := Trim(name);
    if m == "" then None
    else if hasMethod(m) then Some(m)
    else
      match Alias(Lower(m))
      case Some(resolved) => if hasMethod(resolved) then Some(resolved) else Some(m)
      case None => Some(m)
  }

  const AliasTargets: seq<string> := ["dateTime", "dateTimeBetween"]

  /** The alias table of `normalizeFakerMethod`, keyed by the lower-cased name. */
  function Alias(key: string): (r: Option<string>)
    ensures r.Some? ==> r.value in AliasTargets
    ensures r == Some("dateTime") <==> key in ["datetime", "date_time", "date-time", "timestamp"]
    ensures r == Some("dateTimeBetween") <==> key in ["datetimebetween", "date_time_between", "date-time-between"]
  {
    if key in ["datetime", "date_time", "date-time", "timestamp"] then Some("dateTime")
    else if key in ["datetimebetween", "date_time_between", "date-time-between"] then Some("dateTimeBetween")
    else None
  }

  // ----- foreign keys -----

  /** The name of the first primary-key column, if any. */
  function FirstPrimaryKey(columns: seq<Column>): (r: Option<string>)
    ensures r.None? <==> forall i :: 0 <= i < |columns| ==> !columns[i].isPrimaryKey
    ensures r.Some? ==> exists i :: 0 <= i < |columns| && columns[i].isPrimaryKey && columns[i].name == r.value
                          && forall j :: 0 <= j < i ==> !columns[j].isPrimaryKey
  {
    if |columns| == 0 then None
    else if columns[0].isPrimaryKey then Some(columns[0].name)
    else
      var r := FirstPrimaryKey(columns[1..]);
      assert forall i :: 1 <= i < |columns| ==> columns[i] == columns[1..][i - 1];
      r
  }

  /** `Str::beforeLast($name, '_id')` for a name ending in `_id`: the last occurrence is
      the suffix itself. */
  function BaseName(name: string): (r: string)
    requires EndsWith(name, "_id")
    ensures name == r + "_id"
  {
    name[..|name| - 3]
  }

  /** `inferForeignKey`: a column `<base>_id` with a non-empty base refers to the
      table `plural(base)` when the schema has it, at its first primary-key column,
      or `id` when it has none. */
  function InferForeignKey(column: Column, schema: Database, plural: string -> string): (r: Option<ForeignKey>)
    ensures r.Some? <==>
      EndsWith(column.name, "_id") && |column.name| > 3 && TableOf(schema, plural(BaseName(column.name))).Some?
    ensures r.Some? ==> r.value.foreignTable == plural(BaseName(column.name))
    ensures r.Some? ==>
      r.value.foreignColumn == FirstPrimaryKey(TableOf(schema, r.value.foreignTable).value.columns).GetOr("id")
  {
    if !EndsWith(column.name, "_id") then None
    else
      var base := BaseName(column.name);
      if base == "" then None
      else
        var guess := plural(base);
        match TableOf(schema, guess)
        case None => None
        case Some(t) =>
          var pk := match FirstPrimaryKey(t.columns)
                    case Some(p) => p
                    case None => match Lookup(t, "id") case Some(c) => c.name case None => "id";
          Some(ForeignKey(guess, pk))
  }

  /** `foreignKeyFromRuleOrInference`: the rule's `table` when it is a non-empty string
      naming a schema table, with the rule's non-empty `column` or `id`; otherwise the
      inferred foreign key. */
  function ForeignKeyFromRuleOrInference(column: Column, schema: Database, rule: Value,
                                         plural: string -> string): (r: Option<ForeignKey>)
    ensures RuleTable(rule, schema).Some? ==>
      r == Some(ForeignKey(RuleTable(rule, schema).value, RuleColumn(rule)))
    ensures RuleTable(rule, schema).None? ==> r == InferForeignKey(column, schema, plural)
  {
    match RuleTable(rule, schema)
    case Some(t) => Some(ForeignKey(t, RuleColumn(rule)))
    case None => InferForeignKey(column, schema, plural)
  }

  /** The rule's `table`, when it is a non-empty string naming a schema table. */
  function RuleTable(rule: Value, schema: Database): (r: Option<string>)
    ensures r.Some? <==> Get(rule, "table").Str? && Get(rule, "table").s != ""
                         && TableOf(schema, Get(rule, "table").s).Some?
    ensures r.Some? ==> r.value == Get(rule, "table").s
  {
    var t := Get(rule, "table");
    if t.Str? && t.s != "" && TableOf(schema, t.s).Some? then Some(t.s) else None
  }

  /** The rule's `column` when a non-empty string, otherwise `id`. */
  function RuleColumn(rule: Value): (r: string)
    ensures Get(rule, "column").Str? && Get(rule, "column").s != "" ==> r == Get(rule, "column").s
    ensures !(Get(rule, "column").Str? && Get(rule, "column").s != "") ==> r == "id"
  {
    var c := Get(rule, "column");
    if c.Str? && c.s != "" then c.s else "id"
  }

  // ----- resolution -----

  /** The rule step of `resolve`: a cell, or none to fall through to the schema-driven
      steps. */
  function ResolveRule(column: Column, schema: Database, rule: Value, env: Env): (r: Option<Cell>)
    ensures !Truthy(rule) ==> r.None?
    ensures Truthy(rule) && Get(rule, "strategy") == Str("literal") ==> r == Some(Given(Get(rule, "value")))
    ensures Truthy(rule) && Get(rule, "strategy") == Str("hash") ==>
      r == Some(Hashed(if Get(rule, "value") == Null then "password" else ToStr(Get(rule, "value"))))
    ensures Truthy(rule) && Get(rule, "strategy") == Str("fk") ==>
      var fk := ForeignKeyFromRuleOrInference(column, schema, rule, env.plural);
      && (fk.None? ==> r.None?)
      && (fk.Some? && env.pick(fk.value) != Null ==> r == Some(Given(env.pick(fk.value))))
      && (fk.Some? && env.pick(fk.value) == Null && Truthy(Get(rule, "create")) ==>
            r == Some(Given(env.create(fk.value.foreignTable, fk.value.foreignColumn))))
      && (fk.Some? && env.pick(fk.value) == Null && !Truthy(Get(rule, "create")) ==> r.None?)
    ensures Truthy(rule) && Get(rule, "strategy") == Str("faker") ==> r == FakerRule(rule, env)
    ensures Get(rule, "strategy") !in [Str("literal"), Str("hash"), Str("fk"), Str("faker")] ==> r.None?
  {
    if !Truthy(rule) then None
    else
      var strategy := Get(rule, "strategy");
      if strategy == Str("literal") then Some(Given(Get(rule, "value")))
      else if strategy == Str("hash") then
        var v := Get(rule, "value");
        Some(Hashed(ToStr(if v == Null then Str("password") else v)))
      else if strategy == Str("fk") then
        match ForeignKeyFromRuleOrInference(column, schema, rule, env.plural)
        case None => None
        case Some(fk) =>
          var v := env.pick(fk);
          if v != Null then Some(Given(v))
          else if Truthy(Get(rule, "create")) then Some(Given(env.create(fk.foreignTable, fk.foreignColumn)))
          else None
      else if strategy == Str("faker") then FakerRule(rule, env)
      else None
  }

  /** The arguments of a `faker` rule: the values of its `args` array, in order;
      none when `args` is not an array. */
  function FakerArgs(rule: Value): (r: seq<Value>)
    ensures Get(rule, "args").Arr? ==> r == Values(Get(rule, "args"))
    ensures !Get(rule, "args").Arr? ==> r == []
  {
    var rawArgs := Get(rule, "args");
    if rawArgs.Arr? then Values(rawArgs) else []
  }

  /** The `faker` strategy: the normalised formatter is called with the rule's `args`
      (ignored unless an array), on the unique generator when `unique` is truthy;
      when the call throws, `format(method)` is tried; when that fails too, nothing. */
  function FakerRule(rule: Value, env: Env): (r: Option<Cell>)
    ensures !Get(rule, "method").Str? ==> r.None?
    ensures r.Some? ==> var m := NormalizeFakerMethod(Get(rule, "method").s, env.hasMethod);
      m.Some? && (r.value.FakerCall? || r.value.FakerFormat?) && r.value.formatter == m.value
      && r.value.unique == Truthy(Get(rule, "unique"))
    ensures Get(rule, "method").Str? && NormalizeFakerMethod(Get(rule, "method").s, env.hasMethod).None? ==> r.None?
    ensures Get(rule, "method").Str? && NormalizeFakerMethod(Get(rule, "method").s, env.hasMethod).Some? ==>
      var m := NormalizeFakerMethod(Get(rule, "method").s, env.hasMethod).value;
      var unique := Truthy(Get(rule, "unique"));
      var call := env.call(m, unique, FakerArgs(rule));
      && (call.Some? ==> r == Some(FakerCall(m, unique, FakerArgs(rule), call.value)))
      && (call.None? && env.format(m, unique).Some? ==> r == Some(FakerFormat(m, unique, env.format(m, unique).value)))
      && (call.None? && env.format(m, unique).None? ==> r.None?)
  {
    var requested := Get(rule, "method");
    var unique := Truthy(Get(rule, "unique"));
    var args := FakerArgs(rule);
    if !requested.Str? then None
    else
      match NormalizeFakerMethod(requested.s, env.hasMethod)
      case None => None
      case Some(m) =>
        match env.call(m, unique, args)
        case Some(v) => Some(FakerCall(m, unique, args, v))
        case None =>
          match env.format(m, unique)
          case Some(v) => Some(FakerFormat(m, unique, v))
          case None => None
  }

  /** The schema-driven steps of `resolve`: a declared foreign key (an existing value,
      else a created record's), else an inferred foreign key (an existing value, never
      creating), else the heuristic (null when it has nothing). */
  function ResolveFromSchema(column: Column, schema: Database, env: Env): (r: Cell)
    ensures column.foreignKey.Some? ==>
      r == Given(if env.pick(column.foreignKey.value) != Null then env.pick(column.foreignKey.value)
                 else env.create(column.foreignKey.value.foreignTable, column.foreignKey.value.foreignColumn))
    ensures column.foreignKey.None? && InferForeignKey(column, schema, env.plural).Some? ==>
      r == Given(env.pick(InferForeignKey(column, schema, env.plural).value))
    ensures column.foreignKey.None? && InferForeignKey(column, schema, env.plural).None? ==>
      r == (match Heuristic(column.name, column.typeName) case Some(g) => Generated(g) case None => Given(Null))
  {
    match column.foreignKey
    case Some(fk) =>
      var v := env.pick(fk);
      if v != Null then Given(v) else Given(env.create(fk.foreignTable, fk.foreignColumn))
    case None =>
      match InferForeignKey(column, schema, env.plural)
      case Some(fk) => Given(env.pick(fk))
      case None =>
        match Heuristic(column.name, column.typeName)
        case Some(g) => Generated(g)
        case None => Given(Null)
  }

  /** `resolve`: the rule step, falling through to the schema-driven steps. */
  function Resolve(column: Column, schema: Database, rule: Value, env: Env): (r: Cell)
    ensures ResolveRule(column, schema, rule, env).Some? ==> r == ResolveRule(column, schema, rule, env).value
    ensures ResolveRule(column, schema, rule, env).None? ==> r == ResolveFromSchema(column, schema, env)
  {
    match ResolveRule(column, schema, rule, env)
    case Some(c) => c
    case None => ResolveFromSchema(column, schema, env)
  }

  // ----- properties -----

  /** A literal rule wins over everything, even a declared foreign key. */
  lemma LiteralBeatsForeignKey(column: Column, schema: Database, rule: Value, env: Env)
    requires Truthy(rule) && Get(rule, "strategy") == Str("literal")
    ensures Resolve(column, schema, rule, env) == Given(Get(rule, "value"))
  {
  }

  /** A hash rule without a value hashes `password`. */
  lemma HashDefaultsToPassword(column: Column, schema: Database, env: Env)
    ensures Resolve(column, schema, Arr([(StrKey("strategy"), Str("hash"))]), env) == Hashed("password")
  {
    var rule := Arr([(StrKey("strategy"), Str("hash"))]);
    assert Get(rule, "strategy") == Str("hash");
    assert Get(rule, "value") == Null by {
      assert StrKey("strategy") != StrKey("value") by { assert |"strategy"| != |"value"|; }
    }
  }

  /** An `fk` rule that finds no existing value and may not create one falls through:
      the result is what the schema-driven steps give. */
  lemma FkRuleFallsThrough(column: Column, schema: Database, rule: Value, env: Env)
    requires Truthy(rule) && Get(rule, "strategy") == Str("fk")
    requires !Truthy(Get(rule, "create"))
    requires forall fk :: env.pick(fk) == Null
    ensures Resolve(column, schema, rule, env) == ResolveFromSchema(column, schema, env)
  {
  }

  /** Outside rules, a declared foreign key is used even when a table matching the
      `_id` guess exists; an inferred one is never used to create records. */
  lemma DeclaredBeatsInferred(column: Column, schema: Database, env: Env)
    requires column.foreignKey.Some?
    ensures Resolve(column, schema, Null, env).Given?
    ensures env.pick(column.foreignKey.value) != Null ==>
      Resolve(column, schema, Null, env) == Given(env.pick(column.foreignKey.value))
  {
  }

  /** Any column named `..._at` is a timestamp, whatever its type and whatever else
      its name contains: `email_verified_at` is not an e-mail address. */
  lemma AtSuffixIsDateTime(name: string, typeName: string)
    requires EndsWith(name, "_at")
    ensures Heuristic(name, typeName) == Some(DateTimeBetween)
    ensures Heuristic("email_verified_at", typeName) == Some(DateTimeBetween)
  {
    LowerKeepsSuffix(name, "_at");
    var example := "email_verified_at";
    assert example[|example| - 3..] == "_at";
    LowerKeepsSuffix(example, "_at");
  }

  /** Lower-casing keeps a suffix that has no upper-case letter. */
  lemma LowerKeepsSuffix(s: string, suffix: string)
    requires EndsWith(s, suffix)
    requires forall i :: 0 <= i < |suffix| ==> LowerChar(suffix[i]) == suffix[i]
    ensures EndsWith(Lower(s), suffix)
  {
    var n := |s| - |suffix|;
    var l := Lower(s);
    forall i | 0 <= i < |suffix|
      ensures l[n + i] == suffix[i]
    {
      assert s[n..][i] == s[n + i];
    }
    assert l[n..] == suffix;
  }

  /** A column whose name matches no pattern and whose type is unrecognised gets no
      heuristic value; `fallback` still gives `'n/a'`. */
  lemma UnknownTypeIsNull()
    ensures Heuristic("shape", "geometry") == None
    ensures Fallback(Column("shape", "geometry", false, false, false, None)) == Given(Str("n/a"))
  {
    ShapeIsNotTimestamp();
    ShapeHasNoNamePattern();
    GeometryHasNoType();
    assert Heuristic("shape", "geometry") == None;
  }

  lemma ShapeIsNotTimestamp()
    ensures Lower("shape") == "shape" && !IsTimestamp("shape", "geometry")
  {
    LowerOfLower("shape");
    NotContains("shape", "_timestamp", 0);
  }

  lemma GeometryHasNoType()
    ensures ByType("geometry") == None && !Contains("geometry", "int")
  {
    NotContains("geometry", "int", 0);
  }

  lemma ShapeHasNoNamePattern()
    ensures ByName("shape") == None
  {
    var name := "shape";
    NotContains(name, "password", 4);
    NotContains(name, "token", 0);
    NotContains(name, "api_key", 2);
    NotContains(name, "secret", 2);
    NotContains(name, "email", 1);
    NotContains(name, "user_name", 0);
    NotContains(name, "phone", 2);
    NotContains(name, "address", 1);
    NotContains(name, "url", 0);
    NotContains(name, "website", 0);
    NotContains(name, "uuid", 0);
    NotContains(name, "slug", 1);
  }

  /** A blank method name is dropped, a lower-case alias resolves when the generator
      has the target, and an unknown name is kept as written. */
  lemma FakerMethodExamples(hasMethod: string -> bool)
    requires hasMethod("dateTime") && !hasMethod("datetime") && !hasMethod("ean99")
    ensures NormalizeFakerMethod("  ", hasMethod) == None
    ensures NormalizeFakerMethod("datetime", hasMethod) == Some("dateTime")
    ensures NormalizeFakerMethod("ean99", hasMethod) == Some("ean99")
  {
    assert TrimLeft("  ") == "";
    DatetimeName();
    Ean99Name();
  }

  lemma DatetimeName()
    ensures Trim("datetime") == "datetime" && Alias(Lower("datetime")) == Some("dateTime")
  {
    CleanName("datetime");
  }

  lemma Ean99Name()
    ensures Trim("ean99") == "ean99" && Alias(Lower("ean99")) == None
  {
    CleanName("ean99");
    assert Alias("ean99") == None;
  }

  /** A trimmed lower-case name is its own trim and its own lower-case form. */
  lemma CleanName(s: string)
    requires IsTrimmed(s)
    requires forall i :: 0 <= i < |s| ==> LowerChar(s[i]) == s[i]
    ensures Trim(s) == s && Lower(s) == s
  {
    TrimOfTrimmed(s);
  }

  /** A string with no upper-case ASCII letter is its own lower-case form. */
  lemma LowerOfLower(s: string)
    requires forall i :: 0 <= i < |s| ==> !('A' <= s[i] <= 'Z')
    ensures Lower(s) == s
  {
  }

  /** A needle holding a character the string lacks does not occur in it. */
  lemma NotContains(s: string, needle: string, k: int)
    requires 0 <= k < |needle| && needle[k] !in s
    ensures !Contains(s, needle)
  {
  }
}

=== FILE: files.dfy ===
/** The filesystem writes of the generators, recorded as operations instead of being
    performed, and the path joining they share. */
module Files {
  import opened Strings

  /** `makeDirectory($path, 0755, true)` or `put($path, $content)`. */
  datatype FileOp<C> = MakeDirectory(path: string) | Put(path: string, content: C)

  /** `rtrim($dir, DIRECTORY_SEPARATOR) . DIRECTORY_SEPARATOR . $file` with `/` as the
      separator. */
  function JoinPath(dir: string, file: string): (r: string)
    ensures EndsWith(r, file)
    ensures |r| > |file| && r[|r| - |file| - 1] == '/'
    ensures StartsWith(r, DropTrailing(dir, '/'))
  {
    var d := DropTrailing(dir, '/');
    assert (d + "/" + file)[..|d|] == d;
    assert (d + "/" + file)[|d| + 1..] == file;
    d + "/" + file
  }

  /** Trailing separators on the directory make no difference to the joined path. */
  lemma {:induction false} JoinPathIgnoresTrailingSeparator(dir: string, file: string)
    ensures JoinPath(dir + "/", file) == JoinPath(dir, file)
  {
    var s := dir + "/";
    assert s[..|s| - 1] == dir;
  }

  /** Two files joined onto the same directory get the same path only when they
      have the same name. */
  lemma {:induction false} JoinPathInjective(dir: string, a: string, b: string)
    ensures JoinPath(dir, a) == JoinPath(dir, b) <==> a == b
  {
    var d := DropTrailing(dir, '/');
    if JoinPath(dir, a) == JoinPath(dir, b) {
      assert a == JoinPath(dir, a)[|d| + 1..];
    }
  }

  /** The directory creation that precedes the writes: none when it already exists. */
  function EnsureDirectory<C>(path: string, isDirectory: bool): (r: seq<FileOp<C>>)
    ensures |r| <= 1
    ensures |r| == 1 <==> !isDirectory
    ensures forall i :: 0 <= i < |r| ==> r[i] == MakeDirectory(path)
  {
    if isDirectory then [] else [MakeDirectory(path)]
  }
}

=== FILE: introspector.dfy ===
/** Snapshot assembly (`Introspector::introspect`) over catalog records, and the mapping
    from a Laravel connection's driver and configuration to Doctrine connection
    parameters (`doctrineParamsFromIlluminateConnection`). The catalog itself (what the
    database reports for each table) is an input. */
module Introspector {
  import opened Wrappers
  import opened Strings
  import opened Sorting
  import opened PhpValue
  import opened Schema

  /** A column as the catalog reports it; `typeName` is already the resolved name. */
  datatype CatalogColumn = CatalogColumn(name: string, typeName: string, notNull: bool, autoincrement: bool)

  /** A foreign-key constraint: local columns paired by position with foreign columns. */
  datatype CatalogForeignKey = CatalogForeignKey(
    localColumns: seq<string>, foreignColumns: seq<string>, foreignTable: string)

  /** A table's details: its primary key's columns when it has one, its foreign keys and
      its columns in declaration order. */
  datatype CatalogTable = CatalogTable(
    primaryKey: Option<seq<string>>, foreignKeys: seq<CatalogForeignKey>, columns: seq<CatalogColumn>)

  /** `$foreignColumns[$idx] ?? $foreignColumns[0] ?? 'id'`. */
  function ForeignColumnAt(foreignColumns: seq<string>, idx: nat): (r: string)
    ensures idx < |foreignColumns| ==> r == foreignColumns[idx]
    ensures idx >= |foreignColumns| && |foreignColumns| > 0 ==> r == foreignColumns[0]
    ensures |foreignColumns| == 0 ==> r == "id"
  {
    if idx < |foreignColumns| then foreignColumns[idx]
    else if |foreignColumns| > 0 then foreignColumns[0]
    else "id"
  }

  /** Position `j` is the last of the first `k` positions holding `c`. */
  predicate LastAt(xs: seq<string>, c: string, j: int, k: int) {
    0 <= j < k <= |xs| && xs[j] == c && forall j' :: j < j' < k ==> xs[j'] != c
  }

  /** The entries one constraint contributes for its first `k` local columns: each
      local column maps to the constraint's table and the positionally matching foreign
      column. */
  function ConstraintMap(fk: CatalogForeignKey, k: nat): map<string, ForeignKey>
    requires k <= |fk.localColumns|
  {
    if k == 0 then map[]
    else ConstraintMap(fk, k - 1)[fk.localColumns[k - 1] := ForeignKey(fk.foreignTable, ForeignColumnAt(fk.foreignColumns, k - 1))]
  }

  /** A column has an entry exactly when it is among the first `k` local columns. */
  lemma {:induction false} ConstraintMapDomain(fk: CatalogForeignKey, k: nat)
    requires k <= |fk.localColumns|
    ensures forall c :: c in ConstraintMap(fk, k) <==> c in fk.localColumns[..k]
  {
    if k > 0 {
      ConstraintMapDomain(fk, k - 1);
      assert fk.localColumns[..k] == fk.localColumns[..k - 1] + [fk.localColumns[k - 1]];
    }
  }

  /** A local column listed twice in one constraint keeps its later position `j`. */
  lemma {:induction false} ConstraintMapValue(fk: CatalogForeignKey, k: nat, c: string) returns (j: int)
    requires k <= |fk.localColumns| && c in ConstraintMap(fk, k)
    ensures LastAt(fk.localColumns, c, j, k)
    ensures ConstraintMap(fk, k)[c] == ForeignKey(fk.foreignTable, ForeignColumnAt(fk.foreignColumns, j))
  {
    var m := ConstraintMap(fk, k);
    if fk.localColumns[k - 1] == c {
      j := k - 1;
    } else {
      var prev := ConstraintMap(fk, k - 1);
      assert m[c] == prev[c];
      j := ConstraintMapValue(fk, k - 1, c);
    }
  }

  /** Constraint `i` is the last of the first `n` listing local column `c`. */
  predicate LastConstraint(fks: seq<CatalogForeignKey>, c: string, i: int, n: int) {
    0 <= i < n <= |fks| && c in fks[i].localColumns && forall i' :: i < i' < n ==> c !in fks[i'].localColumns
  }

  /** `$foreignKeysByLocalColumn` after the first `n` constraints. */
  function ByLocalColumn(fks: seq<CatalogForeignKey>, n: nat): map<string, ForeignKey>
    requires n <= |fks|
  {
    if n == 0 then map[]
    else ByLocalColumn(fks, n - 1) + ConstraintMap(fks[n - 1], |fks[n - 1].localColumns|)
  }

  /** A column has an entry exactly when one of the first `n` constraints lists it. */
  lemma {:induction false} ByLocalColumnDomain(fks: seq<CatalogForeignKey>, n: nat)
    requires n <= |fks|
    ensures forall c :: c in ByLocalColumn(fks, n) <==> exists i :: 0 <= i < n && c in fks[i].localColumns
  {
    if n > 0 {
      ByLocalColumnDomain(fks, n - 1);
      ByLocalColumnStep(fks, n);
      var last := fks[n - 1];
      ConstraintMapDomain(last, |last.localColumns|);
      assert last.localColumns[..|last.localColumns|] == last.localColumns;
      forall c | c in ByLocalColumn(fks, n)
        ensures exists i :: 0 <= i < n && c in fks[i].localColumns
      {
        if c !in last.localColumns {
          var i :| 0 <= i < n - 1 && c in fks[i].localColumns;
        }
      }
    }
  }

  /** A later constraint on the same local column overrides an earlier one: the
      entry comes from constraint `i`, the last one listing the column. */
  lemma {:induction false} ByLocalColumnValue(fks: seq<CatalogForeignKey>, n: nat, c: string) returns (i: int)
    requires n <= |fks| && c in ByLocalColumn(fks, n)
    ensures LastConstraint(fks, c, i, n)
    ensures c in ConstraintMap(fks[i], |fks[i].localColumns|)
    ensures ByLocalColumn(fks, n)[c] == ConstraintMap(fks[i], |fks[i].localColumns|)[c]
  {
    var last := fks[n - 1];
    var lm := ConstraintMap(last, |last.localColumns|);
    var prev := ByLocalColumn(fks, n - 1);
    ByLocalColumnStep(fks, n);
    ConstraintMapDomain(last, |last.localColumns|);
    assert last.localColumns[..|last.localColumns|] == last.localColumns;
    if c in last.localColumns {
      UnionLookup(prev, lm, c);
      i := n - 1;
      assert ByLocalColumn(fks, n)[c] == lm[c];
    } else {
      UnionLookup(prev, lm, c);
      assert ByLocalColumn(fks, n)[c] == prev[c];
      i := ByLocalColumnValue(fks, n - 1, c);
      LastConstraintExtend(fks, c, i, n);
    }
  }

  /** One more constraint adds its own entries over the earlier ones. */
  lemma ByLocalColumnStep(fks: seq<CatalogForeignKey>, n: nat)
    requires 0 < n <= |fks|
    ensures ByLocalColumn(fks, n) == ByLocalColumn(fks, n - 1) + ConstraintMap(fks[n - 1], |fks[n - 1].localColumns|)
  {
  }

  lemma LastConstraintExtend(fks: seq<CatalogForeignKey>, c: string, i: int, n: int)
    requires 0 < n <= |fks| && LastConstraint(fks, c, i, n - 1) && c !in fks[n - 1].localColumns
    ensures LastConstraint(fks, c, i, n)
  {
  }

  lemma UnionLookup(a: map<string, ForeignKey>, b: map<string, ForeignKey>, c: string)
    requires c in a || c in b
    ensures c in b ==> (a + b)[c] == b[c]
    ensures c !in b ==> (a + b)[c] == a[c]
  {
  }

  /** One column of the snapshot: nullability is the negated not-null flag, it is a
      primary-key column exactly when its name is listed in the key, and it carries
      the foreign key recorded for its name, if any. */
  function SnapshotColumn(col: CatalogColumn, primaryColumns: seq<string>,
                          fks: map<string, ForeignKey>): (r: Column)
    ensures r.name == col.name && r.typeName == col.typeName
    ensures r.nullable == !col.notNull && r.autoIncrement == col.autoincrement
    ensures r.isPrimaryKey <==> col.name in primaryColumns
    ensures r.foreignKey.Some? <==> col.name in fks
    ensures r.foreignKey.Some? ==> r.foreignKey.value == fks[col.name]
  {
    Column(col.name, col.typeName, !col.notNull, col.autoincrement, col.name in primaryColumns,
           if col.name in fks then Some(fks[col.name]) else None)
  }

  /** The primary key's column names, or none when the table has no primary key. */
  function PrimaryColumns(details: CatalogTable): (r: seq<string>)
    ensures details.primaryKey.None? ==> r == []
    ensures details.primaryKey.Some? ==> r == details.primaryKey.value
  {
    match details.primaryKey
    case None => []
    case Some(cs) => cs
  }

  /** The snapshot of one table, its columns in catalog order. */
  function SnapshotTable(name: string, details: CatalogTable): (r: Table)
    ensures r.name == name && |r.columns| == |details.columns|
    ensures forall i :: 0 <= i < |r.columns| ==>
      r.columns[i] == SnapshotColumn(details.columns[i], PrimaryColumns(details),
                                     ByLocalColumn(details.foreignKeys, |details.foreignKeys|))
  {
    var pk := PrimaryColumns(details);
    var fks := ByLocalColumn(details.foreignKeys, |details.foreignKeys|);
    Table(name, seq(|details.columns|, i requires 0 <= i < |details.columns| =>
                      SnapshotColumn(details.columns[i], pk, fks)))
  }

  /** `introspect`: one table per listed name, sorted by name. */
  function Introspect(tableNames: seq<string>, details: string -> CatalogTable): (r: Database)
    ensures TableNames(r.tables) == Sort(tableNames)
    ensures Sorted(TableNames(r.tables))
    ensures forall t :: t in TableNames(r.tables) <==> t in tableNames
    ensures forall i :: 0 <= i < |r.tables| ==> r.tables[i] == SnapshotTable(r.tables[i].name, details(r.tables[i].name))
  {
    var names := Sort(tableNames);
    Database(seq(|names|, i requires 0 <= i < |names| => SnapshotTable(names[i], details(names[i]))))
  }

  /** A table without a primary key has no column flagged as one. */
  lemma NoPrimaryKeyNoFlags(name: string, details: CatalogTable)
    requires details.primaryKey.None?
    ensures forall i :: 0 <= i < |SnapshotTable(name, details).columns| ==>
      !SnapshotTable(name, details).columns[i].isPrimaryKey
  {
  }

  /** Two constraints on the same local column: the later one wins. */
  lemma LaterConstraintWins(a: CatalogForeignKey, b: CatalogForeignKey, c: string)
    requires a.localColumns == [c] && b.localColumns == [c]
    ensures ByLocalColumn([a, b], 2)[c] == ForeignKey(b.foreignTable, ForeignColumnAt(b.foreignColumns, 0))
  {
    var m := ConstraintMap(b, 1);
    assert b.localColumns[..1] == [c];
    assert c in m;
  }

  // ----- connection parameters -----

  /** `array_filter($params, fn ($v) => $v !== null && $v !== '')`, keys kept. */
  function DropBlank(entries: seq<(Key, Value)>): (r: seq<(Key, Value)>)
    ensures forall i :: 0 <= i < |r| ==> r[i].1 != Null && r[i].1 != Str("")
    ensures forall e :: e in r <==> e in entries && e.1 != Null && e.1 != Str("")
  {
    if |entries| == 0 then []
    else
      var e := entries[0];
      assert entries == [e] + entries[1..];
      (if e.1 != Null && e.1 != Str("") then [e] else []) + DropBlank(entries[1..])
  }

  function Entry(key: string, v: Value): (Key, Value) {
    (StrKey(key), v)
  }

  /** The value `array_filter` leaves under a key that held `v`: none when blank. */
  function Filtered(v: Value): (r: Option<Value>)
    ensures r.Some? <==> v != Null && v != Str("")
    ensures r.Some? ==> r.value == v
  {
    if v != Null && v != Str("") then Some(v) else None
  }

  predicate DistinctKeys(entries: seq<(Key, Value)>) {
    forall i, j :: 0 <= i < j < |entries| ==> entries[i].0 != entries[j].0
  }

  /** `array_filter` introduces no key. */
  lemma DropBlankKeys(entries: seq<(Key, Value)>, keys: seq<Key>)
    requires forall i :: 0 <= i < |entries| ==> entries[i].0 in keys
    ensures forall i :: 0 <= i < |DropBlank(entries)| ==> DropBlank(entries)[i].0 in keys
  {
    var r := DropBlank(entries);
    forall i | 0 <= i < |r|
      ensures r[i].0 in keys
    {
      assert r[i] in entries;
    }
  }

  /** With distinct keys, `array_filter` keeps a key's value unless it is blank. */
  lemma {:induction false} DropBlankFind(entries: seq<(Key, Value)>, k: Key)
    requires DistinctKeys(entries)
    ensures Find(DropBlank(entries), k) == match Find(entries, k) case None => None case Some(v) => Filtered(v)
  {
    if |entries| > 0 {
      var e := entries[0];
      var tail := entries[1..];
      assert entries == [e] + tail;
      DistinctKeysTail(entries);
      DropBlankFind(tail, k);
      FindCons(e, tail, k);
      var rest := DropBlank(tail);
      if e.1 != Null && e.1 != Str("") {
        assert DropBlank(entries) == [e] + rest;
        FindCons(e, rest, k);
      } else {
        assert DropBlank(entries) == rest;
        if e.0 == k {
          forall i | 0 <= i < |tail|
            ensures tail[i].0 != k
          {
            assert tail[i] == entries[i + 1];
          }
        }
      }
    }
  }

  lemma DistinctKeysTail(entries: seq<(Key, Value)>)
    requires |entries| > 0 && DistinctKeys(entries)
    ensures DistinctKeys(entries[1..])
  {
    var tail := entries[1..];
    forall i, j | 0 <= i < j < |tail|
      ensures tail[i].0 != tail[j].0
    {
      assert tail[i] == entries[i + 1] && tail[j] == entries[j + 1];
    }
  }

  /** With distinct keys, each entry is what its key finds. */
  lemma {:induction false} FindAt(entries: seq<(Key, Value)>, i: int)
    requires DistinctKeys(entries) && 0 <= i < |entries|
    ensures Find(entries, entries[i].0) == Some(entries[i].1)
  {
    if i > 0 {
      DistinctKeysTail(entries);
      FindAt(entries[1..], i - 1);
      FindCons(entries[0], entries[1..], entries[i].0);
      assert entries == [entries[0]] + entries[1..];
    }
  }

  lemma FindCons(e: (Key, Value), rest: seq<(Key, Value)>, k: Key)
    ensures Find([e] + rest, k) == if e.0 == k then Some(e.1) else Find(rest, k)
  {
    assert ([e] + rest)[1..] == rest;
  }

  /** The Doctrine keys the MySQL and PostgreSQL branches fill from the Laravel
      connection config, each absent when the config value is null or empty. */
  predicate ServerKeys(params: seq<(Key, Value)>, config: Value) {
    && Find(params, StrKey("host")) == Filtered(Get(config, "host"))
    && Find(params, StrKey("dbname")) == Filtered(Get(config, "database"))
    && Find(params, StrKey("user")) == Filtered(Get(config, "username"))
    && Find(params, StrKey("password")) == Filtered(Get(config, "password"))
    && Find(params, StrKey("port")) == Filtered(Get(config, "port"))
  }

  /** The base parameters shared by the MySQL and PostgreSQL branches. */
  function ServerParams(driver: string, config: Value): seq<(Key, Value)> {
    [ Entry("driver", Str(driver)),
      Entry("host", Get(config, "host")),
      Entry("dbname", Get(config, "database")),
      Entry("user", Get(config, "username")),
      Entry("password", Get(config, "password")),
      Entry("port", Get(config, "port")) ]
  }

  /** The MySQL parameters before blank values are dropped: the server parameters,
      the charset, and the socket when it is set. */
  function MysqlEntries(config: Value): (r: seq<(Key, Value)>)
    ensures |r| > 0 && r[0] == Entry("driver", Str("pdo_mysql"))
    ensures Entry("unix_socket", Get(config, "unix_socket")) in r <==> Truthy(Get(config, "unix_socket"))
  {
    var base := ServerParams("pdo_mysql", config) + [Entry("charset", Get(config, "charset"))];
    var socket := Get(config, "unix_socket");
    assert forall i :: 0 <= i < |base| ==> base[i].0 != StrKey("unix_socket");
    if Truthy(socket) then base + [Entry("unix_socket", socket)] else base
  }

  /** The keys of the MySQL entries, in order: the last only with a socket. */
  lemma MysqlEntriesKeys(config: Value)
    ensures |MysqlEntries(config)| == if Truthy(Get(config, "unix_socket")) then 8 else 7
    ensures forall i :: 0 <= i < |MysqlEntries(config)| ==> MysqlEntries(config)[i].0 == MysqlKeys[i]
  {
  }

  lemma MysqlEntriesDistinct(config: Value)
    ensures DistinctKeys(MysqlEntries(config))
    ensures forall i :: 0 <= i < |MysqlEntries(config)| ==> MysqlEntries(config)[i].0 in MysqlKeys
  {
    MysqlEntriesKeys(config);
    DistinctLiteralKeys();
  }

  /** Dropping blank values keeps a non-blank first entry first. */
  lemma DropBlankKeepsFirst(entries: seq<(Key, Value)>)
    requires |entries| > 0 && entries[0].1 != Null && entries[0].1 != Str("")
    ensures |DropBlank(entries)| > 0 && DropBlank(entries)[0] == entries[0]
  {
  }

  /** The MySQL branch: the server parameters, the charset, and the socket when it is
      set, without null or empty values. */
  function MysqlParams(config: Value): (r: seq<(Key, Value)>)
    ensures forall i :: 0 <= i < |r| ==> r[i].1 != Null && r[i].1 != Str("")
    ensures Find(r, StrKey("driver")) == Some(Str("pdo_mysql"))
    ensures ServerKeys(r, config)
    ensures Find(r, StrKey("charset")) == Filtered(Get(config, "charset"))
    ensures Find(r, StrKey("unix_socket")) == if Truthy(Get(config, "unix_socket")) then Some(Get(config, "unix_socket")) else None
    ensures forall i :: 0 <= i < |r| ==> r[i].0 in MysqlKeys
  {
    MysqlServerKept(config);
    MysqlExtraKept(config);
    DropBlank(MysqlEntries(config))
  }

  lemma MysqlServerKept(config: Value)
    ensures Find(DropBlank(MysqlEntries(config)), StrKey("driver")) == Some(Str("pdo_mysql"))
    ensures ServerKeys(DropBlank(MysqlEntries(config)), config)
  {
    var params := MysqlEntries(config);
    DropBlankKeepsFirst(params);
    MysqlEntriesDistinct(config);
    MysqlEntriesFind(config);
    ServerKeysKept(params, config);
  }

  lemma MysqlExtraKept(config: Value)
    ensures Find(DropBlank(MysqlEntries(config)), StrKey("charset")) == Filtered(Get(config, "charset"))
    ensures Find(DropBlank(MysqlEntries(config)), StrKey("unix_socket"))
         == if Truthy(Get(config, "unix_socket")) then Some(Get(config, "unix_socket")) else None
    ensures forall i :: 0 <= i < |DropBlank(MysqlEntries(config))| ==> DropBlank(MysqlEntries(config))[i].0 in MysqlKeys
  {
    var params := MysqlEntries(config);
    MysqlEntriesDistinct(config);
    MysqlEntriesExtra(config);
    DropBlankKeys(params, MysqlKeys);
    DropBlankFind(params, StrKey("charset"));
    DropBlankFind(params, StrKey("unix_socket"));
  }

  /** The keys of the server parameters, in order. */
  const ServerKeyList: seq<Key> := [StrKey("driver"), StrKey("host"), StrKey("dbname"), StrKey("user"),
                                    StrKey("password"), StrKey("port")]

  const MysqlKeys: seq<Key> := [StrKey("driver"), StrKey("host"), StrKey("dbname"), StrKey("user"),
                                StrKey("password"), StrKey("port"), StrKey("charset"), StrKey("unix_socket")]

  /** The server keys of entries that hold them unfiltered survive `array_filter` as
      `ServerKeys` says. */
  lemma ServerKeysKept(entries: seq<(Key, Value)>, config: Value)
    requires DistinctKeys(entries)
    requires Find(entries, StrKey("host")) == Some(Get(config, "host"))
    requires Find(entries, StrKey("dbname")) == Some(Get(config, "database"))
    requires Find(entries, StrKey("user")) == Some(Get(config, "username"))
    requires Find(entries, StrKey("password")) == Some(Get(config, "password"))
    requires Find(entries, StrKey("port")) == Some(Get(config, "port"))
    ensures ServerKeys(DropBlank(entries), config)
  {
    DropBlankFind(entries, StrKey("host"));
    DropBlankFind(entries, StrKey("dbname"));
    DropBlankFind(entries, StrKey("user"));
    DropBlankFind(entries, StrKey("password"));
    DropBlankFind(entries, StrKey("port"));
  }

  /** The server keys of the MySQL entries find their config values unfiltered. */
  lemma MysqlEntriesFind(config: Value)
    ensures Find(MysqlEntries(config), StrKey("host")) == Some(Get(config, "host"))
    ensures Find(MysqlEntries(config), StrKey("dbname")) == Some(Get(config, "database"))
    ensures Find(MysqlEntries(config), StrKey("user")) == Some(Get(config, "username"))
    ensures Find(MysqlEntries(config), StrKey("password")) == Some(Get(config, "password"))
    ensures Find(MysqlEntries(config), StrKey("port")) == Some(Get(config, "port"))
  {
    var entries := MysqlEntries(config);
    MysqlEntriesDistinct(config);
    FindIn(entries, Entry("host", Get(config, "host")));
    FindIn(entries, Entry("dbname", Get(config, "database")));
    FindIn(entries, Entry("user", Get(config, "username")));
    FindIn(entries, Entry("password", Get(config, "password")));
    FindIn(entries, Entry("port", Get(config, "port")));
  }

  /** The charset of the MySQL entries, and the socket only when it is set. */
  lemma MysqlEntriesExtra(config: Value)
    ensures Find(MysqlEntries(config), StrKey("charset")) == Some(Get(config, "charset"))
    ensures Find(MysqlEntries(config), StrKey("unix_socket"))
         == if Truthy(Get(config, "unix_socket")) then Some(Get(config, "unix_socket")) else None
  {
    var entries := MysqlEntries(config);
    MysqlEntriesDistinct(config);
    FindIn(entries, Entry("charset", Get(config, "charset")));
    if Truthy(Get(config, "unix_socket")) {
      FindIn(entries, Entry("unix_socket", Get(config, "unix_socket")));
    } else {
      MysqlEntriesKeys(config);
      DistinctLiteralKeys();
      assert forall i :: 0 <= i < |entries| ==> entries[i].0 != MysqlKeys[7];
    }
  }

  /** With distinct keys, an entry is what its key finds. */
  lemma FindIn(entries: seq<(Key, Value)>, e: (Key, Value))
    requires DistinctKeys(entries) && e in entries
    ensures Find(entries, e.0) == Some(e.1)
  {
    var i :| 0 <= i < |entries| && entries[i] == e;
    FindAt(entries, i);
  }

  lemma DistinctLiteralKeys()
    ensures forall i, j :: 0 <= i < j < |MysqlKeys| ==> MysqlKeys[i] != MysqlKeys[j]
  {
  }

  /** The PostgreSQL branch: the server parameters without null or empty values. */
  function PgsqlParams(config: Value): (r: seq<(Key, Value)>)
    ensures forall i :: 0 <= i < |r| ==> r[i].1 != Null && r[i].1 != Str("")
    ensures Find(r, StrKey("driver")) == Some(Str("pdo_pgsql"))
    ensures ServerKeys(r, config)
    ensures forall i :: 0 <= i < |r| ==> r[i].0 in ServerKeyList
    ensures Find(r, StrKey("charset")) == None && Find(r, StrKey("unix_socket")) == None
  {
    PgsqlServerKept(config);
    PgsqlKeysKept(config);
    PgsqlNoExtra(config);
    DropBlank(ServerParams("pdo_pgsql", config))
  }

  lemma PgsqlServerKept(config: Value)
    ensures Find(DropBlank(ServerParams("pdo_pgsql", config)), StrKey("driver")) == Some(Str("pdo_pgsql"))
    ensures ServerKeys(DropBlank(ServerParams("pdo_pgsql", config)), config)
  {
    var params := ServerParams("pdo_pgsql", config);
    DropBlankKeepsFirst(params);
    ServerParamsKeys("pdo_pgsql", config);
    ServerParamsFind("pdo_pgsql", config);
    ServerKeysKept(params, config);
  }

  lemma PgsqlKeysKept(config: Value)
    ensures forall i :: 0 <= i < |DropBlank(ServerParams("pdo_pgsql", config))| ==>
      DropBlank(ServerParams("pdo_pgsql", config))[i].0 in ServerKeyList
  {
    ServerParamsKeys("pdo_pgsql", config);
    DropBlankKeys(ServerParams("pdo_pgsql", config), ServerKeyList);
  }

  lemma PgsqlNoExtra(config: Value)
    ensures Find(DropBlank(ServerParams("pdo_pgsql", config)), StrKey("charset")) == None
    ensures Find(DropBlank(ServerParams("pdo_pgsql", config)), StrKey("unix_socket")) == None
  {
    var r := DropBlank(ServerParams("pdo_pgsql", config));
    PgsqlKeysKept(config);
    FindAbsent(r, ServerKeyList, StrKey("charset"));
    FindAbsent(r, ServerKeyList, StrKey("unix_socket"));
  }

  /** A key outside the keys of the entries finds nothing. */
  lemma FindAbsent(entries: seq<(Key, Value)>, keys: seq<Key>, k: Key)
    requires forall i :: 0 <= i < |entries| ==> entries[i].0 in keys
    requires k !in keys
    ensures Find(entries, k) == None
  {
  }

  /** The server parameters have distinct keys, those of `ServerKeyList`. */
  lemma ServerParamsKeys(driver: string, config: Value)
    ensures DistinctKeys(ServerParams(driver, config))
    ensures forall i :: 0 <= i < |ServerParams(driver, config)| ==> ServerParams(driver, config)[i].0 in ServerKeyList
  {
    var entries := ServerParams(driver, config);
    assert forall i :: 0 <= i < |entries| ==> entries[i].0 == ServerKeyList[i];
  }

  /** Each server key finds its config value. */
  lemma ServerParamsFind(driver: string, config: Value)
    ensures Find(ServerParams(driver, config), StrKey("host")) == Some(Get(config, "host"))
    ensures Find(ServerParams(driver, config), StrKey("dbname")) == Some(Get(config, "database"))
    ensures Find(ServerParams(driver, config), StrKey("user")) == Some(Get(config, "username"))
    ensures Find(ServerParams(driver, config), StrKey("password")) == Some(Get(config, "password"))
    ensures Find(ServerParams(driver, config), StrKey("port")) == Some(Get(config, "port"))
  {
    var entries := ServerParams(driver, config);
    ServerParamsKeys(driver, config);
    FindIn(entries, Entry("host", Get(config, "host")));
    FindIn(entries, Entry("dbname", Get(config, "database")));
    FindIn(entries, Entry("user", Get(config, "username")));
    FindIn(entries, Entry("password", Get(config, "password")));
    FindIn(entries, Entry("port", Get(config, "port")));
  }

  /** The SQLite branch: an error without a path, an in-memory database for
      `:memory:`, else the path. */
  function SqliteParams(config: Value): (r: Result<seq<(Key, Value)>>)
    ensures r.Ok? <==> Get(config, "database").Str? && Get(config, "database").s != ""
    ensures r.Ok? && Get(config, "database") == Str(":memory:") ==>
      r.value == [Entry("driver", Str("pdo_sqlite")), Entry("memory", Bool(true))]
    ensures r.Ok? && Get(config, "database") != Str(":memory:") ==>
      r.value == [Entry("driver", Str("pdo_sqlite")), Entry("path", Get(config, "database"))]
  {
    var database := Get(config, "database");
    if !database.Str? || database.s == "" then Err("SQLite connection is missing a database path.")
    else if database.s == ":memory:" then Ok([Entry("driver", Str("pdo_sqlite")), Entry("memory", Bool(true))])
    else Ok([Entry("driver", Str("pdo_sqlite")), Entry("path", database)])
  }

  /** The error for any other driver names the driver. */
  function UnsupportedDriver(driver: string): (message: string)
    ensures Contains(message, driver)
  {
    var prefix := "Unsupported driver for Relix schema introspection: ";
    assert OccursAt(prefix + driver, driver, |prefix|);
    prefix + driver
  }

  /** `doctrineParamsFromIlluminateConnection`. */
  function DoctrineParams(driver: string, config: Value): (r: Result<seq<(Key, Value)>>)
    ensures driver == "mysql" || driver == "pgsql" ==> r.Ok?
    ensures driver == "mysql" || driver == "pgsql" ==>
      forall i :: 0 <= i < |r.value| ==> r.value[i].1 != Null && r.value[i].1 != Str("")
    ensures driver == "mysql" || driver == "pgsql" ==> ServerKeys(r.value, config)
    ensures driver == "mysql" ==> Find(r.value, StrKey("driver")) == Some(Str("pdo_mysql"))
    ensures driver == "mysql" ==> Find(r.value, StrKey("charset")) == Filtered(Get(config, "charset"))
    ensures driver == "mysql" ==> Find(r.value, StrKey("unix_socket"))
                                  == if Truthy(Get(config, "unix_socket")) then Some(Get(config, "unix_socket")) else None
    ensures driver == "pgsql" ==> Find(r.value, StrKey("driver")) == Some(Str("pdo_pgsql"))
    ensures driver == "pgsql" ==> Find(r.value, StrKey("charset")) == None && Find(r.value, StrKey("unix_socket")) == None
    ensures driver == "sqlite" ==> (r.Ok? <==> Get(config, "database").Str? && Get(config, "database").s != "")
    ensures driver == "sqlite" && r.Ok? && Get(config, "database") == Str(":memory:") ==>
      r.value == [Entry("driver", Str("pdo_sqlite")), Entry("memory", Bool(true))]
    ensures driver == "sqlite" && r.Ok? && Get(config, "database") != Str(":memory:") ==>
      r.value == [Entry("driver", Str("pdo_sqlite")), Entry("path", Get(config, "database"))]
    ensures driver != "mysql" && driver != "pgsql" && driver != "sqlite" ==>
      r.Err? && Contains(r.message, driver)
  {
    if driver == "mysql" then Ok(MysqlParams(config))
    else if driver == "pgsql" then Ok(PgsqlParams(config))
    else if driver == "sqlite" then SqliteParams(config)
    else Err(UnsupportedDriver(driver))
  }
}

=== FILE: php_value.dfy ===
/** The values PHP's `json_decode($json, true)` produces, and the array operations the
    source applies to them. A PHP array is an ordered map: a sequence of key/value
    entries, looked up by the first entry with the key and updated in place (or appended
    when the key is new). Lists are arrays whose keys are 0, 1, 2, .... */
module PhpValue {
  import opened Wrappers
  import Strings

  datatype Key = IntKey(i: int) | StrKey(s: string)

  datatype Value =
    | Null
    | Bool(b: bool)
    | Int(i: int)
    | Str(s: string)
    | Arr(entries: seq<(Key, Value)>)

  /** The value of the first entry with key `k`. */
  function Find<K(==), V>(m: seq<(K, V)>, k: K): (r: Option<V>)
    ensures r.None? <==> forall i :: 0 <= i < |m| ==> m[i].0 != k
    ensures r.Some? ==> exists i :: 0 <= i < |m| && m[i] == (k, r.value)
  {
    if |m| == 0 then None
    else if m[0].0 == k then Some(m[0].1)
    else
      var r := Find(m[1..], k);
      assert forall i :: 1 <= i < |m| ==> m[i] == m[1..][i - 1];
      r
  }

  /** `$m[$k] = $v`: replaces the first entry with key `k`, or appends one. */
  function Put<K(==,!new), V>(m: seq<(K, V)>, k: K, v: V): (r: seq<(K, V)>)
    ensures Find(r, k) == Some(v)
    ensures forall k' :: k' != k ==> Find(r, k') == Find(m, k')
    ensures Find(m, k).Some? ==> |r| == |m|
    ensures Find(m, k).None? ==> r == m + [(k, v)]
    ensures forall i :: 0 <= i < |m| && m[i].0 != k ==> r[i] == m[i]
  {
    if |m| == 0 then [(k, v)]
    else if m[0].0 == k then [(k, v)] + m[1..]
    else [m[0]] + Put(m[1..], k, v)
  }

  /** Writing back the value a key already has leaves the array unchanged. */
  lemma {:induction false} PutExisting<K(!new), V>(m: seq<(K, V)>, k: K)
    requires Find(m, k).Some?
    ensures Put(m, k, Find(m, k).value) == m
  {
    if m[0].0 != k {
      PutExisting(m[1..], k);
    }
  }

  /** `$v[$key] ?? null`: the entry's value, or null when `v` is not an array or has no
      such key. */
  function Get(v: Value, key: string): (r: Value)
    ensures r != Null ==> v.Arr? && Find(v.entries, StrKey(key)) == Some(r)
  {
    if v.Arr? then Find(v.entries, StrKey(key)).GetOr(Null) else Null
  }

  /** `$v[$k1][$k2]... ?? null`. */
  function Dig(v: Value, path: seq<string>): Value
    decreases |path|
  {
    if |path| == 0 then v else Dig(Get(v, path[0]), path[1..])
  }

  /** `isset($v[$key])`: present and not null. */
  predicate IsSet(v: Value, key: string) {
    Get(v, key) != Null
  }

  /** The values of an array in iteration order (what `foreach` visits). */
  function Values(v: Value): (r: seq<Value>)
    ensures v.Arr? ==> |r| == |v.entries|
    ensures v.Arr? ==> forall i :: 0 <= i < |r| ==> r[i] == v.entries[i].1
  {
    if v.Arr? then seq(|v.entries|, i requires 0 <= i < |v.entries| => v.entries[i].1) else []
  }

  /** A PHP list: keys 0, 1, 2, ... in order. */
  function ListOf(vs: seq<Value>): (r: Value)
    ensures r.Arr? && Values(r) == vs
  {
    Arr(seq(|vs|, i requires 0 <= i < |vs| => (IntKey(i), vs[i])))
  }

  function StrValues(ss: seq<string>): (r: seq<Value>)
    ensures |r| == |ss| && forall i :: 0 <= i < |ss| ==> r[i] == Str(ss[i])
  {
    seq(|ss|, i requires 0 <= i < |ss| => Str(ss[i]))
  }

  /** A list of strings as a PHP value. */
  function StrList(ss: seq<string>): Value {
    ListOf(StrValues(ss))
  }

  /** The strings among a list of values, in order (the `is_string` filter). */
  function StringsOf(vs: seq<Value>): (r: seq<string>)
    ensures forall s :: s in r <==> Str(s) in vs
  {
    if |vs| == 0 then []
    else
      assert vs == [vs[0]] + vs[1..];
      (if vs[0].Str? then [vs[0].s] else []) + StringsOf(vs[1..])
  }

  /** `(bool) $v`. */
  predicate Truthy(v: Value) {
    match v
    case Null => false
    case Bool(b) => b
    case Int(i) => i != 0
    case Str(s) => s != "" && s != "0"
    case Arr(e) => |e| > 0
  }

  /** `(string) $v`. */
  function ToStr(v: Value): string {
    match v
    case Null => ""
    case Bool(b) => if b then "1" else ""
    case Int(i) => Strings.IntToString(i)
    case Str(s) => s
    case Arr(_) => "Array"
  }

  /** `(array) $v`: null gives the empty array, an array is kept, anything else is
      wrapped in a one-element list; the result is given as its values. */
  function CastToList(v: Value): (r: seq<Value>)
    ensures v.Null? ==> r == []
    ensures v.Arr? ==> r == Values(v)
    ensures !v.Null? && !v.Arr? ==> r == [v]
  {
    match v
    case Null => []
    case Arr(_) => Values(v)
    case _ => [v]
  }
}

=== FILE: prompt_builder.dfy ===
/** The text of the rules-authoring prompt (`PromptBuilder`), as a sequence of lines
    that `build` joins with newlines: a fixed preamble, the exclusion instruction, the
    pivot guidance, one section per table that is not excluded, and fixed guidelines. */
module PromptBuilder {
  import opened Strings
  import opened Sorting
  import opened PhpValue
  import opened Schema
  import opened StringLists
  import SeederRunner

  /** The fixed lines before the exclusion instruction: the output format and the
      supported strategies. */
  const Preamble: seq<string> := [
    "You are helping generate database seeding rules for a Laravel project.",
    "Return ONLY valid JSON matching this format:",
    "",
    "{",
    "  \"version\": 1,",
    "  \"exclude_tables\": [\"<table_name>\"],",
    "  \"tables\": {",
    "    \"<table_name>\": {",
    "      \"count\": 25,",
    "      \"columns\": {",
    "        \"<column_name>\": { \"strategy\": \"faker\", \"method\": \"safeEmail\", \"unique\": true }",
    "      }",
    "    }",
    "  }",
    "}",
    "",
    "Supported column strategies:",
    "- {\"strategy\":\"faker\",\"method\":\"...\",\"unique\":true|false,\"args\":[...]}",
    "- {\"strategy\":\"literal\",\"value\":...}",
    "- {\"strategy\":\"hash\",\"value\":\"plain text password\"}",
    "- {\"strategy\":\"fk\",\"table\":\"users\",\"column\":\"id\"}",
    "",
    "Important: ALWAYS include \"exclude_tables\" in the returned JSON (use [] if none)."]

  const SchemaIntro: seq<string> := [
    "",
    "Database schema (tables -> columns -> type, nullable, foreign key):",
    ""]

  const Guidelines: seq<string> := [
    "Guidelines:",
    "- Use realistic values (names, emails, addresses, phones).",
    "- For password columns, use {\"strategy\":\"hash\",\"value\":\"password\"} unless specified.",
    "- For tokens, use faker bothify/regexify or random strings.",
    "- Keep referential integrity: foreign keys should point to existing rows.",
    "- Do NOT include per-table rules for tables listed in \"exclude_tables\".",
    "- IMPORTANT: consider BOTH the table name and column name when choosing faker methods.",
    "- Example: in \"tags\", the \"name\" column should be a tag-like label (words/slug), not a person name.",
    "- Example: in \"categories\", \"name\" should be a category label; in \"roles\", \"name\" should be a role label."]

  const ExcludePrefix := "Set \"exclude_tables\" to exactly: "
  const PivotHeading := "Pivot table guidance:"
  const DetectedPrefix := "- Detected pivot tables: "
  const PivotMark := " (pivot)"

  /** The excluded list as `build` cleans it: non-empty strings, deduplicated and
      sorted (not trimmed). */
  function NormalizeExcluded(excluded: seq<Value>): (r: seq<string>)
    ensures StrictlySorted(r)
    ensures forall t :: t in r <==> t != "" && Str(t) in excluded
  {
    SortedSet(NonEmptyStrings(excluded))
  }

  /** The loop of `isPivotTable` over the primary-key columns. */
  function AllForeignNotAuto(pk: seq<Column>): (r: bool)
    ensures r <==> forall i :: 0 <= i < |pk| ==> pk[i].foreignKey.Some? && !pk[i].autoIncrement
  {
    if |pk| == 0 then true
    else if pk[0].foreignKey.None? || pk[0].autoIncrement then false
    else
      var rest := AllForeignNotAuto(pk[1..]);
      assert forall i :: 1 <= i < |pk| ==> pk[i] == pk[1..][i - 1];
      rest
  }

  /** `isPivotTable`, the prompt's own copy of the runner's pivot test. */
  function IsPivotTable(t: Table): bool {
    var pk := PrimaryKeyColumns(t.columns);
    |pk| >= 2 && AllForeignNotAuto(pk)
  }

  /** The prompt and the seeder agree on which tables are pivots. */
  lemma PivotDetectionsAgree(t: Table)
    ensures IsPivotTable(t) <==> SeederRunner.IsPivot(t)
  {
    var pk := PrimaryKeyColumns(t.columns);
    if IsPivotTable(t) {
      forall c | c in t.columns && c.isPrimaryKey
        ensures c.foreignKey.Some? && !c.autoIncrement
      {
        assert c in pk;
      }
    }
    if SeederRunner.IsPivot(t) {
      forall i | 0 <= i < |pk|
        ensures pk[i].foreignKey.Some? && !pk[i].autoIncrement
      {
        assert pk[i] in pk;
      }
    }
  }

  /** The first loop of `build`: the names of the pivot tables that are not excluded,
      in schema order. */
  function PivotCandidates(tables: seq<Table>, excluded: seq<string>): seq<string> {
    if |tables| == 0 then []
    else
      (if tables[0].name !in excluded && IsPivotTable(tables[0]) then [tables[0].name] else [])
      + PivotCandidates(tables[1..], excluded)
  }

  /** A name is a candidate exactly when some table of that name is a pivot and is not
      excluded. */
  lemma {:induction false} PivotCandidatesMembers(tables: seq<Table>, excluded: seq<string>)
    ensures forall n :: n in PivotCandidates(tables, excluded) <==>
      exists i :: 0 <= i < |tables| && tables[i].name == n && n !in excluded && IsPivotTable(tables[i])
  {
    if |tables| > 0 {
      var t := tables[0];
      var rest := PivotCandidates(tables[1..], excluded);
      PivotCandidatesMembers(tables[1..], excluded);
      forall n
        ensures n in PivotCandidates(tables, excluded) <==>
          exists i :: 0 <= i < |tables| && tables[i].name == n && n !in excluded && IsPivotTable(tables[i])
      {
        if n in rest {
          var i :| 0 <= i < |tables[1..]| && tables[1..][i].name == n && n !in excluded && IsPivotTable(tables[1..][i]);
          assert tables[i + 1] == tables[1..][i];
        }
        if exists i :: 0 <= i < |tables| && tables[i].name == n && n !in excluded && IsPivotTable(tables[i]) {
          var i :| 0 <= i < |tables| && tables[i].name == n && n !in excluded && IsPivotTable(tables[i]);
          if i > 0 {
            assert tables[1..][i - 1] == tables[i];
          }
        }
      }
    }
  }

  /** The detected pivot tables, sorted (duplicates kept, as `sort` keeps them). */
  function PivotTables(tables: seq<Table>, excluded: seq<string>): (r: seq<string>)
    ensures Sorted(r)
    ensures multiset(r) == multiset(PivotCandidates(tables, excluded))
    ensures forall n :: n in r ==> n !in excluded
  {
    PivotCandidatesMembers(tables, excluded);
    Sort(PivotCandidates(tables, excluded))
  }

  /** The exclusion instruction, present only for a non-empty list; `json` is
      `json_encode(..., JSON_UNESCAPED_SLASHES)`. */
  function ExcludeSection(excluded: seq<string>, json: seq<string> -> string): (r: seq<string>)
    ensures |r| == (if |excluded| > 0 then 1 else 0)
  {
    if |excluded| > 0 then [ExcludePrefix + json(excluded)] else []
  }

  /** The fixed lines of the pivot guidance, before the detected names. */
  const PivotGuidance: seq<string> := [
    "",
    PivotHeading,
    "- For pivot tables, do NOT set literal IDs for foreign keys.",
    "- For pivot tables, prefer rules like:",
    "  \"pivot_table_name\": { \"count\": 60, \"columns\": {} }"]

  /** The pivot guidance, present only when pivots were detected: the fixed lines,
      then the detected names. */
  function PivotSection(guidance: seq<string>, pivots: seq<string>): (r: seq<string>)
    ensures |r| == (if |pivots| > 0 then |guidance| + 1 else 0)
    ensures |pivots| > 0 ==> r[..|guidance|] == guidance && r[|guidance|] == DetectedPrefix + Join(pivots, ", ")
  {
    if |pivots| > 0 then guidance + [DetectedPrefix + Join(pivots, ", ")] else []
  }

  /** The parenthesised parts of a column line: the type, then `nullable`, then the
      foreign key. */
  function ColumnParts(c: Column): (r: seq<string>)
    ensures |r| >= 1 && r[0] == c.typeName
    ensures c.nullable <==> |r| >= 2 && r[1] == "nullable"
    ensures c.foreignKey.Some? <==> |r| >= 2 && StartsWith(r[|r| - 1], "fk->")
    ensures c.foreignKey.Some? ==>
      r[|r| - 1] == "fk->" + c.foreignKey.value.foreignTable + "." + c.foreignKey.value.foreignColumn
  {
    var fk := if c.foreignKey.Some? then
                ["fk->" + c.foreignKey.value.foreignTable + "." + c.foreignKey.value.foreignColumn]
              else [];
    var r := [c.typeName] + (if c.nullable then ["nullable"] else []) + fk;
    assert "nullable"[0] == 'n';
    assert c.foreignKey.Some? ==> r[|r| - 1] == fk[0] && fk[0][..4] == "fk->" && fk[0][0] == 'f';
    r
  }

  function ColumnLine(c: Column): string {
    "  - " + c.name + " (" + Join(ColumnParts(c), ", ") + ")"
  }

  /** A table's header line: its name and a colon, marked when it is a pivot. */
  function Header(t: Table): (r: string)
    ensures EndsWith(r, PivotMark) <==> IsPivotTable(t)
  {
    var r := t.name + ":" + (if IsPivotTable(t) then PivotMark else "");
    assert !IsPivotTable(t) ==> r[|r| - 1] == ':' && PivotMark[|PivotMark| - 1] == ')';
    r
  }

  /** The lines of one table: header, one line per column in declaration order, and a
      blank line. */
  function TableSection(t: Table): (r: seq<string>)
    ensures |r| == |t.columns| + 2
    ensures r[0] == Header(t) && r[|r| - 1] == ""
    ensures forall i :: 0 <= i < |t.columns| ==> r[i + 1] == ColumnLine(t.columns[i])
  {
    [Header(t)] + seq(|t.columns|, i requires 0 <= i < |t.columns| => ColumnLine(t.columns[i])) + [""]
  }

  /** The tables the schema section lists: those not excluded, in schema order. */
  function Kept(tables: seq<Table>, excluded: seq<string>): seq<Table> {
    if |tables| == 0 then []
    else (if tables[0].name !in excluded then [tables[0]] else []) + Kept(tables[1..], excluded)
  }

  /** A table is listed exactly when it is in the schema and not excluded. */
  lemma {:induction false} KeptMembers(tables: seq<Table>, excluded: seq<string>)
    ensures forall t :: t in Kept(tables, excluded) <==> t in tables && t.name !in excluded
  {
    if |tables| > 0 {
      KeptMembers(tables[1..], excluded);
      assert tables == [tables[0]] + tables[1..];
    }
  }

  function TableLines(tables: seq<Table>): seq<string> {
    if |tables| == 0 then [] else TableSection(tables[0]) + TableLines(tables[1..])
  }

  /** The fixed texts of the prompt: the preamble, the schema introduction and the
      closing guidelines. The lemmas below hold for any texts of this shape and so for
      the fixed ones. */
  datatype Texts = Texts(preamble: seq<string>, pivotGuidance: seq<string>, intro: seq<string>,
                         guidelines: seq<string>)

  const Fixed := Texts(Preamble, PivotGuidance, SchemaIntro, Guidelines)

  /** The pivot guidance is five lines, a blank one and then the heading; the schema
      introduction is three lines, the first blank and the second not the heading. */
  predicate Shaped(tx: Texts) {
    |tx.pivotGuidance| == 5 && tx.pivotGuidance[0] == "" && tx.pivotGuidance[1] == PivotHeading
    && |tx.intro| == 3 && tx.intro[0] == "" && tx.intro[1] != PivotHeading
  }

  lemma FixedShaped()
    ensures Shaped(Fixed)
  {
    assert |PivotHeading| == 21 && |SchemaIntro[1]| > 21;
  }

  /** `build`, line by line, over the given texts. */
  function BuildWith(tx: Texts, schema: Database, excluded: seq<Value>, json: seq<string> -> string): seq<string> {
    var ex := NormalizeExcluded(excluded);
    tx.preamble + (ExcludeSection(ex, json) + AfterExclusion(tx, schema.tables, ex))
  }

  /** Everything after the exclusion instruction. */
  function AfterExclusion(tx: Texts, tables: seq<Table>, ex: seq<string>): seq<string> {
    PivotSection(tx.pivotGuidance, PivotTables(tables, ex)) + (tx.intro + (TableLines(Kept(tables, ex)) + tx.guidelines))
  }

  /** `build`: the prompt's lines. */
  function Build(schema: Database, excluded: seq<Value>, json: seq<string> -> string): seq<string> {
    BuildWith(Fixed, schema, excluded, json)
  }

  /** The prompt text: the lines joined with newlines. */
  function Text(schema: Database, excluded: seq<Value>, json: seq<string> -> string): string {
    Join(Build(schema, excluded, json), "\n")
  }

  /** Indexing past two prefixes. */
  lemma At(pre: seq<string>, mid: seq<string>, after: seq<string>, j: int)
    requires 0 <= j < |after|
    ensures |pre + (mid + after)| == |pre| + |mid| + |after|
    ensures (pre + (mid + after))[|pre| + |mid| + j] == after[j]
  {
  }

  /** The start of everything after the exclusion instruction: a blank line, then the
      pivot heading when there are pivots and the schema heading when there are none. */
  lemma AfterShape(tx: Texts, tables: seq<Table>, ex: seq<string>)
    requires Shaped(tx)
    ensures |AfterExclusion(tx, tables, ex)| > 2 && AfterExclusion(tx, tables, ex)[0] == ""
    ensures |PivotTables(tables, ex)| > 0 ==>
      |AfterExclusion(tx, tables, ex)| > 5 && AfterExclusion(tx, tables, ex)[1] == PivotHeading
      && AfterExclusion(tx, tables, ex)[5] == DetectedPrefix + Join(PivotTables(tables, ex), ", ")
    ensures |PivotTables(tables, ex)| == 0 ==> AfterExclusion(tx, tables, ex)[1] == tx.intro[1]
  {
    var p := PivotTables(tables, ex);
    var rest := tx.intro + (TableLines(Kept(tables, ex)) + tx.guidelines);
    var ps := PivotSection(tx.pivotGuidance, p);
    assert AfterExclusion(tx, tables, ex) == ps + rest;
    assert rest[0] == tx.intro[0] && rest[1] == tx.intro[1];
    if |p| > 0 {
      assert ps[0] == ps[..5][0] && ps[1] == ps[..5][1];
    }
  }

  /** The line after the preamble is the exclusion instruction exactly when the cleaned
      list is non-empty, and blank otherwise. */
  lemma ExcludeLineWith(tx: Texts, schema: Database, excluded: seq<Value>, json: seq<string> -> string)
    requires Shaped(tx)
    ensures var r := BuildWith(tx, schema, excluded, json);
      var ex := NormalizeExcluded(excluded);
      |r| > |tx.preamble| && r[..|tx.preamble|] == tx.preamble
      && (|ex| > 0 ==> r[|tx.preamble|] == ExcludePrefix + json(ex))
      && (|ex| == 0 ==> r[|tx.preamble|] == "")
  {
    var ex := NormalizeExcluded(excluded);
    var after := AfterExclusion(tx, schema.tables, ex);
    var tail := ExcludeSection(ex, json) + after;
    AfterShape(tx, schema.tables, ex);
    assert BuildWith(tx, schema, excluded, json) == tx.preamble + tail;
    assert (tx.preamble + tail)[..|tx.preamble|] == tx.preamble;
  }

  lemma ExcludeLineIffExcluded(schema: Database, excluded: seq<Value>, json: seq<string> -> string)
    ensures var r := Build(schema, excluded, json);
      var ex := NormalizeExcluded(excluded);
      |r| > |Preamble| && r[..|Preamble|] == Preamble
      && (|ex| > 0 ==> r[|Preamble|] == ExcludePrefix + json(ex))
      && (|ex| == 0 ==> r[|Preamble|] == "")
  {
    FixedShaped();
    ExcludeLineWith(Fixed, schema, excluded, json);
  }

  /** Some table that is not excluded is a pivot exactly when pivots are listed. */
  lemma HasPivotIff(tables: seq<Table>, ex: seq<string>)
    ensures (exists t :: t in tables && t.name !in ex && IsPivotTable(t)) <==> |PivotTables(tables, ex)| > 0
  {
    if exists t :: t in tables && t.name !in ex && IsPivotTable(t) {
      var t :| t in tables && t.name !in ex && IsPivotTable(t);
      var i :| 0 <= i < |tables| && tables[i] == t;
      PivotNamed(tables, ex, i);
    }
    if |PivotTables(tables, ex)| > 0 {
      var i := PivotListed(tables, ex);
      assert tables[i] in tables;
    }
  }

  lemma PivotNamed(tables: seq<Table>, ex: seq<string>, i: int)
    requires 0 <= i < |tables| && tables[i].name !in ex && IsPivotTable(tables[i])
    ensures |PivotTables(tables, ex)| > 0
  {
    PivotCandidatesMembers(tables, ex);
    assert tables[i].name in multiset(PivotCandidates(tables, ex));
  }

  lemma PivotListed(tables: seq<Table>, ex: seq<string>) returns (i: int)
    requires |PivotTables(tables, ex)| > 0
    ensures 0 <= i < |tables| && tables[i].name !in ex && IsPivotTable(tables[i])
  {
    var n := PivotTables(tables, ex)[0];
    assert n in multiset(PivotCandidates(tables, ex));
    PivotCandidatesMembers(tables, ex);
    i :| 0 <= i < |tables| && tables[i].name == n && n !in ex && IsPivotTable(tables[i]);
  }

  /** The pivot heading follows the exclusion instruction exactly when a table that is
      not excluded is a pivot; the guidance then ends with the sorted pivot names. */
  lemma PivotGuidanceWith(tx: Texts, schema: Database, excluded: seq<Value>, json: seq<string> -> string)
    requires Shaped(tx)
    ensures var r := BuildWith(tx, schema, excluded, json);
      var ex := NormalizeExcluded(excluded);
      var k := |tx.preamble| + (if |ex| > 0 then 1 else 0);
      |r| > k + 2
      && ((exists t :: t in schema.tables && t.name !in ex && IsPivotTable(t)) <==> r[k + 1] == PivotHeading)
      && ((exists t :: t in schema.tables && t.name !in ex && IsPivotTable(t)) ==>
            |r| > k + 5 && r[k + 5] == DetectedPrefix + Join(PivotTables(schema.tables, ex), ", "))
  {
    var ex := NormalizeExcluded(excluded);
    var e := ExcludeSection(ex, json);
    var after := AfterExclusion(tx, schema.tables, ex);
    AfterShape(tx, schema.tables, ex);
    HasPivotIff(schema.tables, ex);
    At(tx.preamble, e, after, 1);
    if |PivotTables(schema.tables, ex)| > 0 {
      At(tx.preamble, e, after, 5);
    }
  }

  lemma PivotGuidanceIffPivots(schema: Database, excluded: seq<Value>, json: seq<string> -> string)
    ensures var r := Build(schema, excluded, json);
      var ex := NormalizeExcluded(excluded);
      var k := |Preamble| + (if |ex| > 0 then 1 else 0);
      |r| > k + 2
      && ((exists t :: t in schema.tables && t.name !in ex && IsPivotTable(t)) <==> r[k + 1] == PivotHeading)
      && ((exists t :: t in schema.tables && t.name !in ex && IsPivotTable(t)) ==>
            |r| > k + 5 && r[k + 5] == DetectedPrefix + Join(PivotTables(schema.tables, ex), ", "))
  {
    FixedShaped();
    PivotGuidanceWith(Fixed, schema, excluded, json);
  }

  /** `r` ends with `d`, then `t`, then `g`. */
  predicate EndsWithSections(r: seq<string>, d: seq<string>, t: seq<string>, g: seq<string>) {
    var end := |r| - |g|;
    |r| >= |d| + |t| + |g|
    && r[end - |t| - |d|..end - |t|] == d
    && r[end - |t|..end] == t
    && r[end..] == g
  }

  /** The schema section lists exactly the tables that are not excluded, each as its
      own section, in schema order, right after the introduction and right before the
      closing guidelines. */
  lemma SchemaSectionWith(tx: Texts, schema: Database, excluded: seq<Value>, json: seq<string> -> string)
    ensures EndsWithSections(BuildWith(tx, schema, excluded, json), tx.intro,
                             TableLines(Kept(schema.tables, NormalizeExcluded(excluded))), tx.guidelines)
  {
    var ex := NormalizeExcluded(excluded);
    var tl := TableLines(Kept(schema.tables, ex));
    var e := ExcludeSection(ex, json);
    var ps := PivotSection(tx.pivotGuidance, PivotTables(schema.tables, ex));
    assert BuildWith(tx, schema, excluded, json) == tx.preamble + (e + (ps + (tx.intro + (tl + tx.guidelines))));
    TailSections(tx.preamble, e, ps, tx.intro, tl, tx.guidelines);
  }

  lemma SchemaSectionListsKeptTables(schema: Database, excluded: seq<Value>, json: seq<string> -> string)
    ensures EndsWithSections(Build(schema, excluded, json), SchemaIntro,
                             TableLines(Kept(schema.tables, NormalizeExcluded(excluded))), Guidelines)
    ensures forall t :: t in Kept(schema.tables, NormalizeExcluded(excluded)) <==>
      t in schema.tables && t.name !in NormalizeExcluded(excluded)
  {
    SchemaSectionWith(Fixed, schema, excluded, json);
    KeptMembers(schema.tables, NormalizeExcluded(excluded));
  }

  /** The last three of the six sections of `build`, read back from its end. */
  lemma TailSections(a: seq<string>, b: seq<string>, c: seq<string>, d: seq<string>, t: seq<string>, g: seq<string>)
    ensures EndsWithSections(a + (b + (c + (d + (t + g)))), d, t, g)
  {
    var r := a + (b + (c + (d + (t + g))));
    assert r == (a + b + c) + d + t + g;
  }
}

=== FILE: prompt_command.dfy ===
/** `PrintLlmPromptCommand::parseExcludeOption`: the repeatable, comma-separated
    `--exclude` option turned into a clean list of table names. */
module PrintLlmPromptCommand {
  import opened PhpValue
  import opened Strings
  import opened Sorting
  import opened StringLists

  /** Every string item exploded on `,`, each piece trimmed, empty pieces dropped, the
      rest deduplicated and sorted; a non-array option gives nothing and non-string
      items are skipped. */
  function ParseExcludeOption(raw: Value): (r: seq<string>)
    ensures Clean(r)
    ensures !raw.Arr? ==> r == []
  {
    if !raw.Arr? then []
    else
      var pieces := Pieces(StringsOf(Values(raw)), ',');
      SortedSetClean(TrimAll(pieces));
      SortedSet(TrimAll(pieces))
  }

  /** A name is parsed exactly when it is the non-empty trim of a comma-separated piece
      of one of the string items. */
  lemma ParseExcludeOptionMember(raw: Value, t: string)
    ensures t in ParseExcludeOption(raw) <==>
      raw.Arr? && t != "" &&
      exists s, p :: Str(s) in Values(raw) && p in Split(s, ',') && Trim(p) == t
  {
    if t in ParseExcludeOption(raw) {
      ParsedComesFromPiece(raw, t);
    }
    if raw.Arr? && t != "" && exists s, p :: Str(s) in Values(raw) && p in Split(s, ',') && Trim(p) == t {
      var s, p :| Str(s) in Values(raw) && p in Split(s, ',') && Trim(p) == t;
      PieceIsParsed(raw, s, p);
    }
  }

  lemma ParsedComesFromPiece(raw: Value, t: string)
    requires t in ParseExcludeOption(raw)
    ensures raw.Arr? && t != ""
    ensures exists s, p :: Str(s) in Values(raw) && p in Split(s, ',') && Trim(p) == t
  {
    var items := StringsOf(Values(raw));
    var pieces := Pieces(items, ',');
    var j :| 0 <= j < |pieces| && TrimEach(pieces)[j] == t;
    var p := pieces[j];
    assert p in pieces;
    var i :| 0 <= i < |items| && p in Split(items[i], ',');
    assert items[i] in items;
    assert Str(items[i]) in Values(raw);
  }

  lemma PieceIsParsed(raw: Value, s: string, p: string)
    requires raw.Arr? && Str(s) in Values(raw) && p in Split(s, ',') && Trim(p) != ""
    ensures Trim(p) in ParseExcludeOption(raw)
  {
    var items := StringsOf(Values(raw));
    var pieces := Pieces(items, ',');
    assert s in items;
    var i :| 0 <= i < |items| && items[i] == s;
    assert p in pieces;
    assert Trim(p) in TrimEach(pieces);
  }

  /** Repeating the option and separating with commas are interchangeable: for any
      two names without a comma, `["a,b"]` and `["b", "a"]` parse to the same list. */
  lemma CommaOrRepeat(a: string, b: string)
    requires ',' !in a && ',' !in b
    ensures ParseExcludeOption(ListOf([Str(a + "," + b)])) == ParseExcludeOption(ListOf([Str(b), Str(a)]))
  {
    var ab := a + [','] + b;
    assert a + "," + b == ab;
    var x := ListOf([Str(ab)]);
    var y := ListOf([Str(b), Str(a)]);
    forall t
      ensures t in ParseExcludeOption(x) <==> t in ParseExcludeOption(y)
    {
      if t in ParseExcludeOption(x) {
        ParsedComesFromPiece(x, t);
        var s, p :| Str(s) in Values(x) && p in Split(s, ',') && Trim(p) == t;
        PieceOfJoined(a, b, s, p);
        RepeatedPiece(a, b, p);
        PieceIsParsed(y, p, p);
      }
      if t in ParseExcludeOption(y) {
        ParsedComesFromPiece(y, t);
        var s, p :| Str(s) in Values(y) && p in Split(s, ',') && Trim(p) == t;
        PieceOfRepeated(a, b, s, p);
        JoinedPiece(a, b, p);
        PieceIsParsed(x, ab, p);
      }
    }
    StrictlySortedUnique(ParseExcludeOption(x), ParseExcludeOption(y));
  }

  /** The pieces of the single item `a,b` are `a` and `b`. */
  lemma PieceOfJoined(a: string, b: string, s: string, p: string)
    requires ',' !in a && ',' !in b
    requires Str(s) in Values(ListOf([Str(a + [','] + b)])) && p in Split(s, ',')
    ensures p == a || p == b
  {
    assert s == a + [','] + b;
    SplitAround(a, b, ',');
  }

  lemma JoinedPiece(a: string, b: string, p: string)
    requires ',' !in a && ',' !in b && (p == a || p == b)
    ensures Str(a + [','] + b) in Values(ListOf([Str(a + [','] + b)]))
    ensures p in Split(a + [','] + b, ',')
  {
    SplitAround(a, b, ',');
  }

  /** The pieces of the two items `b` and `a` are the items themselves. */
  lemma PieceOfRepeated(a: string, b: string, s: string, p: string)
    requires ',' !in a && ',' !in b
    requires Str(s) in Values(ListOf([Str(b), Str(a)])) && p in Split(s, ',')
    ensures p == a || p == b
  {
    assert s == a || s == b;
    SplitWhole(s, ',');
  }

  lemma RepeatedPiece(a: string, b: string, p: string)
    requires ',' !in a && ',' !in b && (p == a || p == b)
    ensures Str(p) in Values(ListOf([Str(b), Str(a)]))
    ensures p in Split(p, ',')
  {
    SplitWhole(p, ',');
  }
}

=== FILE: relix_manager.dfy ===
/** `RelixManager::excludedTables`: the tables left out everywhere, merged from the
    configured ignore list and the rules file's `exclude_tables`. */
module RelixManager {
  import opened PhpValue
  import opened Strings
  import opened Sorting
  import opened StringLists
  import Rules

  /** The configured ignore list cast to an array, followed by the rules exclusions;
      every string is trimmed, empty ones are dropped, and the rest deduplicated and
      sorted. Entries that are not strings are ignored. */
  function ExcludedTables(configIgnore: Value, rules: Rules.Ruleset): (r: seq<string>)
    ensures Clean(r)
  {
    var all := CastToList(configIgnore) + StrValues(Rules.ExcludedTables(rules));
    SortedSetClean(TrimmedStrings(all));
    SortedSet(TrimmedStrings(all))
  }

  /** A table is excluded exactly when it is the non-empty trim of a configured string
      or of a rules exclusion. */
  lemma ExcludedTablesMember(configIgnore: Value, rules: Rules.Ruleset, t: string)
    ensures t in ExcludedTables(configIgnore, rules) <==>
      t != "" && exists s :: (Str(s) in CastToList(configIgnore) || s in Rules.ExcludedTables(rules)) && Trim(s) == t
  {
    var fromRules := Rules.ExcludedTables(rules);
    var all := CastToList(configIgnore) + StrValues(fromRules);
    TrimmedStringsMember(all, t);
    forall s
      ensures Str(s) in all <==> Str(s) in CastToList(configIgnore) || s in fromRules
    {
      if Str(s) in StrValues(fromRules) {
        var i :| 0 <= i < |fromRules| && StrValues(fromRules)[i] == Str(s);
        assert fromRules[i] == s;
      }
      if s in fromRules {
        var i :| 0 <= i < |fromRules| && fromRules[i] == s;
        assert StrValues(fromRules)[i] == Str(s);
      }
    }
  }

  /** A configured value that is a single string, rather than a list, still excludes
      that table (the `(array)` cast wraps it). */
  lemma SingleConfiguredString(name: string, rules: Rules.Ruleset)
    requires name != "" && IsTrimmed(name)
    ensures name in ExcludedTables(Str(name), rules)
  {
    TrimOfTrimmed(name);
    ExcludedTablesMember(Str(name), rules, name);
  }
}

=== FILE: rules.dfy ===
/** The rules file as the seeder reads it (`Ruleset`): the decoded JSON payload plus the
    raw text it came from, and the accessors that pick per-table and per-column rules
    out of it without ever failing on a malformed payload. */
module Rules {
  import opened Wrappers
  import opened PhpValue
  import opened Sorting
  import opened StringLists

  datatype Ruleset = Ruleset(payload: Value, rawJson: Option<string>)

  /** `$payload['tables'][$table]`, or null. */
  function TableRule(rs: Ruleset, table: string): Value {
    Get(Get(rs.payload, "tables"), table)
  }

  /** `tableCount`: the table's `count` rule when it is an integer, otherwise none. */
  function TableCount(rs: Ruleset, table: string): (r: Option<int>)
    ensures r.Some? <==> Get(TableRule(rs, table), "count").Int?
    ensures r.Some? ==> Get(TableRule(rs, table), "count") == Int(r.value)
  {
    match Get(TableRule(rs, table), "count")
    case Int(n) => Some(n)
    case _ => None
  }

  /** `excludedTables`: the non-empty strings of `exclude_tables`, deduplicated and
      sorted; nothing when the field is missing or not an array. */
  function ExcludedTables(rs: Ruleset): (r: seq<string>)
    ensures StrictlySorted(r)
    ensures forall t :: t in r <==>
      t != "" && Get(rs.payload, "exclude_tables").Arr? && Str(t) in Values(Get(rs.payload, "exclude_tables"))
  {
    var tables := Get(rs.payload, "exclude_tables");
    if !tables.Arr? then [] else SortedSet(NonEmptyStrings(Values(tables)))
  }

  /** `hasTableRules`: the table has a non-empty array of rules. */
  predicate HasTableRules(rs: Ruleset, table: string) {
    var t := TableRule(rs, table);
    t.Arr? && |t.entries| > 0
  }

  /** `columnRule`: the column's rule array, or none when missing or not an array. */
  function ColumnRule(rs: Ruleset, table: string, column: string): (r: Option<Value>)
    ensures r.Some? <==> Get(Get(TableRule(rs, table), "columns"), column).Arr?
    ensures r.Some? ==> r.value.Arr? && r.value == Get(Get(TableRule(rs, table), "columns"), column)
  {
    var rule := Get(Get(TableRule(rs, table), "columns"), column);
    if rule.Arr? then Some(rule) else None
  }

  /** A rule value with one key: `{key: v}`. */
  function Obj1(key: string, v: Value): Value {
    Arr([(StrKey(key), v)])
  }

  /** A payload `{"tables": {table: {"count": c}}}` yields `c` exactly when it is an
      integer: a string such as `"10"` is not a count. */
  lemma TableCountOnlyIntegers(table: string, c: Value)
    ensures TableCount(Ruleset(Obj1("tables", Obj1(table, Obj1("count", c))), None), table)
         == (if c.Int? then Some(c.i) else None)
  {
  }

  /** Reordering or repeating entries of `exclude_tables` does not change the result. */
  lemma ExcludedTablesOrderIndependent(rs1: Ruleset, rs2: Ruleset)
    requires Get(rs1.payload, "exclude_tables").Arr? && Get(rs2.payload, "exclude_tables").Arr?
    requires forall v :: v in Values(Get(rs1.payload, "exclude_tables")) <==>
                         v in Values(Get(rs2.payload, "exclude_tables"))
    ensures ExcludedTables(rs1) == ExcludedTables(rs2)
  {
    StrictlySortedUnique(ExcludedTables(rs1), ExcludedTables(rs2));
  }

  /** A table rule that is an empty array, or not an array at all, does not count as
      rules for the table, and then it has no column rules either. */
  lemma NoTableRulesNoColumnRules(rs: Ruleset, table: string, column: string)
    requires !HasTableRules(rs, table)
    ensures ColumnRule(rs, table, column).None?
  {
  }
}

=== FILE: rules_repository.dfy ===
/** Reading, validating, normalising and writing the rules file (`RulesRepository`).
    The file is an optional text (`None` when it does not exist); JSON decoding and
    encoding are supplied by the caller as a `Codec`. A write is the new file text
    returned in `Ok`; an `Err` carries only the message, so a failed operation
    writes nothing. */
module RulesRepository {
  import opened Wrappers
  import opened PhpValue
  import opened Strings
  import opened Sorting
  import opened StringLists
  import Rules

  /** `json_decode($s, true)` (any non-array result, including a decoding failure, is
      what the callers reject) and `json_encode($v, ...)`. */
  datatype Codec = Codec(decode: string -> Value, encode: Value -> string)

  /** `path()`: the configured non-empty string, otherwise the default location. */
  function Path(configured: Value, defaultPath: string): (r: string)
    ensures configured.Str? && configured.s != "" ==> r == configured.s
    ensures !(configured.Str? && configured.s != "") ==> r == defaultPath
  {
    if configured.Str? && configured.s != "" then configured.s else defaultPath
  }

  /** The payload used when there is no usable file: `{version: 1, tables: []}`. */
  const EmptyPayload: Value := Arr([(StrKey("version"), Int(1)), (StrKey("tables"), Arr([]))])

  /** `count($payload['tables'])` for a payload whose `tables` is an array. */
  function TableCount(p: Value): nat {
    var t := Get(p, "tables");
    if t.Arr? then |t.entries| else 0
  }

  /** `normalizeStringList`: the trimmed non-empty strings of an array, deduplicated and
      sorted; a non-array gives the empty list. */
  function NormalizeStringList(v: Value): (r: seq<string>)
    ensures Clean(r)
    ensures !v.Arr? ==> r == []
  {
    if !v.Arr? then []
    else
      SortedSetClean(TrimmedStrings(Values(v)));
      SortedSet(TrimmedStrings(Values(v)))
  }

  lemma NormalizeEmptyList()
    ensures NormalizeStringList(Arr([])) == []
  {
    assert Values(Arr([])) == [];
    assert TrimmedStrings([]) == [];
  }

  /** What `normalizeStringList` keeps: exactly the non-empty trims of the array's
      strings. */
  lemma NormalizeStringListMember(v: Value, t: string)
    ensures t in NormalizeStringList(v) <==>
      v.Arr? && t != "" && exists s :: Str(s) in Values(v) && Trim(s) == t
  {
    if v.Arr? {
      TrimmedStringsMember(Values(v), t);
    }
  }

  lemma {:induction false} StringsOfStrValues(xs: seq<string>)
    ensures StringsOf(StrValues(xs)) == xs
  {
    if |xs| > 0 {
      StringsOfStrValues(xs[1..]);
      assert StrValues(xs)[1..] == StrValues(xs[1..]);
    }
  }

  /** A normalised list stored back as a JSON list normalises to itself. */
  lemma NormalizeStringListFixed(xs: seq<string>)
    requires Clean(xs)
    ensures NormalizeStringList(StrList(xs)) == xs
  {
    StringsOfStrValues(xs);
    CleanFixed(xs);
  }

  /** `normalizePayload`: defaults `version` and `tables`, then replaces
      `exclude_tables` by its normalised list. */
  function NormalizePayload(p: Value): (r: Value)
    requires p.Arr?
    ensures r.Arr?
  {
    var p3 := DefaultArray(DefaultArray(DefaultVersion(p), "tables"), "exclude_tables");
    SetKey(p3, "exclude_tables", StrList(NormalizeStringList(Get(p3, "exclude_tables"))))
  }

  /** What `normalizePayload` promises: an unset `version` becomes 1, a missing or
      non-array `tables` becomes `[]`, `exclude_tables` is replaced by its normalised
      list, and every other key is left as it was. */
  lemma NormalizePayloadKeys(p: Value)
    requires p.Arr?
    ensures Get(NormalizePayload(p), "version") == if IsSet(p, "version") then Get(p, "version") else Int(1)
    ensures Get(NormalizePayload(p), "tables") == if Get(p, "tables").Arr? then Get(p, "tables") else Arr([])
    ensures Get(NormalizePayload(p), "exclude_tables") == StrList(NormalizeStringList(Get(p, "exclude_tables")))
    ensures forall k :: k != StrKey("version") && k != StrKey("tables") && k != StrKey("exclude_tables") ==>
      Find(NormalizePayload(p).entries, k) == Find(p.entries, k)
  {
    NormalizedVersion(p);
    NormalizedTables(p);
    NormalizedExclusions(p);
    NormalizedOthers(p);
  }

  /** An array that agrees with `p` on every key but `b` has the same value at any
      key `a` of a different length. */
  lemma KeptKey(r: Value, p: Value, a: string, b: string)
    requires r.Arr? && p.Arr? && |a| != |b|
    requires forall k :: k != StrKey(b) ==> Find(r.entries, k) == Find(p.entries, k)
    ensures Get(r, a) == Get(p, a)
  {
    assert StrKey(a) != StrKey(b);
  }

  lemma NormalizedVersion(p: Value)
    requires p.Arr?
    ensures Get(NormalizePayload(p), "version") == if IsSet(p, "version") then Get(p, "version") else Int(1)
  {
    var p1 := DefaultVersion(p);
    var p2 := DefaultArray(p1, "tables");
    var p3 := DefaultArray(p2, "exclude_tables");
    KeptKey(p2, p1, "version", "tables");
    KeptKey(p3, p2, "version", "exclude_tables");
    KeptKey(NormalizePayload(p), p3, "version", "exclude_tables");
  }

  lemma NormalizedTables(p: Value)
    requires p.Arr?
    ensures Get(NormalizePayload(p), "tables") == if Get(p, "tables").Arr? then Get(p, "tables") else Arr([])
  {
    var p1 := DefaultVersion(p);
    var p2 := DefaultArray(p1, "tables");
    var p3 := DefaultArray(p2, "exclude_tables");
    KeptKey(p1, p, "tables", "version");
    KeptKey(p3, p2, "tables", "exclude_tables");
    KeptKey(NormalizePayload(p), p3, "tables", "exclude_tables");
  }

  lemma NormalizedExclusions(p: Value)
    requires p.Arr?
    ensures Get(NormalizePayload(p), "exclude_tables") == StrList(NormalizeStringList(Get(p, "exclude_tables")))
  {
    var p1 := DefaultVersion(p);
    var p2 := DefaultArray(p1, "tables");
    KeptKey(p1, p, "exclude_tables", "version");
    KeptKey(p2, p1, "exclude_tables", "tables");
    NormalizeEmptyList();
  }

  lemma NormalizedOthers(p: Value)
    requires p.Arr?
    ensures forall k :: k != StrKey("version") && k != StrKey("tables") && k != StrKey("exclude_tables") ==>
      Find(NormalizePayload(p).entries, k) == Find(p.entries, k)
  {
    var p1 := DefaultVersion(p);
    var p2 := DefaultArray(p1, "tables");
    var p3 := DefaultArray(p2, "exclude_tables");
  }

  /** `if (! isset($p['version'])) { $p['version'] = 1; }` */
  function DefaultVersion(p: Value): (r: Value)
    requires p.Arr?
    ensures r.Arr?
    ensures Get(r, "version") == if IsSet(p, "version") then Get(p, "version") else Int(1)
    ensures forall k :: k != StrKey("version") ==> Find(r.entries, k) == Find(p.entries, k)
  {
    if IsSet(p, "version") then p else SetKey(p, "version", Int(1))
  }

  /** `if (! isset($p[$key]) || ! is_array($p[$key])) { $p[$key] = []; }` */
  function DefaultArray(p: Value, key: string): (r: Value)
    requires p.Arr?
    ensures r.Arr?
    ensures Get(r, key) == if Get(p, key).Arr? then Get(p, key) else Arr([])
    ensures forall k :: k != StrKey(key) ==> Find(r.entries, k) == Find(p.entries, k)
  {
    if Get(p, key).Arr? then p else SetKey(p, key, Arr([]))
  }

  /** `$p[$key] = $v` on an array. */
  function SetKey(p: Value, key: string, v: Value): (r: Value)
    requires p.Arr?
    ensures r.Arr? && Get(r, key) == v
    ensures forall k :: k != StrKey(key) ==> Find(r.entries, k) == Find(p.entries, k)
  {
    Arr(Put(p.entries, StrKey(key), v))
  }

  /** Normalising twice is the same as normalising once. */
  lemma NormalizeIdempotent(p: Value)
    requires p.Arr?
    ensures NormalizePayload(NormalizePayload(p)) == NormalizePayload(p)
  {
    var n := NormalizePayload(p);
    var xs := NormalizeStringList(Get(p, "exclude_tables"));
    NormalizePayloadKeys(p);
    NormalizeStringListFixed(xs);
    assert IsSet(n, "version");
    assert Get(n, "tables").Arr?;
    assert Get(n, "exclude_tables") == StrList(xs);
    assert Find(n.entries, StrKey("exclude_tables")) == Some(StrList(xs));
    PutExisting(n.entries, StrKey("exclude_tables"));
  }

  /** `get`: a missing file gives the empty payload with no raw text; content that does
      not decode to an array gives the empty payload with the raw text kept; otherwise
      the normalised payload. Never fails. */
  function Load(file: Option<string>, codec: Codec): (r: Rules.Ruleset)
    ensures r.payload.Arr?
    ensures file.None? ==> r == Rules.Ruleset(EmptyPayload, None)
    ensures file.Some? ==> r.rawJson == file
    ensures file.Some? && !codec.decode(file.value).Arr? ==> r.payload == EmptyPayload
    ensures file.Some? && codec.decode(file.value).Arr? ==>
      r.payload == NormalizePayload(codec.decode(file.value))
  {
    match file
    case None => Rules.Ruleset(EmptyPayload, None)
    case Some(json) =>
      var payload := codec.decode(json);
      if !payload.Arr? then Rules.Ruleset(EmptyPayload, Some(json))
      else Rules.Ruleset(NormalizePayload(payload), Some(json))
  }

  /** `getRequired`: like `get`, but a missing file, blank content, content that is
      not a JSON array, or a payload with no tables is an error. */
  function GetRequired(path: string, file: Option<string>, codec: Codec): (r: Result<Rules.Ruleset>)
    ensures r.Ok? <==>
      file.Some? && Trim(file.value) != "" && codec.decode(file.value).Arr?
      && TableCount(NormalizePayload(codec.decode(file.value))) > 0
    ensures r.Ok? ==> r.value == Load(file, codec) && TableCount(r.value.payload) > 0
    ensures file.None? ==> r.Err? && Contains(r.message, path)
  {
    match file
    case None =>
      var msg := "Missing rules file at " + path + ". Create it via the UI or save rules JSON first.";
      assert OccursAt(msg, path, 22);
      Err(msg)
    case Some(json) =>
      if Trim(json) == "" then
        Err("Rules file is empty at " + path + ". Add rules JSON before running Relix.")
      else
        var payload := codec.decode(json);
        if !payload.Arr? then Err("Rules must be valid JSON in " + path + ".")
        else
          var normalized := NormalizePayload(payload);
          if TableCount(normalized) == 0 then
            Err("Rules must define at least one table in `tables` (file: " + path + ").")
          else Ok(Rules.Ruleset(normalized, Some(json)))
  }

  /** `writePayload`: the text written is the encoded normalised payload and a newline. */
  function WritePayload(p: Value, codec: Codec): (r: string)
    requires p.Arr?
    ensures |r| > 0 && r[|r| - 1] == '\n'
    ensures r[..|r| - 1] == codec.encode(NormalizePayload(p))
  {
    codec.encode(NormalizePayload(p)) + "\n"
  }

  /** `save`: blank text, text that is not a JSON array, and a payload without tables
      are rejected; otherwise the normalised payload is written. */
  function Save(json: string, codec: Codec): (r: Result<string>)
    ensures r.Ok? <==>
      Trim(json) != "" && codec.decode(json).Arr? && TableCount(NormalizePayload(codec.decode(json))) > 0
    ensures r.Ok? ==> r.value == codec.encode(NormalizePayload(codec.decode(json))) + "\n"
  {
    if Trim(json) == "" then Err("Rules file cannot be empty.")
    else
      var payload := codec.decode(json);
      if !payload.Arr? then Err("Rules must be valid JSON.")
      else
        var normalized := NormalizePayload(payload);
        if TableCount(normalized) == 0 then Err("Rules must define at least one table in `tables`.")
        else
          NormalizeIdempotent(payload);
          Ok(WritePayload(normalized, codec))
  }

  /** The payload with `exclude_tables` replaced by the normalised list of `tables`;
      the tables themselves are untouched. */
  function WithExclusions(payload: Value, tables: seq<string>): (r: Value)
    requires payload.Arr?
    ensures r.Arr? && TableCount(r) == TableCount(payload)
    ensures Get(r, "exclude_tables") == StrList(NormalizeStringList(StrList(tables)))
    ensures forall k :: k != StrKey("exclude_tables") ==> Find(r.entries, k) == Find(payload.entries, k)
  {
    KeptKey(SetKey(payload, "exclude_tables", StrList(NormalizeStringList(StrList(tables)))), payload,
            "tables", "exclude_tables");
    SetKey(payload, "exclude_tables", StrList(NormalizeStringList(StrList(tables))))
  }

  /** `setExcludedTables`: the current rules with `exclude_tables` replaced by the
      normalised list; refused when the current rules define no table. */
  function SetExcludedTables(file: Option<string>, tables: seq<string>, codec: Codec): (r: Result<string>)
    ensures r.Ok? <==> TableCount(Load(file, codec).payload) > 0
    ensures r.Ok? ==> r.value == WritePayload(WithExclusions(Load(file, codec).payload, tables), codec)
  {
    var updated := WithExclusions(Load(file, codec).payload, tables);
    if TableCount(updated) == 0 then
      Err("Rules must define at least one table in `tables` before exclusions can be saved.")
    else Ok(WritePayload(updated, codec))
  }

  /** The codec reads back what it wrote for every array. */
  ghost predicate RoundTrips(codec: Codec) {
    forall v: Value :: v.Arr? ==> codec.decode(codec.encode(v) + "\n") == v
  }

  /** Whatever `save` writes, `get` reads back as the normalised form of what was
      submitted. */
  lemma SaveThenLoad(json: string, codec: Codec)
    requires RoundTrips(codec)
    requires Save(json, codec).Ok?
    ensures Load(Some(Save(json, codec).value), codec).payload == NormalizePayload(codec.decode(json))
  {
    NormalizeIdempotent(codec.decode(json));
  }

  /** Saving `{"tables":{"users":{}}}` and reading it back gives version 1 and no
      exclusions. */
  lemma SaveUsersExample(json: string, codec: Codec)
    requires RoundTrips(codec)
    requires codec.decode(json) == Arr([(StrKey("tables"), Arr([(StrKey("users"), Arr([]))]))])
    requires Trim(json) != ""
    ensures Save(json, codec).Ok?
    ensures Get(Load(Some(Save(json, codec).value), codec).payload, "version") == Int(1)
    ensures Get(Load(Some(Save(json, codec).value), codec).payload, "exclude_tables") == StrList([])
  {
    UsersPayload(codec.decode(json));
    SaveThenLoad(json, codec);
  }

  lemma UsersPayload(p: Value)
    requires p == Arr([(StrKey("tables"), Arr([(StrKey("users"), Arr([]))]))])
    ensures TableCount(NormalizePayload(p)) == 1
    ensures Get(NormalizePayload(p), "version") == Int(1)
    ensures Get(NormalizePayload(p), "exclude_tables") == StrList([])
  {
    NormalizedTables(p);
    NormalizedVersion(p);
    NormalizedExclusions(p);
    OnlyKey(StrKey("tables"), Arr([(StrKey("users"), Arr([]))]), "version");
    OnlyKey(StrKey("tables"), Arr([(StrKey("users"), Arr([]))]), "exclude_tables");
  }

  /** A one-entry array has nothing under a key of another length. */
  lemma OnlyKey(k: Key, v: Value, a: string)
    requires k.StrKey? && |k.s| != |a|
    ensures Get(Arr([(k, v)]), a) == Null
  {
    assert k != StrKey(a);
  }

  /** After `setExcludedTables`, the rules read back exclude exactly the normalised
      list that was given. */
  lemma SetExcludedThenRead(file: Option<string>, tables: seq<string>, codec: Codec)
    requires RoundTrips(codec)
    requires SetExcludedTables(file, tables, codec).Ok?
    ensures Rules.ExcludedTables(Load(Some(SetExcludedTables(file, tables, codec).value), codec))
         == NormalizeStringList(StrList(tables))
  {
    var xs := NormalizeStringList(StrList(tables));
    var updated := WithExclusions(Load(file, codec).payload, tables);
    NormalizeIdempotent(updated);
    NormalizedExclusions(updated);
    var back := Load(Some(SetExcludedTables(file, tables, codec).value), codec);
    assert back.payload == NormalizePayload(updated);
    NormalizeStringListFixed(xs);
    assert Get(back.payload, "exclude_tables") == StrList(xs);
    var got := Rules.ExcludedTables(back);
    forall t
      ensures t in got <==> t in xs
    {
      assert Str(t) in Values(StrList(xs)) <==> t in xs;
    }
    StrictlySortedUnique(got, xs);
  }
}

=== FILE: schema.dfy ===
/** The schema snapshot: plain immutable records for columns, foreign keys, tables and
    the database, with lookup by name. */
module Schema {
  import opened Wrappers

  /** The referenced table and column of a foreign key. */
  datatype ForeignKey = ForeignKey(foreignTable: string, foreignColumn: string)

  datatype Column = Column(
    name: string,
    typeName: string,
    nullable: bool,
    autoIncrement: bool,
    isPrimaryKey: bool,
    foreignKey: Option<ForeignKey>)

  /** A table and its columns in declaration order. */
  datatype Table = Table(name: string, columns: seq<Column>)

  datatype Database = Database(tables: seq<Table>)

  /** The first element whose name is `name`, if any: the loop both
      `TableSchema::column` and `DatabaseSchema::table` run. */
  function FirstNamed<T>(xs: seq<T>, nameOf: T -> string, name: string): (r: Option<T>)
    ensures r.None? <==> forall i :: 0 <= i < |xs| ==> nameOf(xs[i]) != name
    ensures r.Some? ==> exists i :: 0 <= i < |xs| && xs[i] == r.value && nameOf(xs[i]) == name
                          && forall j :: 0 <= j < i ==> nameOf(xs[j]) != name
  {
    if |xs| == 0 then None
    else if nameOf(xs[0]) == name then Some(xs[0])
    else
      var r := FirstNamed(xs[1..], nameOf, name);
      assert forall i :: 1 <= i < |xs| ==> xs[i] == xs[1..][i - 1];
      r
  }

  /** `TableSchema::column($name)`: the first column with that name, if any. */
  function ColumnNamed(columns: seq<Column>, name: string): (r: Option<Column>)
    ensures r.None? <==> forall i :: 0 <= i < |columns| ==> columns[i].name != name
    ensures r.Some? ==> r.value.name == name
    ensures r.Some? ==> exists i :: 0 <= i < |columns| && columns[i] == r.value
                          && forall j :: 0 <= j < i ==> columns[j].name != name
  {
    FirstNamed(columns, (c: Column) => c.name, name)
  }

  function Lookup(t: Table, name: string): Option<Column> {
    ColumnNamed(t.columns, name)
  }

  predicate HasColumn(t: Table, name: string) {
    exists i :: 0 <= i < |t.columns| && t.columns[i].name == name
  }

  /** `DatabaseSchema::table($name)`: the first table with that name, if any. */
  function TableNamed(tables: seq<Table>, name: string): (r: Option<Table>)
    ensures r.None? <==> forall i :: 0 <= i < |tables| ==> tables[i].name != name
    ensures r.Some? ==> r.value.name == name
    ensures r.Some? ==> exists i :: 0 <= i < |tables| && tables[i] == r.value
                          && forall j :: 0 <= j < i ==> tables[j].name != name
  {
    FirstNamed(tables, (t: Table) => t.name, name)
  }

  function TableOf(db: Database, name: string): Option<Table> {
    TableNamed(db.tables, name)
  }

  function TableNames(tables: seq<Table>): (r: seq<string>)
    ensures |r| == |tables| && forall i :: 0 <= i < |tables| ==> r[i] == tables[i].name
  {
    seq(|tables|, i requires 0 <= i < |tables| => tables[i].name)
  }

  /** The primary-key columns of a table, in declaration order. */
  function PrimaryKeyColumns(columns: seq<Column>): (r: seq<Column>)
    ensures forall c :: c in r <==> c in columns && c.isPrimaryKey
    ensures |r| <= |columns|
  {
    if |columns| == 0 then []
    else
      assert columns == [columns[0]] + columns[1..];
      (if columns[0].isPrimaryKey then [columns[0]] else []) + PrimaryKeyColumns(columns[1..])
  }

  /** Filtering distributes over concatenation, so the key columns keep their
      declaration order: those declared first come first. */
  lemma {:induction false} PrimaryKeyColumnsAppend(a: seq<Column>, b: seq<Column>)
    ensures PrimaryKeyColumns(a + b) == PrimaryKeyColumns(a) + PrimaryKeyColumns(b)
    decreases |a|
  {
    if |a| > 0 {
      assert (a + b)[1..] == a[1..] + b;
      PrimaryKeyColumnsAppend(a[1..], b);
    } else {
      assert a + b == b;
    }
  }

  /** Column names are unique within the table (an invariant of introspected schemas). */
  predicate UniqueColumnNames(t: Table) {
    forall i, j :: 0 <= i < j < |t.columns| ==> t.columns[i].name != t.columns[j].name
  }
}

=== FILE: seeder_generator.dfy ===
/** `SeederGenerator`: writes one seeder class per table that is not ignored, each
    calling `SeederRunner::seedTable` with a count fixed at generation time, and an
    aggregate `RelixDatabaseSeeder` that calls them in the table orderer's order. The
    files are recorded as `FileOp`s; the class bodies are kept as the values they
    interpolate. */
module SeederGenerator {
  import opened Wrappers
  import opened Strings
  import opened Sorting
  import opened PhpValue
  import opened Schema
  import opened Files
  import Rules
  import TableOrderer
  import SeederRunner

  /** The inflector: `Str::singular`, `Str::studly` and `Str::plural`. */
  datatype Inflector = Inflector(
    singular: string -> string,
    studly: string -> string,
    plural: string -> string)

  /** What a generated file holds: a per-table seeder (`className` seeds `table` with
      `count` rows) or the aggregate seeder with its `call` lines. */
  datatype Content =
    | TableSeeder(className: string, table: string, count: int)
    | DatabaseSeeder(calls: seq<string>)

  const AggregateFile := "RelixDatabaseSeeder.php"

  /** `classNameForTable`: the studly singular of the table name, then `Seeder`. */
  function ClassName(table: string, inf: Inflector): (r: string)
    ensures EndsWith(r, "Seeder")
    ensures StartsWith(r, inf.studly(inf.singular(table)))
  {
    var base := inf.studly(inf.singular(table));
    assert (base + "Seeder")[..|base|] == base;
    base + "Seeder"
  }

  /** Two tables get the same seeder class exactly when their studly singular forms
      coincide. */
  lemma {:induction false} ClassNameInjective(a: string, b: string, inf: Inflector)
    ensures ClassName(a, inf) == ClassName(b, inf) <==> inf.studly(inf.singular(a)) == inf.studly(inf.singular(b))
  {
    var x := inf.studly(inf.singular(a));
    var y := inf.studly(inf.singular(b));
    if ClassName(a, inf) == ClassName(b, inf) {
      assert |x| == |y|;
      assert x == ClassName(a, inf)[..|x|];
    }
  }

  /** The output directory: the given path unless it is null, `""` or `"0"` (PHP's
      `?:`), else the default `database/seeders/Relix` under the application. */
  function OutputPath(outputPath: Option<string>, defaultPath: string): (r: string)
    ensures outputPath.Some? && outputPath.value != "" && outputPath.value != "0" ==> r == outputPath.value
    ensures outputPath.None? || outputPath.value == "" || outputPath.value == "0" ==> r == defaultPath
  {
    if outputPath.Some? && Truthy(Str(outputPath.value)) then outputPath.value else defaultPath
  }

  /** The seeder file for one table, with its row count fixed by the usual precedence:
      the explicit count, else the rule's integer count, else the configured default. */
  function TableWrite(t: string, path: string, rules: Rules.Ruleset, count: Option<int>,
                      cfg: SeederRunner.Config, inf: Inflector): (r: FileOp<Content>)
    ensures r.Put? && r.content.TableSeeder? && r.content.table == t
    ensures r.content.className == ClassName(t, inf)
    ensures r.path == JoinPath(path, r.content.className + ".php")
    ensures count.Some? ==> r.content.count == count.value
    ensures count.None? && Rules.TableCount(rules, t).Some? ==> r.content.count == Rules.TableCount(rules, t).value
    ensures count.None? && Rules.TableCount(rules, t).None? ==>
      r.content.count == cfg.defaultCount.GetOr(SeederRunner.DefaultCount)
  {
    var cn := ClassName(t, inf);
    Put(JoinPath(path, cn + ".php"), TableSeeder(cn, t, SeederRunner.RowCount(count, rules, t, cfg)))
  }

  function TableWrites(names: seq<string>, path: string, rules: Rules.Ruleset, count: Option<int>,
                       cfg: SeederRunner.Config, inf: Inflector): (r: seq<FileOp<Content>>)
    ensures |r| == |names|
    ensures forall i :: 0 <= i < |names| ==> r[i] == TableWrite(names[i], path, rules, count, cfg, inf)
  {
    seq(|names|, i requires 0 <= i < |names| => TableWrite(names[i], path, rules, count, cfg, inf))
  }

  /** The names of the ignored tables, in schema order. */
  function SkippedNames(tables: seq<Table>, ignored: seq<string>): (r: seq<string>)
    ensures forall n :: n in r <==> n in ignored && n in TableNames(tables)
  {
    if |tables| == 0 then []
    else
      var rest := SkippedNames(tables[1..], ignored);
      assert TableNames(tables) == [tables[0].name] + TableNames(tables[1..]);
      (if tables[0].name in ignored then [tables[0].name] else []) + rest
  }

  /** Every table is either seeded or skipped, never both. */
  lemma {:induction false} EveryTableSeededOrSkipped(tables: seq<Table>, ignored: seq<string>)
    ensures |SeederRunner.SelectTables(tables, [], ignored)| + |SkippedNames(tables, ignored)| == |tables|
  {
    if |tables| > 0 {
      EveryTableSeededOrSkipped(tables[1..], ignored);
    }
  }

  /** One `$this->call(...)` line of the aggregate seeder. */
  function CallLine(className: string): string {
    "        $this->call(" + className + "::class);"
  }

  /** Distinct seeder classes give distinct call lines. */
  lemma {:induction false} CallLineInjective(a: string, b: string)
    ensures CallLine(a) == CallLine(b) <==> a == b
  {
    if CallLine(a) == CallLine(b) {
      var p := "        $this->call(";
      assert |a| == |b|;
      assert a == CallLine(a)[|p|..|p| + |a|];
    }
  }

  function Calls(order: seq<string>, inf: Inflector): (r: seq<string>)
    ensures |r| == |order|
    ensures forall i :: 0 <= i < |order| ==> r[i] == CallLine(ClassName(order[i], inf))
  {
    seq(|order|, i requires 0 <= i < |order| => CallLine(ClassName(order[i], inf)))
  }

  /** The aggregate seeder calls each table's seeder once: its call lines are
      pairwise distinct exactly when no two tables of the order share a studly
      singular name. */
  lemma CallsDistinct(order: seq<string>, inf: Inflector)
    ensures Distinct(Calls(order, inf)) <==>
      forall i, j :: 0 <= i < j < |order| ==> inf.studly(inf.singular(order[i])) != inf.studly(inf.singular(order[j]))
  {
    forall i, j | 0 <= i < j < |order|
      ensures Calls(order, inf)[i] == Calls(order, inf)[j]
              <==> inf.studly(inf.singular(order[i])) == inf.studly(inf.singular(order[j]))
    {
      CallLineInjective(ClassName(order[i], inf), ClassName(order[j], inf));
      ClassNameInjective(order[i], order[j], inf);
    }
  }

  /** `generate`. The ignored set is the sorted, duplicate-free union of the configured
      ignore list and the rules' exclusions. `written` lists the tables whose seeder file
      is written, in schema order: exactly those not ignored; each ignored table is
      listed in `skipped` instead. The aggregate seeder is written last, always, calling
      the written tables' seeders in the order `TableOrderer.OrderNames` gives them:
      the Kahn phase, which respects every dependency, then the blocked tables. */
  method Generate(schema: Database, rules: Rules.Ruleset, count: Option<int>, outputPath: Option<string>,
                  cfg: SeederRunner.Config, inf: Inflector, defaultPath: string, isDirectory: bool)
    returns (generated: nat, skipped: seq<string>, path: string, written: seq<string>,
             order: seq<string>, writes: seq<FileOp<Content>>)
    ensures path == OutputPath(outputPath, defaultPath)
    ensures generated == |written| && generated + |skipped| == |schema.tables|
    ensures forall n :: n in skipped <==> n in SeederRunner.Ignored(cfg, rules) && n in TableNames(schema.tables)
    ensures forall n :: n in written <==> n in TableNames(schema.tables) && n !in SeederRunner.Ignored(cfg, rules)
    ensures written == TableNames(SeederRunner.SelectTables(schema.tables, [], SeederRunner.Ignored(cfg, rules)))
    ensures skipped == SkippedNames(schema.tables, SeederRunner.Ignored(cfg, rules))
    ensures writes == EnsureDirectory(path, isDirectory) + TableWrites(written, path, rules, count, cfg, inf)
                      + [Put(JoinPath(path, AggregateFile), DatabaseSeeder(Calls(order, inf)))]
    ensures Distinct(order)
    ensures forall n :: n in order <==> n in written
    ensures order == TableOrderer.OrderNames(SeederRunner.SelectTables(schema.tables, [], SeederRunner.Ignored(cfg, rules)),
                                             inf.plural)
  {
    path := OutputPath(outputPath, defaultPath);
    var ignored := SeederRunner.Ignored(cfg, rules);
    var kept := SeederRunner.SelectTables(schema.tables, [], ignored);
    skipped := SkippedNames(schema.tables, ignored);
    written := TableNames(kept);
    generated := |written|;
    EveryTableSeededOrSkipped(schema.tables, ignored);
    SeederRunner.SelectedNames(schema.tables, [], ignored);
    var sorted, _ := TableOrderer.Order(kept, inf.plural);
    order := TableNames(sorted);
    writes := EnsureDirectory(path, isDirectory) + TableWrites(written, path, rules, count, cfg, inf)
              + [Put(JoinPath(path, AggregateFile), DatabaseSeeder(Calls(order, inf)))];
  }
}

=== FILE: seeder_runner.dfy ===
/** Seeding orchestration (`SeederRunner`): which tables are seeded and in what order,
    how many rows each gets, how a row is assembled column by column, how rows are
    flushed in chunks, and how pivot tables are sampled without repeating a composite
    key. Database writes are recorded as `Event`s; reads, Faker and random draws are
    oracles in a `World`. */
module SeederRunner {
  import opened Wrappers
  import opened Strings
  import opened Sorting
  import opened PhpValue
  import opened Schema
  import Rules
  import TableOrderer
  import R = FakerValueResolver

  // ----- rows -----

  /** A cell of a generated row: a resolved value, or `now()`. */
  datatype Slot = Resolved(cell: R.Cell) | Now

  /** A generated row: the PHP array keyed by column name, in insertion order. */
  type Row = seq<(string, Slot)>

  function Keys(row: Row): (r: seq<string>)
    ensures |r| == |row| && forall i :: 0 <= i < |row| ==> r[i] == row[i].0
  {
    if |row| == 0 then [] else [row[0].0] + Keys(row[1..])
  }

  /** `$row[$k] ?? null`, with none for a missing key. */
  function SlotOf(row: Row, k: string): (r: Option<Slot>)
    ensures r.None? <==> k !in Keys(row)
    ensures r.Some? ==> (k, r.value) in row
  {
    if |row| == 0 then None
    else if row[0].0 == k then Some(row[0].1)
    else SlotOf(row[1..], k)
  }

  /** `$row[$k] = $v`: overwrite in place, or append a new key. */
  function SetSlot(row: Row, k: string, v: Slot): (r: Row)
    ensures SlotOf(r, k) == Some(v)
    ensures forall k' :: k' != k ==> SlotOf(r, k') == SlotOf(row, k')
    ensures forall k' :: k' in Keys(r) <==> k' in Keys(row) || k' == k
  {
    if |row| == 0 then [(k, v)]
    else if row[0].0 == k then [(k, v)] + row[1..]
    else [row[0]] + SetSlot(row[1..], k, v)
  }

  const Timestamps: seq<string> := ["created_at", "updated_at", "deleted_at"]

  /** The columns the row loops assign: not auto-increment, not a timestamp. */
  predicate Assigned(c: Column) {
    !c.autoIncrement && c.name !in Timestamps
  }

  /** The column loop of `makeRow` (and of the pivot sampler, which keeps keys already
      present): every assigned column gets the cell `cellOf` gives it. */
  function Fill(row: Row, cols: seq<Column>, cellOf: Column -> R.Cell, keepExisting: bool): (r: Row)
    ensures forall k :: k in Keys(r) <==>
      k in Keys(row) || exists i :: 0 <= i < |cols| && Assigned(cols[i]) && cols[i].name == k
    decreases |cols|
  {
    if |cols| == 0 then row
    else
      var c := cols[0];
      var next := if !Assigned(c) || (keepExisting && c.name in Keys(row)) then row
                  else SetSlot(row, c.name, Resolved(cellOf(c)));
      var r := Fill(next, cols[1..], cellOf, keepExisting);
      forall k
        ensures k in Keys(r) <==>
          k in Keys(row) || exists i :: 0 <= i < |cols| && Assigned(cols[i]) && cols[i].name == k
      {
        if exists i :: 0 <= i < |cols[1..]| && Assigned(cols[1..][i]) && cols[1..][i].name == k {
          var i :| 0 <= i < |cols[1..]| && Assigned(cols[1..][i]) && cols[1..][i].name == k;
          assert cols[i + 1] == cols[1..][i];
        }
        if exists i :: 0 <= i < |cols| && Assigned(cols[i]) && cols[i].name == k {
          var i :| 0 <= i < |cols| && Assigned(cols[i]) && cols[i].name == k;
          if i > 0 {
            assert cols[1..][i - 1] == cols[i];
          }
        }
      }
      r
  }

  /** A key no assigned column names keeps its slot. */
  lemma {:induction false} FillUntouched(row: Row, cols: seq<Column>, cellOf: Column -> R.Cell,
                                         keepExisting: bool, k: string)
    requires forall i :: 0 <= i < |cols| && Assigned(cols[i]) ==> cols[i].name != k
    ensures SlotOf(Fill(row, cols, cellOf, keepExisting), k) == SlotOf(row, k)
    decreases |cols|
  {
    if |cols| > 0 {
      var c := cols[0];
      var next := if !Assigned(c) || (keepExisting && c.name in Keys(row)) then row
                  else SetSlot(row, c.name, Resolved(cellOf(c)));
      forall i | 0 <= i < |cols[1..]| && Assigned(cols[1..][i])
        ensures cols[1..][i].name != k
      {
        assert cols[1..][i] == cols[i + 1];
      }
      FillUntouched(next, cols[1..], cellOf, keepExisting, k);
    }
  }

  /** A key already present survives a fill that keeps existing keys. */
  lemma {:induction false} FillKeeps(row: Row, cols: seq<Column>, cellOf: Column -> R.Cell, k: string)
    requires k in Keys(row)
    ensures SlotOf(Fill(row, cols, cellOf, true), k) == SlotOf(row, k)
    decreases |cols|
  {
    if |cols| > 0 {
      var c := cols[0];
      var next := if !Assigned(c) || c.name in Keys(row) then row
                  else SetSlot(row, c.name, Resolved(cellOf(c)));
      FillKeeps(next, cols[1..], cellOf, k);
    }
  }

  /** An assigned column whose name no other column shares gets its own cell (unless
      the fill keeps a key that is already there). */
  lemma {:induction false} FillAssigns(row: Row, cols: seq<Column>, cellOf: Column -> R.Cell,
                                       keepExisting: bool, i: int)
    requires 0 <= i < |cols| && Assigned(cols[i])
    requires forall j :: 0 <= j < |cols| && j != i ==> cols[j].name != cols[i].name
    requires !keepExisting || cols[i].name !in Keys(row)
    ensures SlotOf(Fill(row, cols, cellOf, keepExisting), cols[i].name) == Some(Resolved(cellOf(cols[i])))
    decreases |cols|
  {
    var c := cols[0];
    var next := if !Assigned(c) || (keepExisting && c.name in Keys(row)) then row
                else SetSlot(row, c.name, Resolved(cellOf(c)));
    if i == 0 {
      forall j | 0 <= j < |cols[1..]| && Assigned(cols[1..][j])
        ensures cols[1..][j].name != c.name
      {
        assert cols[1..][j] == cols[j + 1];
      }
      FillUntouched(next, cols[1..], cellOf, keepExisting, c.name);
    } else {
      assert cols[1..][i - 1] == cols[i];
      forall j | 0 <= j < |cols[1..]| && j != i - 1
        ensures cols[1..][j].name != cols[i].name
      {
        assert cols[1..][j] == cols[j + 1];
      }
      assert c.name != cols[i].name;
      FillAssigns(next, cols[1..], cellOf, keepExisting, i - 1);
    }
  }

  /** `now()` for `created_at` and `updated_at`, when the table has them. */
  function Stamp(row: Row, table: Table): (r: Row)
    ensures forall k :: k in Keys(r) <==>
      k in Keys(row) || (k in ["created_at", "updated_at"] && Lookup(table, k).Some?)
    ensures forall k :: k !in ["created_at", "updated_at"] ==> SlotOf(r, k) == SlotOf(row, k)
    ensures Lookup(table, "created_at").Some? ==> SlotOf(r, "created_at") == Some(Now)
    ensures Lookup(table, "updated_at").Some? ==> SlotOf(r, "updated_at") == Some(Now)
  {
    var r1 := if Lookup(table, "created_at").Some? then SetSlot(row, "created_at", Now) else row;
    if Lookup(table, "updated_at").Some? then SetSlot(r1, "updated_at", Now) else r1
  }

  /** `makeRow`: every assigned column, then the timestamps the table has. */
  function MakeRow(table: Table, cellOf: Column -> R.Cell): (r: Row)
    ensures forall k :: k in Keys(r) <==>
      (exists i :: 0 <= i < |table.columns| && Assigned(table.columns[i]) && table.columns[i].name == k)
      || (k in ["created_at", "updated_at"] && Lookup(table, k).Some?)
    ensures "deleted_at" !in Keys(r)
    ensures SlotOf(r, "created_at") == Some(Now) <==> Lookup(table, "created_at").Some?
    ensures SlotOf(r, "updated_at") == Some(Now) <==> Lookup(table, "updated_at").Some?
  {
    var filled := Fill([], table.columns, cellOf, false);
    FillUntouched([], table.columns, cellOf, false, "created_at");
    FillUntouched([], table.columns, cellOf, false, "updated_at");
    Stamp(filled, table)
  }

  /** In a table with unique column names, each assigned column of the row holds the
      cell resolved for it. */
  lemma MakeRowValue(table: Table, cellOf: Column -> R.Cell, i: int)
    requires UniqueColumnNames(table)
    requires 0 <= i < |table.columns| && Assigned(table.columns[i])
    ensures SlotOf(MakeRow(table, cellOf), table.columns[i].name) == Some(Resolved(cellOf(table.columns[i])))
  {
    FillAssigns([], table.columns, cellOf, false, i);
  }

  /** The rule `resolve` gets: the column rule, or null. */
  function RuleFor(rules: Rules.Ruleset, table: string, column: string): (r: Value)
    ensures r.Null? || r.Arr?
  {
    match Rules.ColumnRule(rules, table, column)
    case Some(v) => v
    case None => Null
  }

  /** One column of `makeRow`: the resolved value, replaced by the fallback when it is
      null and the column is not nullable. */
  function CellFor(table: Table, c: Column, schema: Database, rules: Rules.Ruleset, env: R.Env): (r: R.Cell)
    ensures !c.nullable ==> !R.IsNull(r)
    ensures !R.IsNull(R.Resolve(c, schema, RuleFor(rules, table.name, c.name), env)) ==>
      r == R.Resolve(c, schema, RuleFor(rules, table.name, c.name), env)
    ensures c.nullable ==> r == R.Resolve(c, schema, RuleFor(rules, table.name, c.name), env)
  {
    var v := R.Resolve(c, schema, RuleFor(rules, table.name, c.name), env);
    if R.IsNull(v) && !c.nullable then R.Fallback(c) else v
  }

  // ----- chunked inserts -----

  function Max(a: int, b: int): int { if a >= b then a else b }
  function Min(a: int, b: int): int { if a <= b then a else b }

  function Flatten<T>(bs: seq<seq<T>>): (r: seq<T>)
  {
    if |bs| == 0 then [] else bs[0] + Flatten(bs[1..])
  }

  lemma {:induction false} FlattenAppend<T>(bs: seq<seq<T>>, b: seq<T>)
    ensures Flatten(bs + [b]) == Flatten(bs) + b
  {
    if |bs| > 0 {
      assert (bs + [b])[1..] == bs[1..] + [b];
      FlattenAppend(bs[1..], b);
    }
  }

  /** The items cut into consecutive batches of `n`, the last one possibly shorter. */
  function Batches<T>(items: seq<T>, n: nat): seq<seq<T>>
    requires n >= 1
    decreases |items|
  {
    if |items| == 0 then []
    else if |items| <= n then [items]
    else [items[..n]] + Batches(items[n..], n)
  }

  /** Batches that concatenate to the items, are never empty and are full except
      possibly the last are exactly `Batches(items, n)`. */
  lemma {:induction false} BatchesUnique<T>(items: seq<T>, n: nat, bs: seq<seq<T>>)
    requires n >= 1
    requires Flatten(bs) == items
    requires forall i :: 0 <= i < |bs| ==> 1 <= |bs[i]| <= n
    requires forall i :: 0 <= i < |bs| - 1 ==> |bs[i]| == n
    ensures bs == Batches(items, n)
    decreases |bs|
  {
    if |bs| == 1 {
      assert Flatten(bs[1..]) == [];
      assert items == bs[0];
    } else if |bs| > 1 {
      var tail := bs[1..];
      assert Flatten(tail) == tail[0] + Flatten(tail[1..]);
      assert items == bs[0] + Flatten(tail);
      assert items[..n] == bs[0] && items[n..] == Flatten(tail);
      BatchesUnique(items[n..], n, tail);
    }
  }

  /** The batches concatenate to the items, and each holds between 1 and `n`. */
  lemma {:induction false} BatchesFacts<T>(items: seq<T>, n: nat)
    requires n >= 1
    ensures Flatten(Batches(items, n)) == items
    ensures forall i :: 0 <= i < |Batches(items, n)| ==> 1 <= |Batches(items, n)[i]| <= n
    decreases |items|
  {
    if |items| > n {
      BatchesFacts(items[n..], n);
      assert items == items[..n] + items[n..];
    }
  }

  /** The batching loop of `seedTable` and `seedPivotTable`: each item joins the batch,
      and a batch that has reached `chunkSize` is flushed; a partial batch is flushed
      at the end. A chunk size below 1 flushes every item on its own. */
  method Chunk<T>(items: seq<T>, chunkSize: int) returns (batches: seq<seq<T>>)
    ensures Flatten(batches) == items
    ensures forall i :: 0 <= i < |batches| ==> 1 <= |batches[i]| <= Max(1, chunkSize)
    ensures forall i :: 0 <= i < |batches| - 1 ==> |batches[i]| == Max(1, chunkSize)
    ensures batches == Batches(items, Max(1, chunkSize))
  {
    batches := [];
    var batch: seq<T> := [];
    for i := 0 to |items|
      invariant ChunkedUpTo(items, chunkSize, i, batches, batch)
    {
      ChunkAdvance(items, chunkSize, i, batches, batch);
      batch := batch + [items[i]];
      if |batch| >= chunkSize {
        batches := batches + [batch];
        batch := [];
      }
    }
    assert items[..|items|] == items;
    if |batch| > 0 {
      FlattenAppend(batches, batch);
      batches := batches + [batch];
    }
    BatchesUnique(items, Max(1, chunkSize), batches);
  }

  /** The state of `Chunk` after its first `i` items: full batches flushed, the rest
      pending in `batch`. */
  ghost predicate ChunkedUpTo<T>(items: seq<T>, chunkSize: int, i: int, batches: seq<seq<T>>, batch: seq<T>) {
    && 0 <= i <= |items|
    && Flatten(batches) + batch == items[..i]
    && |batch| < Max(1, chunkSize)
    && (forall j :: 0 <= j < |batches| ==> |batches[j]| == Max(1, chunkSize))
  }

  lemma ChunkAdvance<T>(items: seq<T>, chunkSize: int, i: int, batches: seq<seq<T>>, batch: seq<T>)
    requires ChunkedUpTo(items, chunkSize, i, batches, batch) && i < |items|
    ensures |batch + [items[i]]| >= chunkSize ==>
      ChunkedUpTo(items, chunkSize, i + 1, batches + [batch + [items[i]]], [])
    ensures |batch + [items[i]]| < chunkSize ==>
      ChunkedUpTo(items, chunkSize, i + 1, batches, batch + [items[i]])
  {
    var b := batch + [items[i]];
    assert items[..i + 1] == items[..i] + [items[i]];
    assert Flatten(batches) + b == items[..i + 1];
    FlattenAppend(batches, b);
  }

  // ----- events -----

  /** A write the runner performs. */
  datatype Event =
    | Statement(sql: string)
    | Truncate(table: string)
    | Insert(table: string, rows: seq<Row>)
    | InsertOrIgnore(table: string, rows: seq<Row>)
    | FactoryCreate(table: string, count: int)

  /** One insert per batch, in order. */
  function BatchEvents(table: string, batches: seq<seq<Row>>, orIgnore: bool): (r: seq<Event>)
    ensures |r| == |batches|
    ensures forall i :: 0 <= i < |r| ==>
      (if orIgnore then r[i].InsertOrIgnore? else r[i].Insert?) && r[i].table == table && r[i].rows == batches[i]
  {
    if |batches| == 0 then []
    else [if orIgnore then InsertOrIgnore(table, batches[0]) else Insert(table, batches[0])]
         + BatchEvents(table, batches[1..], orIgnore)
  }

  /** The rows inserted by a sequence of events, in order. */
  function InsertedRows(events: seq<Event>): seq<Row> {
    if |events| == 0 then []
    else (if events[0].Insert? || events[0].InsertOrIgnore? then events[0].rows else [])
         + InsertedRows(events[1..])
  }

  lemma {:induction false} InsertedBatches(table: string, batches: seq<seq<Row>>, orIgnore: bool)
    ensures InsertedRows(BatchEvents(table, batches, orIgnore)) == Flatten(batches)
  {
    if |batches| > 0 {
      InsertedBatches(table, batches[1..], orIgnore);
    }
  }

  lemma {:induction false} NoTruncates(events: seq<Event>)
    requires forall i :: 0 <= i < |events| ==> !events[i].Truncate?
    ensures TruncatedTables(events) == []
  {
    if |events| > 0 {
      NoTruncates(events[1..]);
    }
  }

  /** The tables truncated by a sequence of events, in order. */
  function TruncatedTables(events: seq<Event>): seq<string> {
    if |events| == 0 then []
    else (if events[0].Truncate? then [events[0].table] else []) + TruncatedTables(events[1..])
  }

  function TruncateEach(tables: seq<string>): (r: seq<Event>)
    ensures |r| == |tables| && forall i :: 0 <= i < |r| ==> r[i] == Truncate(tables[i])
  {
    if |tables| == 0 then [] else [Truncate(tables[0])] + TruncateEach(tables[1..])
  }

  lemma {:induction false} TruncatedEach(tables: seq<string>)
    ensures TruncatedTables(TruncateEach(tables)) == tables
  {
    if |tables| > 0 {
      assert TruncateEach(tables)[1..] == TruncateEach(tables[1..]);
      TruncatedEach(tables[1..]);
    }
  }

  /** The tables as the query grammar quotes them, in order. */
  function Wrapped(tables: seq<string>, wrap: string -> string): (r: seq<string>)
    ensures |r| == |tables|
  {
    seq(|tables|, i requires 0 <= i < |tables| => wrap(tables[i]))
  }

  const TruncatePrefix: string := "TRUNCATE TABLE "
  const TruncateSuffix: string := " RESTART IDENTITY CASCADE"

  /** `truncateTables`: PostgreSQL truncates everything in one statement; MySQL and
      SQLite switch foreign-key checks off around one truncate per table, in the given
      order, and on again afterwards (not in a `finally`: a failing truncate leaves them
      off). `wrap` is the grammar's table quoting. */
  function TruncateEvents(driver: string, tables: seq<string>, wrap: string -> string): (r: seq<Event>)
    ensures driver == "pgsql" ==>
      r == [Statement(TruncatePrefix + Join(Wrapped(tables, wrap), ", ") + TruncateSuffix)]
    ensures driver != "pgsql" ==> TruncatedTables(r) == tables
    ensures driver == "mysql" ==>
      |r| == |tables| + 2 && r[0] == Statement("SET FOREIGN_KEY_CHECKS=0") && r[|r| - 1] == Statement("SET FOREIGN_KEY_CHECKS=1")
    ensures driver == "sqlite" ==>
      |r| == |tables| + 2 && r[0] == Statement("PRAGMA foreign_keys = OFF") && r[|r| - 1] == Statement("PRAGMA foreign_keys = ON")
    ensures driver == "mysql" || driver == "sqlite" ==>
      forall i :: 0 <= i < |tables| ==> r[i + 1] == Truncate(tables[i])
    ensures driver != "pgsql" && driver != "mysql" && driver != "sqlite" ==>
      |r| == |tables| && forall i :: 0 <= i < |tables| ==> r[i] == Truncate(tables[i])
  {
    if driver == "pgsql" then
      [Statement(TruncatePrefix + Join(Wrapped(tables, wrap), ", ") + TruncateSuffix)]
    else
      TruncatedEach(tables);
      var each := TruncateEach(tables);
      if driver == "mysql" then
        TruncatedAround(Statement("SET FOREIGN_KEY_CHECKS=0"), each, Statement("SET FOREIGN_KEY_CHECKS=1"));
        [Statement("SET FOREIGN_KEY_CHECKS=0")] + each + [Statement("SET FOREIGN_KEY_CHECKS=1")]
      else if driver == "sqlite" then
        TruncatedAround(Statement("PRAGMA foreign_keys = OFF"), each, Statement("PRAGMA foreign_keys = ON"));
        [Statement("PRAGMA foreign_keys = OFF")] + each + [Statement("PRAGMA foreign_keys = ON")]
      else each
  }

  /** The tables a PostgreSQL truncate statement names: the text between the fixed
      prefix and suffix, split at the commas, each name after the first without the
      space that follows its comma; none when the statement does not have that shape. */
  function TruncateTargets(sql: string): (r: Option<seq<string>>)
    ensures r.Some? <==> |TruncatePrefix| + |TruncateSuffix| <= |sql|
                         && StartsWith(sql, TruncatePrefix) && EndsWith(sql, TruncateSuffix)
  {
    if |TruncatePrefix| + |TruncateSuffix| <= |sql| && StartsWith(sql, TruncatePrefix) && EndsWith(sql, TruncateSuffix) then
      var pieces := Split(sql[|TruncatePrefix|..|sql| - |TruncateSuffix|], ',');
      Some(seq(|pieces|, i requires 0 <= i < |pieces| =>
        if i > 0 && |pieces[i]| > 0 && pieces[i][0] == ' ' then pieces[i][1..] else pieces[i]))
    else None
  }

  /** The PostgreSQL statement truncates exactly the given tables, in the given order,
      as the grammar quotes them: reading its table list back gives the quoted names,
      provided no quoted name contains a comma. */
  lemma TruncateStatementNamesTables(tables: seq<string>, wrap: string -> string)
    requires |tables| >= 1
    requires forall i :: 0 <= i < |tables| ==> ',' !in wrap(tables[i])
    ensures |TruncateEvents("pgsql", tables, wrap)| == 1 && TruncateEvents("pgsql", tables, wrap)[0].Statement?
    ensures TruncateTargets(TruncateEvents("pgsql", tables, wrap)[0].sql) == Some(Wrapped(tables, wrap))
  {
    var wrapped := Wrapped(tables, wrap);
    var list := Join(wrapped, ", ");
    var sql := TruncatePrefix + list + TruncateSuffix;
    assert sql[..|TruncatePrefix|] == TruncatePrefix;
    assert sql[|sql| - |TruncateSuffix|..] == TruncateSuffix;
    assert sql[|TruncatePrefix|..|sql| - |TruncateSuffix|] == list;
    SplitJoinSpaced(wrapped, ',');
    var pieces := Split(list, ',');
    assert pieces == Spaced(wrapped);
    assert TruncateEvents("pgsql", tables, wrap) == [Statement(sql)];
    var targets := TruncateTargets(sql).value;
    assert |targets| == |pieces| == |wrapped|;
    forall i | 0 <= i < |wrapped|
      ensures targets[i] == wrapped[i]
    {
      if i > 0 {
        assert pieces[i] == " " + wrapped[i];
        assert pieces[i][1..] == wrapped[i];
      } else {
        assert pieces[0] == wrapped[0];
      }
    }
    assert targets == wrapped;
  }

  lemma TruncatedAround(before: Event, each: seq<Event>, after: Event)
    requires before.Statement? && after.Statement?
    ensures TruncatedTables([before] + each + [after]) == TruncatedTables(each)
  {
    assert ([before] + each + [after])[1..] == each + [after];
    TruncatedConcat(each, [after]);
  }

  lemma {:induction false} TruncatedConcat(a: seq<Event>, b: seq<Event>)
    ensures TruncatedTables(a + b) == TruncatedTables(a) + TruncatedTables(b)
  {
    if |a| == 0 {
      assert a + b == b;
    } else {
      assert (a + b)[0] == a[0];
      assert (a + b)[1..] == a[1..] + b;
      TruncatedConcat(a[1..], b);
    }
  }

  // ----- pivot tables -----

  /** A pivot table as `isCompositeFkPrimaryKeyPivot` recognises it: at least two
      primary-key columns, each with a foreign key and none auto-incrementing. */
  predicate IsPivot(t: Table) {
    |PrimaryKeyColumns(t.columns)| >= 2
    && forall c :: c in t.columns && c.isPrimaryKey ==> c.foreignKey.Some? && !c.autoIncrement
  }

  /** `isCompositeFkPrimaryKeyPivot`, as the loop over the primary-key columns with an
      early exit. */
  method IsCompositeFkPrimaryKeyPivot(t: Table) returns (b: bool)
    ensures b <==> IsPivot(t)
  {
    var pk := PrimaryKeyColumns(t.columns);
    if |pk| < 2 {
      return false;
    }
    for i := 0 to |pk|
      invariant forall j :: 0 <= j < i ==> pk[j].foreignKey.Some? && !pk[j].autoIncrement
    {
      if pk[i].foreignKey.None? || pk[i].autoIncrement {
        assert pk[i] in t.columns && pk[i].isPrimaryKey;
        return false;
      }
    }
    forall c | c in t.columns && c.isPrimaryKey
      ensures c.foreignKey.Some? && !c.autoIncrement
    {
      assert c in pk;
    }
    return true;
  }

  /** A single-column primary key never makes a pivot. */
  lemma SinglePrimaryKeyIsNotPivot(t: Table)
    requires |PrimaryKeyColumns(t.columns)| <= 1
    ensures !IsPivot(t)
  {
  }

  /** The non-null values, in order. */
  function NonNull(vs: seq<Value>): (r: seq<Value>)
    ensures forall v :: v in r <==> v in vs && v != Null
    ensures |r| <= |vs|
  {
    if |vs| == 0 then []
    else
      assert vs == [vs[0]] + vs[1..];
      (if vs[0] != Null then [vs[0]] else []) + NonNull(vs[1..])
  }

  /** `pivotForeignKeyChoices`: the candidate values of one primary-key column. A
      `literal` rule gives its value (none when null); an `fk` rule reads its table's
      column (`id` by default), giving nothing without a non-empty table name; otherwise
      the declared foreign key is read, and without one there is nothing. Nulls are
      dropped. `pluck(table, column)` is the column's values in the database. */
  function PivotChoices(table: string, column: Column, rules: Rules.Ruleset,
                        pluck: (string, string) -> seq<Value>): (r: seq<Value>)
    ensures Null !in r
    ensures var rule := RuleFor(rules, table, column.name);
      Get(rule, "strategy") == Str("literal") ==>
        r == (if Get(rule, "value") == Null then [] else [Get(rule, "value")])
    ensures var rule := RuleFor(rules, table, column.name);
      Get(rule, "strategy") == Str("fk") && !(Get(rule, "table").Str? && Get(rule, "table").s != "") ==> r == []
    ensures var rule := RuleFor(rules, table, column.name);
      Get(rule, "strategy") == Str("fk") && Get(rule, "table").Str? && Get(rule, "table").s != "" ==>
        r == NonNull(pluck(Get(rule, "table").s, R.RuleColumn(rule)))
    ensures var rule := RuleFor(rules, table, column.name);
      Get(rule, "strategy") !in [Str("literal"), Str("fk")] ==>
        r == (match column.foreignKey
              case None => []
              case Some(fk) => NonNull(pluck(fk.foreignTable, fk.foreignColumn)))
  {
    var rule := RuleFor(rules, table, column.name);
    if rule.Arr? && Get(rule, "strategy") == Str("literal") then
      var value := Get(rule, "value");
      if value == Null then [] else [value]
    else if rule.Arr? && Get(rule, "strategy") == Str("fk") then
      var foreignTable := Get(rule, "table");
      if !foreignTable.Str? || foreignTable.s == "" then []
      else NonNull(pluck(foreignTable.s, R.RuleColumn(rule)))
    else
      match column.foreignKey
      case None => []
      case Some(fk) => NonNull(pluck(fk.foreignTable, fk.foreignColumn))
  }

  /** The product of the pool sizes (each counted as at least 1), from pool `j` on. */
  function Product(pools: seq<seq<Value>>, j: nat): (r: int)
    requires j <= |pools|
    ensures r >= 1
    decreases |pools| - j
  {
    if j == |pools| then 1 else Max(1, |pools[j]|) * Product(pools, j + 1)
  }

  /** The `$maxCombos` loop: the running product, stopping as soon as it passes one
      million. */
  function CombosFrom(acc: int, pools: seq<seq<Value>>, j: nat): (r: int)
    requires j <= |pools| && acc >= 1
    ensures r >= 1
    decreases |pools| - j
  {
    if j == |pools| then acc
    else
      var a := acc * Max(1, |pools[j]|);
      if a > 1_000_000 then a else CombosFrom(a, pools, j + 1)
  }

  const ComboCap := 1_000_000

  function MaxCombos(pools: seq<seq<Value>>): (r: int)
    ensures r >= 1
  {
    CombosFrom(1, pools, 0)
  }

  /** Below the cap, the capped loop computes the exact product. */
  lemma {:induction false} CombosExact(acc: int, pools: seq<seq<Value>>, j: nat)
    requires j <= |pools| && acc >= 1
    requires acc * Product(pools, j) <= ComboCap
    ensures CombosFrom(acc, pools, j) == acc * Product(pools, j)
    decreases |pools| - j
  {
    if j < |pools| {
      var m := Max(1, |pools[j]|);
      var p := Product(pools, j + 1);
      assert acc * (m * p) == (acc * m) * p;
      assert acc * m <= (acc * m) * p by {
        MulAtLeast(acc * m, p);
      }
      CombosExact(acc * m, pools, j + 1);
    }
  }

  lemma MulAtLeast(a: int, p: int)
    requires a >= 0 && p >= 1
    ensures a <= a * p
  {
  }

  lemma MaxCombosIsProduct(pools: seq<seq<Value>>)
    requires Product(pools, 0) <= ComboCap
    ensures MaxCombos(pools) == Product(pools, 0)
  {
    CombosExact(1, pools, 0);
  }

  /** One draw: `array_rand` on every pool, `draw(attempt, j)` choosing the index. */
  function Draw(pools: seq<seq<Value>>, attempt: nat, draw: (nat, nat) -> nat): (r: seq<Value>)
    requires forall j :: 0 <= j < |pools| ==> |pools[j]| > 0
    ensures |r| == |pools| && forall j :: 0 <= j < |pools| ==> r[j] in pools[j]
  {
    seq(|pools|, j requires 0 <= j < |pools| => pools[j][draw(attempt, j) % |pools[j]|])
  }

  /** The composite key of a pick: the values cast to strings and joined with `-`. */
  function PivotKey(pick: seq<Value>): string {
    Join(seq(|pick|, i requires 0 <= i < |pick| => ToStr(pick[i])), "-")
  }

  function PivotKeys(picks: seq<seq<Value>>): (r: seq<string>)
    ensures |r| == |picks| && forall i :: 0 <= i < |picks| ==> r[i] == PivotKey(picks[i])
  {
    seq(|picks|, i requires 0 <= i < |picks| => PivotKey(picks[i]))
  }

  /** The rows `seedPivotTable` asks for: the requested count capped by the number of
      combinations. */
  function PivotTarget(pools: seq<seq<Value>>, rows: int): int {
    Min(rows, MaxCombos(pools))
  }

  /** The attempt budget of the sampler. */
  function AttemptBudget(pools: seq<seq<Value>>, rows: int): int {
    Max(50, PivotTarget(pools, rows) * 50)
  }

  /** The sampler as a function: from `attempts` spent and `picks` kept, draw until
      `target` picks or `budget` attempts, keeping a draw only when its composite key
      is new. */
  function SampleFrom(pools: seq<seq<Value>>, draw: (nat, nat) -> nat, target: int, budget: int,
                      attempts: nat, picks: seq<seq<Value>>): (r: seq<seq<Value>>)
    requires forall j :: 0 <= j < |pools| ==> |pools[j]| > 0
    requires forall i :: 0 <= i < |picks| ==> |picks[i]| == |pools|
    ensures forall i :: 0 <= i < |r| ==> |r[i]| == |pools|
    decreases budget - attempts
  {
    if |picks| >= target || attempts >= budget then picks
    else
      var pick := Draw(pools, attempts + 1, draw);
      if PivotKey(pick) in PivotKeys(picks) then SampleFrom(pools, draw, target, budget, attempts + 1, picks)
      else SampleFrom(pools, draw, target, budget, attempts + 1, picks + [pick])
  }

  /** The picks of one pivot table. */
  function Sample(pools: seq<seq<Value>>, rows: int, draw: (nat, nat) -> nat): (r: seq<seq<Value>>)
    requires forall j :: 0 <= j < |pools| ==> |pools[j]| > 0
    ensures forall i :: 0 <= i < |r| ==> |r[i]| == |pools|
  {
    SampleFrom(pools, draw, PivotTarget(pools, rows), AttemptBudget(pools, rows), 0, [])
  }

  /** Sampling on from a state with distinct keys drawn from the pools, within the
      target, stays that way. */
  lemma {:induction false} SampleFromSound(pools: seq<seq<Value>>, draw: (nat, nat) -> nat, target: int,
                                           budget: int, attempts: nat, picks: seq<seq<Value>>)
    requires forall j :: 0 <= j < |pools| ==> |pools[j]| > 0
    requires forall i :: 0 <= i < |picks| ==> |picks[i]| == |pools|
    requires forall i, j :: 0 <= i < |picks| && 0 <= j < |pools| ==> picks[i][j] in pools[j]
    requires Distinct(PivotKeys(picks)) && |picks| <= Max(0, target)
    ensures var r := SampleFrom(pools, draw, target, budget, attempts, picks);
      && Distinct(PivotKeys(r)) && |r| <= Max(0, target)
      && forall i, j :: 0 <= i < |r| && 0 <= j < |pools| ==> r[i][j] in pools[j]
    decreases budget - attempts
  {
    if |picks| < target && attempts < budget {
      var pick := Draw(pools, attempts + 1, draw);
      if PivotKey(pick) in PivotKeys(picks) {
        SampleFromSound(pools, draw, target, budget, attempts + 1, picks);
      } else {
        assert PivotKeys(picks + [pick]) == PivotKeys(picks) + [PivotKey(pick)];
        SampleFromSound(pools, draw, target, budget, attempts + 1, picks + [pick]);
      }
    }
  }

  /** The sampled keys are pairwise distinct, drawn from their pools, at most the
      requested count, and at most the number of combinations when that is below the
      cap. */
  lemma SampleSound(pools: seq<seq<Value>>, rows: int, draw: (nat, nat) -> nat)
    requires forall j :: 0 <= j < |pools| ==> |pools[j]| > 0
    ensures Distinct(PivotKeys(Sample(pools, rows, draw)))
    ensures |Sample(pools, rows, draw)| <= Max(0, rows)
    ensures Product(pools, 0) <= ComboCap ==> |Sample(pools, rows, draw)| <= Product(pools, 0)
    ensures forall i, j :: 0 <= i < |Sample(pools, rows, draw)| && 0 <= j < |pools| ==>
      Sample(pools, rows, draw)[i][j] in pools[j]
  {
    SampleFromSound(pools, draw, PivotTarget(pools, rows), AttemptBudget(pools, rows), 0, []);
    if Product(pools, 0) <= ComboCap {
      MaxCombosIsProduct(pools);
    }
  }

  /** The sampling loop of `seedPivotTable`: draw one value per primary-key column,
      skip the draw when its composite key was seen before, stop at the target or when
      the attempt budget is spent. */
  method SamplePivot(pools: seq<seq<Value>>, rows: int, draw: (nat, nat) -> nat)
    returns (picks: seq<seq<Value>>, attempts: nat)
    requires forall j :: 0 <= j < |pools| ==> |pools[j]| > 0
    ensures Distinct(PivotKeys(picks))
    ensures |picks| <= Max(0, rows)
    ensures Product(pools, 0) <= ComboCap ==> |picks| <= Product(pools, 0)
    ensures attempts <= AttemptBudget(pools, rows)
    ensures forall i :: 0 <= i < |picks| ==> |picks[i]| == |pools|
    ensures forall i, j :: 0 <= i < |picks| && 0 <= j < |pools| ==> picks[i][j] in pools[j]
    ensures picks == Sample(pools, rows, draw)
  {
    var target := PivotTarget(pools, rows);
    var maxAttempts := AttemptBudget(pools, rows);
    var seen: set<string> := {};
    picks := [];
    attempts := 0;
    while |seen| < target && attempts < maxAttempts
      invariant attempts <= maxAttempts
      invariant forall k :: k in seen <==> k in PivotKeys(picks)
      invariant |seen| == |picks|
      invariant forall i :: 0 <= i < |picks| ==> |picks[i]| == |pools|
      invariant SampleFrom(pools, draw, target, maxAttempts, attempts, picks) == Sample(pools, rows, draw)
      decreases maxAttempts - attempts
    {
      attempts := attempts + 1;
      var pick := Draw(pools, attempts, draw);
      var key := PivotKey(pick);
      if key in seen {
        continue;
      }
      assert PivotKeys(picks + [pick]) == PivotKeys(picks) + [key];
      seen := seen + {key};
      picks := picks + [pick];
    }
    SampleSound(pools, rows, draw);
  }

  /** The primary-key part of a pivot row, assigned in primary-key order. */
  function PkRow(pkCols: seq<Column>, pick: seq<Value>): (r: Row)
    requires |pick| == |pkCols|
    decreases |pkCols|
  {
    if |pkCols| == 0 then []
    else
      var n := |pkCols| - 1;
      SetSlot(PkRow(pkCols[..n], pick[..n]), pkCols[n].name, Resolved(R.Given(pick[n])))
  }

  /** The primary-key part has exactly the key columns as its keys. */
  lemma {:induction false} PkRowKeys(pkCols: seq<Column>, pick: seq<Value>)
    requires |pick| == |pkCols|
    ensures forall k :: k in Keys(PkRow(pkCols, pick)) <==> exists j :: 0 <= j < |pkCols| && pkCols[j].name == k
    decreases |pkCols|
  {
    if |pkCols| > 0 {
      var n := |pkCols| - 1;
      PkRowKeys(pkCols[..n], pick[..n]);
      forall k
        ensures k in Keys(PkRow(pkCols, pick)) <==> exists j :: 0 <= j < |pkCols| && pkCols[j].name == k
      {
        if exists j :: 0 <= j < |pkCols[..n]| && pkCols[..n][j].name == k {
          var j :| 0 <= j < |pkCols[..n]| && pkCols[..n][j].name == k;
          assert pkCols[j] == pkCols[..n][j];
        }
      }
    }
  }

  /** A row of `seedPivotTable`: the drawn keys, then every other assigned column (a key
      already set is kept), then the timestamps. */
  function PivotRow(table: Table, pkCols: seq<Column>, pick: seq<Value>, cellOf: Column -> R.Cell): (r: Row)
    requires |pick| == |pkCols|
    ensures forall j :: 0 <= j < |pkCols| ==> pkCols[j].name in Keys(r)
    ensures "deleted_at" !in Keys(r) || exists j :: 0 <= j < |pkCols| && pkCols[j].name == "deleted_at"
  {
    var row := PkRow(pkCols, pick);
    PkRowKeys(pkCols, pick);
    Stamp(Fill(row, table.columns, cellOf, true), table)
  }

  /** A drawn key value survives the column loop, and the timestamps unless the key
      column is itself one of them. */
  lemma PivotRowKeepsKey(table: Table, pkCols: seq<Column>, pick: seq<Value>, cellOf: Column -> R.Cell, j: int)
    requires |pick| == |pkCols| && 0 <= j < |pkCols|
    requires forall i :: 0 <= i < |pkCols| && i != j ==> pkCols[i].name != pkCols[j].name
    requires pkCols[j].name !in ["created_at", "updated_at"]
    ensures SlotOf(PivotRow(table, pkCols, pick, cellOf), pkCols[j].name) == Some(Resolved(R.Given(pick[j])))
  {
    var row := PkRow(pkCols, pick);
    PkRowSlot(pkCols, pick, j);
    FillKeeps(row, table.columns, cellOf, pkCols[j].name);
  }

  lemma {:induction false} PkRowSlot(pkCols: seq<Column>, pick: seq<Value>, j: int)
    requires |pick| == |pkCols| && 0 <= j < |pkCols|
    requires forall i :: 0 <= i < |pkCols| && i != j ==> pkCols[i].name != pkCols[j].name
    ensures SlotOf(PkRow(pkCols, pick), pkCols[j].name) == Some(Resolved(R.Given(pick[j])))
    decreases |pkCols|
  {
    var n := |pkCols| - 1;
    if j < n {
      forall i | 0 <= i < |pkCols[..n]| && i != j
        ensures pkCols[..n][i].name != pkCols[..n][j].name
      {
        assert pkCols[..n][i] == pkCols[i];
      }
      PkRowSlot(pkCols[..n], pick[..n], j);
      assert pkCols[..n][j] == pkCols[j];
      assert pick[..n][j] == pick[j];
      var prefix := PkRow(pkCols[..n], pick[..n]);
      assert pkCols[n].name != pkCols[j].name;
      assert PkRow(pkCols, pick) == SetSlot(prefix, pkCols[n].name, Resolved(R.Given(pick[n])));
    }
  }

  // ----- orchestration -----

  /** The `relix.*` configuration the runner reads, none when unset. */
  datatype Config = Config(
    ignoreTables: Value,
    defaultCount: Option<int>,
    chunkSize: Option<int>,
    eloquentEnabled: Option<bool>,
    preferFactories: Option<bool>)

  const DefaultCount := 25
  const DefaultChunkSize := 250

  /** The oracles of one seeding run. `resolver(table, i)` is the Faker, database and
      factory behaviour while row `i` of `table` is built; `hasFactory(table)` says the
      model registry maps the table to a model with a factory (always false without a
      registry); `draw` is `array_rand`; `wrap` is the grammar's table quoting. */
  datatype World = World(
    resolver: (string, nat) -> R.Env,
    pluck: (string, string) -> seq<Value>,
    draw: (nat, nat) -> nat,
    hasFactory: string -> bool,
    plural: string -> string,
    driver: string,
    wrap: string -> string)

  /** The row count: the explicit count, else the rule's integer `count`, else the
      configured default (25 when unset). */
  function RowCount(count: Option<int>, rules: Rules.Ruleset, table: string, cfg: Config): (r: int)
    ensures count.Some? ==> r == count.value
    ensures count.None? && Rules.TableCount(rules, table).Some? ==> r == Rules.TableCount(rules, table).value
    ensures count.None? && Rules.TableCount(rules, table).None? ==> r == cfg.defaultCount.GetOr(DefaultCount)
  {
    match count
    case Some(n) => n
    case None =>
      match Rules.TableCount(rules, table)
      case Some(n) => n
      case None => cfg.defaultCount.GetOr(DefaultCount)
  }

  /** Factories are preferred unless Eloquent support or the preference is switched
      off; both default to on. */
  predicate PreferFactories(cfg: Config) {
    cfg.eloquentEnabled.GetOr(true) && cfg.preferFactories.GetOr(true)
  }

  /** The rows the plain path of `seedTable` generates: `makeRow` for each index. */
  function GeneratedRows(t: Table, schema: Database, rules: Rules.Ruleset, w: World, n: nat): (r: seq<Row>)
    ensures |r| == n
    ensures forall i :: 0 <= i < n ==>
      r[i] == MakeRow(t, c => CellFor(t, c, schema, rules, w.resolver(t.name, i)))
  {
    seq(n, i requires 0 <= i < n => MakeRow(t, c => CellFor(t, c, schema, rules, w.resolver(t.name, i))))
  }

  /** Row `i` of the plain path has a key for every assigned column and for the
      `created_at`/`updated_at` columns the table has, and nothing else; in a table with
      unique column names each assigned column holds the cell resolved with row `i`'s
      oracles, never null when the column is not nullable. */
  lemma GeneratedRowShape(t: Table, schema: Database, rules: Rules.Ruleset, w: World, n: nat, i: int, j: int)
    requires 0 <= i < n && 0 <= j < |t.columns|
    ensures forall k :: k in Keys(GeneratedRows(t, schema, rules, w, n)[i]) <==>
      (exists c :: 0 <= c < |t.columns| && Assigned(t.columns[c]) && t.columns[c].name == k)
      || (k in ["created_at", "updated_at"] && Lookup(t, k).Some?)
    ensures UniqueColumnNames(t) && Assigned(t.columns[j]) ==>
      var cell := CellFor(t, t.columns[j], schema, rules, w.resolver(t.name, i));
      && SlotOf(GeneratedRows(t, schema, rules, w, n)[i], t.columns[j].name) == Some(Resolved(cell))
      && (!t.columns[j].nullable ==> !R.IsNull(cell))
  {
    if UniqueColumnNames(t) && Assigned(t.columns[j]) {
      MakeRowValue(t, c => CellFor(t, c, schema, rules, w.resolver(t.name, i)), j);
    }
  }

  /** The rows of a pivot table, one per pick. */
  function PivotRows(t: Table, pkCols: seq<Column>, picks: seq<seq<Value>>, schema: Database,
                     rules: Rules.Ruleset, w: World): (r: seq<Row>)
    requires forall i :: 0 <= i < |picks| ==> |picks[i]| == |pkCols|
    ensures |r| == |picks|
  {
    seq(|picks|, i requires 0 <= i < |picks| =>
      PivotRow(t, pkCols, picks[i], c => CellFor(t, c, schema, rules, w.resolver(t.name, i))))
  }

  /** The candidate pools of the primary-key columns, in key order. */
  function Pools(t: Table, rules: Rules.Ruleset, pluck: (string, string) -> seq<Value>): (r: seq<seq<Value>>)
    ensures |r| == |PrimaryKeyColumns(t.columns)|
    ensures forall j :: 0 <= j < |r| ==> r[j] == PivotChoices(t.name, PrimaryKeyColumns(t.columns)[j], rules, pluck)
  {
    var pkCols := PrimaryKeyColumns(t.columns);
    seq(|pkCols|, j requires 0 <= j < |pkCols| => PivotChoices(t.name, pkCols[j], rules, pluck))
  }

  /** The keys `seedPivotTable` samples: none when some pool is empty. */
  function PivotPicks(t: Table, rules: Rules.Ruleset, rows: int, w: World): (r: seq<seq<Value>>)
    ensures forall i :: 0 <= i < |r| ==> |r[i]| == |PrimaryKeyColumns(t.columns)|
  {
    var pools := Pools(t, rules, w.pluck);
    if [] in pools then [] else Sample(pools, rows, w.draw)
  }

  /** The effective chunk size: the configured one (250 when unset), at least 1. */
  function ChunkLimit(cfg: Config): nat {
    Max(1, cfg.chunkSize.GetOr(DefaultChunkSize))
  }

  /** The writes of `seedPivotTable`. */
  function PivotEvents(t: Table, schema: Database, rules: Rules.Ruleset, rows: int, w: World, cfg: Config): seq<Event> {
    BatchEvents(t.name, Batches(PivotRows(t, PrimaryKeyColumns(t.columns), PivotPicks(t, rules, rows, w), schema, rules, w),
                                ChunkLimit(cfg)), true)
  }

  /** The writes of `seedTable` for one table name. */
  function TableEvents(name: string, rules: Rules.Ruleset, count: Option<int>, truncate: bool,
                       schema: Database, w: World, cfg: Config): seq<Event>
  {
    match TableOf(schema, name)
    case None => []
    case Some(t) =>
      var rows := RowCount(count, rules, name, cfg);
      (if truncate then TruncateEvents(w.driver, [name], w.wrap) else [])
      + match PathFor(t, rules, w, cfg)
        case PivotPath => PivotEvents(t, schema, rules, rows, w, cfg)
        case FactoryPath => [FactoryCreate(name, rows)]
        case RowsPath => BatchEvents(name, Batches(GeneratedRows(t, schema, rules, w, Max(0, rows)), ChunkLimit(cfg)), false)
  }

  function MapSeq<A, B>(xs: seq<A>, f: A -> B): (r: seq<B>)
    ensures |r| == |xs| && forall i :: 0 <= i < |xs| ==> r[i] == f(xs[i])
  {
    seq(|xs|, i requires 0 <= i < |xs| => f(xs[i]))
  }

  lemma MapSeqPrefix<A, B>(xs: seq<A>, f: A -> B, i: int)
    requires 0 <= i < |xs|
    ensures MapSeq(xs[..i + 1], f) == MapSeq(xs[..i], f) + [f(xs[i])]
  {
  }

  /** The writes of the `seed` loop, table by table. */
  function PerTable(names: seq<string>, rules: Rules.Ruleset, count: Option<int>, schema: Database,
                    w: World, cfg: Config): (r: seq<seq<Event>>)
    ensures |r| == |names|
  {
    MapSeq(names, n => TableEvents(n, rules, count, false, schema, w, cfg))
  }

  /** The pivot keys: none when some key column has no candidates; otherwise
      pairwise distinct, drawn from the pools, at most the requested count and at most
      the number of combinations when that is below the cap. */
  lemma PivotPicksSound(t: Table, rules: Rules.Ruleset, rows: int, w: World)
    ensures [] in Pools(t, rules, w.pluck) ==> PivotPicks(t, rules, rows, w) == []
    ensures Distinct(PivotKeys(PivotPicks(t, rules, rows, w)))
    ensures |PivotPicks(t, rules, rows, w)| <= Max(0, rows)
    ensures Product(Pools(t, rules, w.pluck), 0) <= ComboCap ==>
      |PivotPicks(t, rules, rows, w)| <= Product(Pools(t, rules, w.pluck), 0)
    ensures forall i, j :: 0 <= i < |PivotPicks(t, rules, rows, w)| && 0 <= j < |Pools(t, rules, w.pluck)| ==>
      PivotPicks(t, rules, rows, w)[i][j] in Pools(t, rules, w.pluck)[j]
  {
    var pools := Pools(t, rules, w.pluck);
    if [] !in pools {
      forall j | 0 <= j < |pools|
        ensures |pools[j]| > 0
      {
        assert pools[j] in pools;
      }
      SampleSound(pools, rows, w.draw);
    }
  }

  /** `count($rows)` insert events on `table`, of the given kind, each of 1 to `n` rows,
      together inserting `rows`. */
  predicate InsertsOf(events: seq<Event>, table: string, rows: seq<Row>, orIgnore: bool, n: nat) {
    && InsertedRows(events) == rows
    && forall i :: 0 <= i < |events| ==>
         (if orIgnore then events[i].InsertOrIgnore? else events[i].Insert?)
         && events[i].table == table && 1 <= |events[i].rows| <= n
  }

  lemma BatchedInserts(table: string, rows: seq<Row>, orIgnore: bool, n: nat)
    requires n >= 1
    ensures InsertsOf(BatchEvents(table, Batches(rows, n), orIgnore), table, rows, orIgnore, n)
  {
    BatchesFacts(rows, n);
    InsertedBatches(table, Batches(rows, n), orIgnore);
  }

  /** What `seedTable` writes for a table it finds, without truncating: for a pivot
      table its sampled keys' rows with `insertOrIgnore`, for a table handed to its
      factory one factory run with the row count, and for any other table the
      generated rows; rows are inserted in batches of 1 to the chunk size. */
  lemma TableEventsPaths(name: string, rules: Rules.Ruleset, count: Option<int>, truncate: bool,
                         schema: Database, w: World, cfg: Config)
    ensures TableOf(schema, name).Some? && !truncate && PathFor(TableOf(schema, name).value, rules, w, cfg) == PivotPath ==>
      var t := TableOf(schema, name).value;
      InsertsOf(TableEvents(name, rules, count, truncate, schema, w, cfg), name,
                PivotRows(t, PrimaryKeyColumns(t.columns), PivotPicks(t, rules, RowCount(count, rules, name, cfg), w),
                          schema, rules, w),
                true, ChunkLimit(cfg))
    ensures TableOf(schema, name).Some? && !truncate && PathFor(TableOf(schema, name).value, rules, w, cfg) == FactoryPath ==>
      TableEvents(name, rules, count, truncate, schema, w, cfg) == [FactoryCreate(name, RowCount(count, rules, name, cfg))]
    ensures TableOf(schema, name).Some? && !truncate && PathFor(TableOf(schema, name).value, rules, w, cfg) == RowsPath ==>
      InsertsOf(TableEvents(name, rules, count, truncate, schema, w, cfg), name,
                GeneratedRows(TableOf(schema, name).value, schema, rules, w, Max(0, RowCount(count, rules, name, cfg))),
                false, ChunkLimit(cfg))
  {
    if TableOf(schema, name).Some? && !truncate {
      var t := TableOf(schema, name).value;
      var path := PathFor(t, rules, w, cfg);
      if path == PivotPath {
        PivotPathEvents(name, t, rules, count, schema, w, cfg);
      } else if path == RowsPath {
        RowsPathEvents(name, t, rules, count, schema, w, cfg);
      }
    }
  }

  /** Without truncation, a found table's writes are those of its path alone. */
  lemma UntruncatedBody(name: string, t: Table, rules: Rules.Ruleset, count: Option<int>,
                        schema: Database, w: World, cfg: Config)
    requires TableOf(schema, name) == Some(t)
    ensures TableEvents(name, rules, count, false, schema, w, cfg)
         == match PathFor(t, rules, w, cfg)
            case PivotPath => PivotEvents(t, schema, rules, RowCount(count, rules, name, cfg), w, cfg)
            case FactoryPath => [FactoryCreate(name, RowCount(count, rules, name, cfg))]
            case RowsPath =>
              BatchEvents(name, Batches(GeneratedRows(t, schema, rules, w, Max(0, RowCount(count, rules, name, cfg))),
                                        ChunkLimit(cfg)), false)
  {
    var body := match PathFor(t, rules, w, cfg)
      case PivotPath => PivotEvents(t, schema, rules, RowCount(count, rules, name, cfg), w, cfg)
      case FactoryPath => [FactoryCreate(name, RowCount(count, rules, name, cfg))]
      case RowsPath =>
        BatchEvents(name, Batches(GeneratedRows(t, schema, rules, w, Max(0, RowCount(count, rules, name, cfg))),
                                  ChunkLimit(cfg)), false);
    assert [] + body == body;
  }

  lemma PivotPathEvents(name: string, t: Table, rules: Rules.Ruleset, count: Option<int>,
                        schema: Database, w: World, cfg: Config)
    requires TableOf(schema, name) == Some(t) && PathFor(t, rules, w, cfg) == PivotPath
    ensures InsertsOf(TableEvents(name, rules, count, false, schema, w, cfg), name,
                      PivotRows(t, PrimaryKeyColumns(t.columns), PivotPicks(t, rules, RowCount(count, rules, name, cfg), w),
                                schema, rules, w),
                      true, ChunkLimit(cfg))
  {
    var rows := PivotRows(t, PrimaryKeyColumns(t.columns), PivotPicks(t, rules, RowCount(count, rules, name, cfg), w),
                          schema, rules, w);
    BatchedInserts(name, rows, true, ChunkLimit(cfg));
    UntruncatedBody(name, t, rules, count, schema, w, cfg);
  }

  lemma RowsPathEvents(name: string, t: Table, rules: Rules.Ruleset, count: Option<int>,
                       schema: Database, w: World, cfg: Config)
    requires TableOf(schema, name) == Some(t) && PathFor(t, rules, w, cfg) == RowsPath
    ensures InsertsOf(TableEvents(name, rules, count, false, schema, w, cfg), name,
                      GeneratedRows(t, schema, rules, w, Max(0, RowCount(count, rules, name, cfg))),
                      false, ChunkLimit(cfg))
  {
    var rows := GeneratedRows(t, schema, rules, w, Max(0, RowCount(count, rules, name, cfg)));
    BatchedInserts(name, rows, false, ChunkLimit(cfg));
    UntruncatedBody(name, t, rules, count, schema, w, cfg);
  }

  /** `seedTable` writes nothing for a table the schema lacks, truncates first when
      asked, and never truncates otherwise. */
  lemma TableEventsTruncation(name: string, rules: Rules.Ruleset, count: Option<int>, truncate: bool,
                              schema: Database, w: World, cfg: Config)
    ensures TableOf(schema, name).None? ==> TableEvents(name, rules, count, truncate, schema, w, cfg) == []
    ensures !truncate ==> TruncatedTables(TableEvents(name, rules, count, truncate, schema, w, cfg)) == []
    ensures TableOf(schema, name).Some? && truncate ==>
      TruncateEvents(w.driver, [name], w.wrap) <= TableEvents(name, rules, count, truncate, schema, w, cfg)
  {
    var events := TableEvents(name, rules, count, truncate, schema, w, cfg);
    if TableOf(schema, name).Some? {
      var prefix := if truncate then TruncateEvents(w.driver, [name], w.wrap) else [];
      var body := events[|prefix|..];
      assert events == prefix + body;
      assert forall i :: 0 <= i < |body| ==> !body[i].Truncate?;
      NoTruncates(body);
      TruncatedConcat(prefix, body);
    }
  }

  /** `seedPivotTable`: no rows at all when some key column has no candidates;
      otherwise at most the requested number of rows (and at most the number of key
      combinations when that is below the cap), with pairwise distinct composite keys,
      inserted with `insertOrIgnore` in chunks. */
  method SeedPivot(t: Table, schema: Database, rules: Rules.Ruleset, rows: int, w: World, cfg: Config)
    returns (events: seq<Event>, picks: seq<seq<Value>>)
    ensures var pkCols := PrimaryKeyColumns(t.columns);
      (exists j :: 0 <= j < |pkCols| && PivotChoices(t.name, pkCols[j], rules, w.pluck) == []) ==> events == []
    ensures Distinct(PivotKeys(picks))
    ensures |InsertedRows(events)| == |picks| <= Max(0, rows)
    ensures forall i :: 0 <= i < |events| ==>
      events[i].InsertOrIgnore? && events[i].table == t.name
      && 1 <= |events[i].rows| <= Max(1, cfg.chunkSize.GetOr(DefaultChunkSize))
    ensures forall i :: 0 <= i < |picks| ==> |picks[i]| == |PrimaryKeyColumns(t.columns)|
    ensures Product(Pools(t, rules, w.pluck), 0) <= ComboCap ==> |picks| <= Product(Pools(t, rules, w.pluck), 0)
    ensures forall i, j :: 0 <= i < |picks| && 0 <= j < |PrimaryKeyColumns(t.columns)| ==>
      picks[i][j] in Pools(t, rules, w.pluck)[j]
    ensures picks == PivotPicks(t, rules, rows, w)
    ensures InsertedRows(events) == PivotRows(t, PrimaryKeyColumns(t.columns), picks, schema, rules, w)
    ensures events == PivotEvents(t, schema, rules, rows, w, cfg)
  {
    var pkCols := PrimaryKeyColumns(t.columns);
    var pools := Pools(t, rules, w.pluck);
    if [] in pools {
      var j :| 0 <= j < |pools| && pools[j] == [];
      assert PivotChoices(t.name, pkCols[j], rules, w.pluck) == [];
      InsertedBatches(t.name, Batches([], ChunkLimit(cfg)), true);
      return [], [];
    }
    var attempts;
    picks, attempts := SamplePivot(pools, rows, w.draw);
    var built := PivotRows(t, pkCols, picks, schema, rules, w);
    var batches := Chunk(built, cfg.chunkSize.GetOr(DefaultChunkSize));
    events := BatchEvents(t.name, batches, true);
    InsertedBatches(t.name, batches, true);
  }

  /** The plain path of `seedTable`: `rows` rows from `makeRow`, inserted in chunks. */
  method SeedRows(t: Table, schema: Database, rules: Rules.Ruleset, rows: int, w: World, cfg: Config)
    returns (events: seq<Event>)
    ensures InsertedRows(events) == GeneratedRows(t, schema, rules, w, Max(0, rows))
    ensures forall i :: 0 <= i < |events| ==>
      events[i].Insert? && events[i].table == t.name
      && 1 <= |events[i].rows| <= Max(1, cfg.chunkSize.GetOr(DefaultChunkSize))
    ensures events == BatchEvents(t.name, Batches(GeneratedRows(t, schema, rules, w, Max(0, rows)), ChunkLimit(cfg)), false)
  {
    var built := GeneratedRows(t, schema, rules, w, Max(0, rows));
    var batches := Chunk(built, cfg.chunkSize.GetOr(DefaultChunkSize));
    InsertedBatches(t.name, batches, false);
    events := BatchEvents(t.name, batches, false);
  }

  /** The path `seedTable` takes for a table it found. */
  datatype Path = PivotPath | FactoryPath | RowsPath

  function PathFor(t: Table, rules: Rules.Ruleset, w: World, cfg: Config): Path {
    if IsPivot(t) then PivotPath
    else if PreferFactories(cfg) && !Rules.HasTableRules(rules, t.name) && w.hasFactory(t.name) then FactoryPath
    else RowsPath
  }

  /** `seedTable`, with its sampling and chunking loops: it writes exactly
      `TableEvents`, whose paths `TableEventsPaths` describes. */
  method SeedTable(name: string, rules: Rules.Ruleset, count: Option<int>, truncate: bool,
                   schema: Database, w: World, cfg: Config)
    returns (events: seq<Event>)
    ensures events == TableEvents(name, rules, count, truncate, schema, w, cfg)
  {
    var found := TableOf(schema, name);
    if found.None? {
      return [];
    }
    var t := found.value;
    assert t.name == name;
    var rows := RowCount(count, rules, name, cfg);
    var prefix := if truncate then TruncateEvents(w.driver, [name], w.wrap) else [];
    var pivot := IsCompositeFkPrimaryKeyPivot(t);
    var body: seq<Event>;
    if pivot {
      var pivotEvents, _ := SeedPivot(t, schema, rules, rows, w, cfg);
      body := pivotEvents;
    } else if PreferFactories(cfg) && !Rules.HasTableRules(rules, name) && w.hasFactory(name) {
      body := [FactoryCreate(name, rows)];
    } else {
      body := SeedRows(t, schema, rules, rows, w, cfg);
    }
    events := prefix + body;
  }

  /** The ignored tables: the configured ignore list and the rules' exclusions,
      deduplicated and sorted. Non-string configured entries are dropped. */
  function Ignored(cfg: Config, rules: Rules.Ruleset): (r: seq<string>)
    ensures StrictlySorted(r)
    ensures forall n :: n in r <==> Str(n) in CastToList(cfg.ignoreTables) || n in Rules.ExcludedTables(rules)
  {
    SortedSet(StringsOf(CastToList(cfg.ignoreTables)) + Rules.ExcludedTables(rules))
  }

  /** The tables `seed` keeps: those in the only-list (when one is given), then those
      not ignored, in schema order. */
  function SelectTables(tables: seq<Table>, only: seq<string>, ignored: seq<string>): (r: seq<Table>)
    ensures forall t :: t in r <==> t in tables && (|only| == 0 || t.name in only) && t.name !in ignored
  {
    if |tables| == 0 then []
    else
      var keep := (|only| == 0 || tables[0].name in only) && tables[0].name !in ignored;
      assert tables == [tables[0]] + tables[1..];
      (if keep then [tables[0]] else []) + SelectTables(tables[1..], only, ignored)
  }

  /** `array_intersect($ignored, names)`: the ignored names present in the schema, in
      the ignored list's order. */
  function Present(ignored: seq<string>, names: seq<string>): (r: seq<string>)
    ensures forall n :: n in r <==> n in ignored && n in names
  {
    if |ignored| == 0 then []
    else
      assert ignored == [ignored[0]] + ignored[1..];
      (if ignored[0] in names then [ignored[0]] else []) + Present(ignored[1..], names)
  }

  /** Keeping some entries of a sorted list keeps it sorted. */
  lemma {:induction false} PresentSorted(ignored: seq<string>, names: seq<string>)
    requires StrictlySorted(ignored)
    ensures StrictlySorted(Present(ignored, names))
  {
    if |ignored| > 0 {
      var tail := ignored[1..];
      assert StrictlySorted(tail) by {
        forall i, j | 0 <= i < j < |tail|
          ensures Lt(tail[i], tail[j])
        {
          assert tail[i] == ignored[i + 1] && tail[j] == ignored[j + 1];
        }
      }
      PresentSorted(tail, names);
      var rest := Present(tail, names);
      var r := Present(ignored, names);
      if ignored[0] in names {
        assert r == [ignored[0]] + rest;
        forall i, j | 0 <= i < j < |r|
          ensures Lt(r[i], r[j])
        {
          if i == 0 {
            assert r[j] in rest;
            var k :| 0 <= k < |tail| && tail[k] == r[j];
            assert ignored[k + 1] == r[j];
          } else {
            assert r[i] == rest[i - 1] && r[j] == rest[j - 1];
          }
        }
      } else {
        assert r == rest;
      }
    }
  }

  /** The names of the selected tables are the schema's names that pass both filters. */
  lemma SelectedNames(tables: seq<Table>, only: seq<string>, ignored: seq<string>)
    ensures forall n :: n in TableNames(SelectTables(tables, only, ignored)) <==>
      n in TableNames(tables) && (|only| == 0 || n in only) && n !in ignored
  {
    var sel := SelectTables(tables, only, ignored);
    forall n
      ensures n in TableNames(sel) <==> n in TableNames(tables) && (|only| == 0 || n in only) && n !in ignored
    {
      if n in TableNames(sel) {
        var i :| 0 <= i < |sel| && TableNames(sel)[i] == n;
        assert sel[i] in sel;
        var k :| 0 <= k < |tables| && tables[k] == sel[i];
        assert TableNames(tables)[k] == n;
      }
      if n in TableNames(tables) && (|only| == 0 || n in only) && n !in ignored {
        var k :| 0 <= k < |tables| && TableNames(tables)[k] == n;
        assert tables[k] in tables;
        assert tables[k] in sel;
        var i :| 0 <= i < |sel| && sel[i] == tables[k];
        assert TableNames(sel)[i] == n;
      }
    }
  }

  function Reverse<T>(xs: seq<T>): (r: seq<T>)
    ensures |r| == |xs| && forall i :: 0 <= i < |xs| ==> r[i] == xs[|xs| - 1 - i]
  {
    if |xs| == 0 then [] else Reverse(xs[1..]) + [xs[0]]
  }

  /** `seed`: the selected tables in the table orderer's order (its Kahn prefix puts
      every dependency first; tables blocked by a cycle or a missing table follow),
      each seeded once with the explicit count; truncation, when asked for, comes
      first and runs in the reverse of that order. `seeded` counts the tables seeded; `skipped` lists the ignored
      tables the schema has, sorted. */
  method Seed(schema: Database, rules: Rules.Ruleset, count: Option<int>, truncate: bool,
              only: seq<string>, w: World, cfg: Config)
    returns (seeded: nat, skipped: seq<string>, order: seq<string>, events: seq<Event>)
    ensures Distinct(order) && seeded == |order|
    ensures forall n :: n in order <==>
      n in TableNames(schema.tables) && (|only| == 0 || n in only) && n !in Ignored(cfg, rules)
    ensures StrictlySorted(skipped)
    ensures forall n :: n in skipped <==> n in Ignored(cfg, rules) && n in TableNames(schema.tables)
    ensures truncate ==>
      |events| >= |TruncateEvents(w.driver, Reverse(order), w.wrap)|
      && events[..|TruncateEvents(w.driver, Reverse(order), w.wrap)|] == TruncateEvents(w.driver, Reverse(order), w.wrap)
    ensures !truncate ==> TruncatedTables(events) == []
    ensures order == TableOrderer.OrderNames(SelectTables(schema.tables, only, Ignored(cfg, rules)), w.plural)
    ensures events == (if truncate then TruncateEvents(w.driver, Reverse(order), w.wrap) else [])
                      + Flatten(PerTable(order, rules, count, schema, w, cfg))
  {
    var ignored := Ignored(cfg, rules);
    var tables := SelectTables(schema.tables, only, ignored);
    var sorted, _ := TableOrderer.Order(tables, w.plural);
    order := TableNames(sorted);
    SelectedNames(schema.tables, only, ignored);
    assert TableNames(sorted) == order;
    var prefix := if truncate then TruncateEvents(w.driver, Reverse(order), w.wrap) else [];
    skipped := Present(ignored, TableNames(schema.tables));
    PresentSorted(ignored, TableNames(schema.tables));
    var body;
    seeded, body := SeedEach(order, rules, count, schema, w, cfg);
    TruncatedConcat(prefix, body);
    events := prefix + body;
    assert events[..|prefix|] == prefix;
  }

  /** One more table seeded by the `seed` loop. */
  lemma EachStep(names: seq<string>, i: int, rules: Rules.Ruleset, count: Option<int>, schema: Database,
                 w: World, cfg: Config, events: seq<Event>)
    requires 0 <= i < |names|
    requires TruncatedTables(events) == []
    requires events == Flatten(PerTable(names[..i], rules, count, schema, w, cfg))
    ensures TruncatedTables(events + TableEvents(names[i], rules, count, false, schema, w, cfg)) == []
    ensures events + TableEvents(names[i], rules, count, false, schema, w, cfg)
         == Flatten(PerTable(names[..i + 1], rules, count, schema, w, cfg))
  {
    var e := TableEvents(names[i], rules, count, false, schema, w, cfg);
    TableEventsTruncation(names[i], rules, count, false, schema, w, cfg);
    TruncatedConcat(events, e);
    MapSeqPrefix(names, n => TableEvents(n, rules, count, false, schema, w, cfg), i);
    FlattenAppend(PerTable(names[..i], rules, count, schema, w, cfg), e);
  }

  /** The loop of `seed`: `seedTable` for each name in order, without truncating. */
  method SeedEach(names: seq<string>, rules: Rules.Ruleset, count: Option<int>, schema: Database,
                  w: World, cfg: Config)
    returns (seeded: nat, events: seq<Event>)
    ensures seeded == |names|
    ensures TruncatedTables(events) == []
    ensures events == Flatten(PerTable(names, rules, count, schema, w, cfg))
  {
    seeded := 0;
    events := [];
    for i := 0 to |names|
      invariant seeded == i
      invariant TruncatedTables(events) == []
      invariant events == Flatten(PerTable(names[..i], rules, count, schema, w, cfg))
    {
      var tableEvents := SeedTable(names[i], rules, count, false, schema, w, cfg);
      EachStep(names, i, rules, count, schema, w, cfg, events);
      events := events + tableEvents;
      seeded := seeded + 1;
    }
    assert names[..|names|] == names;
  }
}

=== FILE: sorting.dfy ===
/** PHP's `array_unique` followed by `sort` on lists of strings. The source sorts table
    names and exclusion lists this way; the model orders strings lexicographically by
    code point. */
module Sorting {

  /** Lexicographic strict order on strings. */
  predicate Lt(a: string, b: string) {
    if |a| == 0 then |b| > 0
    else if |b| == 0 then false
    else a[0] < b[0] || (a[0] == b[0] && Lt(a[1..], b[1..]))
  }

  predicate Le(a: string, b: string) {
    a == b || Lt(a, b)
  }

  lemma {:induction false} LtIrreflexive(a: string)
    ensures !Lt(a, a)
  {
    if |a| > 0 {
      LtIrreflexive(a[1..]);
    }
  }

  lemma {:induction false} LtTransitive(a: string, b: string, c: string)
    requires Lt(a, b) && Lt(b, c)
    ensures Lt(a, c)
  {
    if |a| > 0 && |b| > 0 && |c| > 0 && a[0] == b[0] && b[0] == c[0] {
      LtTransitive(a[1..], b[1..], c[1..]);
    }
  }

  lemma {:induction false} LtTotal(a: string, b: string)
    requires a != b
    ensures Lt(a, b) || Lt(b, a)
  {
    if |a| > 0 && |b| > 0 && a[0] == b[0] {
      assert a == [a[0]] + a[1..] && b == [b[0]] + b[1..];
      LtTotal(a[1..], b[1..]);
    }
  }

  lemma LtAsymmetric(a: string, b: string)
    requires Lt(a, b)
    ensures !Lt(b, a)
  {
    if Lt(b, a) {
      LtTransitive(a, b, a);
      LtIrreflexive(a);
    }
  }

  /** Non-decreasing. */
  predicate Sorted(xs: seq<string>) {
    forall i, j :: 0 <= i < j < |xs| ==> Le(xs[i], xs[j])
  }

  /** Strictly increasing: sorted and duplicate-free. */
  predicate StrictlySorted(xs: seq<string>) {
    forall i, j :: 0 <= i < j < |xs| ==> Lt(xs[i], xs[j])
  }

  predicate Distinct<T(==)>(xs: seq<T>) {
    forall i, j :: 0 <= i < j < |xs| ==> xs[i] != xs[j]
  }

  lemma StrictlySortedIsDistinct(xs: seq<string>)
    requires StrictlySorted(xs)
    ensures Distinct(xs) && Sorted(xs)
  {
    forall i, j | 0 <= i < j < |xs|
      ensures xs[i] != xs[j]
    {
      if xs[i] == xs[j] {
        LtIrreflexive(xs[i]);
      }
    }
  }

  /** Inserts `x` in front of the first element it does not exceed. */
  function Insert(x: string, xs: seq<string>): (r: seq<string>)
    requires Sorted(xs)
    ensures multiset(r) == multiset(xs) + multiset{x}
    ensures Sorted(r)
    ensures StrictlySorted(xs) && x !in xs ==> StrictlySorted(r)
  {
    if |xs| == 0 then [x]
    else if Le(x, xs[0]) then
      InsertFront(x, xs);
      [x] + xs
    else
      SortedTail(xs);
      var rest := Insert(x, xs[1..]);
      InsertLater(x, xs, rest);
      [xs[0]] + rest
  }

  lemma SortedTail(xs: seq<string>)
    requires Sorted(xs) && |xs| > 0
    ensures Sorted(xs[1..])
    ensures StrictlySorted(xs) ==> StrictlySorted(xs[1..])
  {
    var t := xs[1..];
    assert forall i :: 0 <= i < |t| ==> t[i] == xs[i + 1];
  }

  /** `x` goes first when it does not exceed the head. */
  lemma InsertFront(x: string, xs: seq<string>)
    requires Sorted(xs) && |xs| > 0 && Le(x, xs[0])
    ensures Sorted([x] + xs)
    ensures StrictlySorted(xs) && x !in xs ==> StrictlySorted([x] + xs)
  {
    var r := [x] + xs;
    assert forall j :: 0 < j < |xs| ==> Le(xs[0], xs[j]);
    forall i, j | 0 <= i < j < |r|
      ensures Le(r[i], r[j])
      ensures StrictlySorted(xs) && x !in xs ==> Lt(r[i], r[j])
    {
      if i == 0 && j > 1 && x != xs[0] && xs[0] != xs[j - 1] {
        LtTransitive(x, xs[0], xs[j - 1]);
      }
      if i == 0 && j > 1 && StrictlySorted(xs) && x !in xs {
        assert xs[j - 1] in xs;
        if x == xs[0] { } else { LtTransitive(x, xs[0], xs[j - 1]); }
      }
    }
  }

  /** The head stays first when `x` exceeds it and goes into the sorted rest. */
  lemma InsertLater(x: string, xs: seq<string>, rest: seq<string>)
    requires Sorted(xs) && |xs| > 0 && !Le(x, xs[0])
    requires multiset(rest) == multiset(xs[1..]) + multiset{x}
    requires Sorted(rest)
    requires StrictlySorted(xs[1..]) && x !in xs[1..] ==> StrictlySorted(rest)
    ensures multiset([xs[0]] + rest) == multiset(xs) + multiset{x}
    ensures Sorted([xs[0]] + rest)
    ensures StrictlySorted(xs) && x !in xs ==> StrictlySorted([xs[0]] + rest)
  {
    var r := [xs[0]] + rest;
    assert xs == [xs[0]] + xs[1..];
    SortedTail(xs);
    LtTotal(x, xs[0]);
    forall y | y in rest
      ensures Lt(xs[0], y) || (!StrictlySorted(xs) && y == xs[0])
    {
      assert y in multiset(rest);
      if y != x {
        assert y in multiset(xs[1..]);
        var k :| 0 <= k < |xs[1..]| && xs[1..][k] == y;
        assert xs[k + 1] == y;
      }
    }
    forall i, j | 0 <= i < j < |r|
      ensures Le(r[i], r[j])
      ensures StrictlySorted(xs) && x !in xs ==> Lt(r[i], r[j])
    {
      if i == 0 {
        assert r[j] in rest;
      }
    }
  }

  /** PHP `sort()` on a list of strings: a sorted permutation. */
  function Sort(xs: seq<string>): (r: seq<string>)
    ensures multiset(r) == multiset(xs)
    ensures |r| == |xs|
    ensures Sorted(r)
    ensures forall x :: x in r <==> x in xs
  {
    if |xs| == 0 then []
    else
      assert xs == [xs[0]] + xs[1..];
      var r := Insert(xs[0], Sort(xs[1..]));
      assert forall x :: x in r <==> x in multiset(r);
      assert forall x :: x in xs <==> x in multiset(xs);
      r
  }

  lemma {:induction false} SortOfDistinctIsStrict(xs: seq<string>)
    requires Distinct(xs)
    ensures StrictlySorted(Sort(xs))
  {
    if |xs| > 0 {
      assert Distinct(xs[1..]);
      SortOfDistinctIsStrict(xs[1..]);
      assert xs[0] !in xs[1..];
      assert xs[0] !in Sort(xs[1..]);
    }
  }

  /** PHP `array_unique`: keeps the first occurrence of every value, in order. */
  function Dedupe<T(==,!new)>(xs: seq<T>): (r: seq<T>)
    ensures Distinct(r)
    ensures forall x :: x in r <==> x in xs
    ensures |r| <= |xs|
    ensures Distinct(xs) ==> r == xs
  {
    if |xs| == 0 then []
    else
      var d := Dedupe(xs[..|xs| - 1]);
      var last := xs[|xs| - 1];
      assert xs == xs[..|xs| - 1] + [last];
      if last in d then d else d + [last]
  }

  /** `array_values(array_unique($xs))` followed by `sort()`: the strictly increasing
      list holding exactly the values of `xs`. */
  function SortedSet(xs: seq<string>): (r: seq<string>)
    ensures StrictlySorted(r)
    ensures forall x :: x in r <==> x in xs
  {
    SortOfDistinctIsStrict(Dedupe(xs));
    Sort(Dedupe(xs))
  }

  /** A strictly sorted list is determined by the values it holds. */
  lemma {:induction false} StrictlySortedUnique(a: seq<string>, b: seq<string>)
    requires StrictlySorted(a) && StrictlySorted(b)
    requires forall x :: x in a <==> x in b
    ensures a == b
  {
    if |b| > 0 {
      assert b[0] in a;
    }
    if |a| > 0 {
      assert a[0] in b;
      assert b[0] in a;
      var i :| 0 <= i < |a| && a[i] == b[0];
      var j :| 0 <= j < |b| && b[j] == a[0];
      if a[0] != b[0] {
        assert i > 0 && j > 0;
        assert Lt(a[0], b[0]) && Lt(b[0], a[0]);
        LtAsymmetric(a[0], b[0]);
      }
      StrictlySortedIsDistinct(a);
      StrictlySortedIsDistinct(b);
      forall x
        ensures x in a[1..] <==> x in b[1..]
      {
        if x in a[1..] {
          var k :| 1 <= k < |a| && a[k] == x;
          assert x in b && x != b[0];
          var m :| 0 <= m < |b| && b[m] == x;
          assert m != 0;
        }
        if x in b[1..] {
          var k :| 1 <= k < |b| && b[k] == x;
          assert x in a && x != a[0];
          var m :| 0 <= m < |a| && a[m] == x;
          assert m != 0;
        }
      }
      StrictlySortedUnique(a[1..], b[1..]);
      assert a == [a[0]] + a[1..] && b == [b[0]] + b[1..];
    }
  }

  /** Consequently `SortedSet` depends only on the set of values of its input: order and
      repetition in the input never change the result. */
  lemma SortedSetOrderIndependent(xs: seq<string>, ys: seq<string>)
    requires forall x :: x in xs <==> x in ys
    ensures SortedSet(xs) == SortedSet(ys)
  {
    StrictlySortedUnique(SortedSet(xs), SortedSet(ys));
  }

  /** Normalising an already strictly sorted list changes nothing. */
  lemma SortedSetOfStrictlySorted(xs: seq<string>)
    requires StrictlySorted(xs)
    ensures SortedSet(xs) == xs
  {
    StrictlySortedUnique(SortedSet(xs), xs);
  }
}

=== FILE: string_lists.dfy ===
/** The list clean-ups the package repeats in several places: keep the strings of a
    decoded list, optionally trim them, drop the empty ones, then
    `array_values(array_unique(...))` followed by `sort(...)`. */
module StringLists {
  import opened PhpValue
  import opened Strings
  import opened Sorting

  /** The non-empty strings among `vs`, in order, untrimmed. */
  function NonEmptyStrings(vs: seq<Value>): (r: seq<string>)
    ensures forall t :: t in r <==> t != "" && Str(t) in vs
  {
    if |vs| == 0 then []
    else
      assert vs == [vs[0]] + vs[1..];
      (if vs[0].Str? && vs[0].s != "" then [vs[0].s] else []) + NonEmptyStrings(vs[1..])
  }

  /** `array_map('trim', ss)`. */
  function TrimEach(ss: seq<string>): (r: seq<string>)
    ensures |r| == |ss| && forall i :: 0 <= i < |ss| ==> r[i] == Trim(ss[i])
    ensures forall s :: s in ss ==> Trim(s) in r
  {
    if |ss| == 0 then [] else [Trim(ss[0])] + TrimEach(ss[1..])
  }

  /** Each string trimmed, the ones that trim to nothing dropped. */
  function TrimAll(ss: seq<string>): (r: seq<string>)
    ensures forall t :: t in r <==> t != "" && t in TrimEach(ss)
    ensures forall t :: t in r ==> IsTrimmed(t)
  {
    if |ss| == 0 then []
    else
      var rest := TrimAll(ss[1..]);
      var t := Trim(ss[0]);
      var r := (if t != "" then [t] else []) + rest;
      assert TrimEach(ss) == [t] + TrimEach(ss[1..]);
      forall u
        ensures u in r <==> u != "" && u in TrimEach(ss)
      {
        assert u in TrimEach(ss) <==> u == t || u in TrimEach(ss[1..]);
      }
      r
  }

  /** A string is kept by `TrimAll` exactly when it is already trimmed and non-empty. */
  lemma {:induction false} TrimAllOfClean(ss: seq<string>)
    requires forall i :: 0 <= i < |ss| ==> ss[i] != "" && IsTrimmed(ss[i])
    ensures TrimAll(ss) == ss
  {
    if |ss| > 0 {
      TrimOfTrimmed(ss[0]);
      TrimAllOfClean(ss[1..]);
      assert ss == [ss[0]] + ss[1..];
    }
  }

  /** The strings of a decoded list, trimmed, with the empty ones dropped. */
  function TrimmedStrings(vs: seq<Value>): (r: seq<string>)
    ensures forall t :: t in r ==> IsTrimmed(t) && t != ""
  {
    TrimAll(StringsOf(vs))
  }

  /** `t` survives exactly when it is the non-empty trim of one of the strings. */
  lemma TrimmedStringsMember(vs: seq<Value>, t: string)
    ensures t in TrimmedStrings(vs) <==> t != "" && exists s :: Str(s) in vs && Trim(s) == t
  {
    var ss := StringsOf(vs);
    if t in TrimmedStrings(vs) {
      var i :| 0 <= i < |ss| && TrimEach(ss)[i] == t;
      assert ss[i] in ss;
    }
    if t != "" && exists s :: Str(s) in vs && Trim(s) == t {
      var s :| Str(s) in vs && Trim(s) == t;
      assert s in ss;
    }
  }

  /** The pieces of every string of `ss` exploded on `sep`, in order. */
  function Pieces(ss: seq<string>, sep: char): (r: seq<string>)
    ensures forall p :: p in r <==> exists i :: 0 <= i < |ss| && p in Split(ss[i], sep)
  {
    if |ss| == 0 then []
    else
      var rest := Pieces(ss[1..], sep);
      var r := Split(ss[0], sep) + rest;
      forall p
        ensures p in r <==> exists i :: 0 <= i < |ss| && p in Split(ss[i], sep)
      {
        if p in rest {
          var i :| 0 <= i < |ss[1..]| && p in Split(ss[1..][i], sep);
          assert ss[1..][i] == ss[i + 1];
        }
        if exists i :: 0 <= i < |ss| && p in Split(ss[i], sep) {
          var i :| 0 <= i < |ss| && p in Split(ss[i], sep);
          if i > 0 {
            assert ss[1..][i - 1] == ss[i];
          }
        }
      }
      r
  }

  /** A normalised list: sorted with no repeats, every entry trimmed and non-empty. */
  predicate Clean(xs: seq<string>) {
    StrictlySorted(xs) && forall i :: 0 <= i < |xs| ==> xs[i] != "" && IsTrimmed(xs[i])
  }

  /** Sorting a list of trimmed non-empty strings into a set gives a clean list. */
  lemma SortedSetClean(xs: seq<string>)
    requires forall t :: t in xs ==> t != "" && IsTrimmed(t)
    ensures Clean(SortedSet(xs))
  {
    var r := SortedSet(xs);
    forall i | 0 <= i < |r|
      ensures r[i] != "" && IsTrimmed(r[i])
    {
      assert r[i] in r;
    }
  }

  /** A clean list survives trimming and the sorted-set step unchanged. */
  lemma CleanFixed(xs: seq<string>)
    requires Clean(xs)
    ensures SortedSet(TrimAll(xs)) == xs
  {
    TrimAllOfClean(xs);
    SortedSetOfStrictlySorted(xs);
  }
}

=== FILE: strings.dfy ===
/** The PHP string helpers the source relies on (`trim`, `rtrim`/`ltrim` of one
    character, `strtolower`, `str_contains`, `Str::endsWith`, `explode`, `implode`,
    integer-to-string casts), over `seq<char>`. */
module Strings {

  /** The characters PHP's `trim` strips by default: space, tab, newline, carriage
      return, NUL and vertical tab. */
  predicate IsTrimmable(c: char) {
    c == ' ' || c == '\t' || c == '\n' || c == '\r' || c == '\0' || c == '\U{0B}'
  }

  /** True when the string neither starts nor ends with a trimmable character. */
  predicate IsTrimmed(s: string) {
    |s| == 0 || (!IsTrimmable(s[0]) && !IsTrimmable(s[|s| - 1]))
  }

  function TrimLeft(s: string): (r: string)
    ensures |r| <= |s| && r == s[|s| - |r|..]
    ensures |r| > 0 ==> !IsTrimmable(r[0])
    ensures forall i :: 0 <= i < |s| - |r| ==> IsTrimmable(s[i])
  {
    if |s| > 0 && IsTrimmable(s[0]) then TrimLeft(s[1..]) else s
  }

  function TrimRight(s: string): (r: string)
    ensures |r| <= |s| && r == s[..|r|]
    ensures |r| > 0 ==> !IsTrimmable(r[|r| - 1])
    ensures forall i :: |r| <= i < |s| ==> IsTrimmable(s[i])
  {
    if |s| > 0 && IsTrimmable(s[|s| - 1]) then TrimRight(s[..|s| - 1]) else s
  }

  /** `r` is `s` with exactly the `k` characters before it and the ones after it
      removed, all of them trimmable. */
  predicate StrippedAt(s: string, r: string, k: int) {
    0 <= k <= |s| - |r| && r == s[k..k + |r|] &&
    (forall i :: 0 <= i < k ==> IsTrimmable(s[i])) &&
    (forall i :: k + |r| <= i < |s| ==> IsTrimmable(s[i]))
  }

  /** PHP `trim($s)`: the longest infix with no trimmable character at either end. */
  function Trim(s: string): (r: string)
    ensures IsTrimmed(r)
    ensures exists i :: OccursAt(s, r, i)
    ensures |r| <= |s|
    ensures exists k :: StrippedAt(s, r, k)
  {
    TrimBothStripped(s);
    TrimRight(TrimLeft(s))
  }

  /** Trimming the left, then the right, strips `s` at the length of the left run. */
  lemma TrimBothStripped(s: string)
    ensures StrippedAt(s, TrimRight(TrimLeft(s)), |s| - |TrimLeft(s)|)
    ensures OccursAt(s, TrimRight(TrimLeft(s)), |s| - |TrimLeft(s)|)
  {
    StrippedSuffixPrefix(s, TrimLeft(s), TrimRight(TrimLeft(s)));
  }

  /** Stripping a trimmable run off the front, and then one off the back of what is
      left, strips `s` at the length of the front run. */
  lemma StrippedSuffixPrefix(s: string, l: string, r: string)
    requires |l| <= |s| && l == s[|s| - |l|..]
    requires |r| <= |l| && r == l[..|r|]
    requires forall i :: 0 <= i < |s| - |l| ==> IsTrimmable(s[i])
    requires forall i :: |r| <= i < |l| ==> IsTrimmable(l[i])
    ensures StrippedAt(s, r, |s| - |l|)
    ensures OccursAt(s, r, |s| - |l|)
  {
    var k := |s| - |l|;
    assert s[k..k + |r|] == l[..|r|];
    forall i | k + |r| <= i < |s|
      ensures IsTrimmable(s[i])
    {
      assert s[i] == l[i - k];
    }
  }

  lemma {:induction false} TrimLeftOfUntrimmedStart(s: string)
    requires |s| == 0 || !IsTrimmable(s[0])
    ensures TrimLeft(s) == s
  {
  }

  lemma {:induction false} TrimRightOfUntrimmedEnd(s: string)
    requires |s| == 0 || !IsTrimmable(s[|s| - 1])
    ensures TrimRight(s) == s
  {
  }

  /** A string that is already trimmed is left alone by `trim`; in particular `trim`
      is idempotent. */
  lemma TrimOfTrimmed(s: string)
    requires IsTrimmed(s)
    ensures Trim(s) == s
  {
    TrimLeftOfUntrimmedStart(s);
    TrimRightOfUntrimmedEnd(s);
  }

  lemma TrimIdempotent(s: string)
    ensures Trim(Trim(s)) == Trim(s)
  {
    TrimOfTrimmed(Trim(s));
  }

  /** PHP `strtolower`: ASCII upper-case letters are lowered, every other character
      is kept. */
  function LowerChar(c: char): char {
    if 'A' <= c <= 'Z' then (c as int + 32) as char else c
  }

  function Lower(s: string): (r: string)
    ensures |r| == |s|
    ensures forall i :: 0 <= i < |s| ==> r[i] == LowerChar(s[i])
  {
    if |s| == 0 then "" else [LowerChar(s[0])] + Lower(s[1..])
  }

  /** `needle` occurs in `s` starting at index `i`. */
  predicate OccursAt(s: string, needle: string, i: int) {
    0 <= i && i + |needle| <= |s| && s[i..i + |needle|] == needle
  }

  predicate StartsWith(s: string, prefix: string) {
    |prefix| <= |s| && s[..|prefix|] == prefix
  }

  /** `Str::endsWith($s, $suffix)`. */
  predicate EndsWith(s: string, suffix: string) {
    |suffix| <= |s| && s[|s| - |suffix|..] == suffix
  }

  /** `str_contains($s, $needle)`; the empty needle is contained in every string. */
  predicate Contains(s: string, needle: string) {
    exists i :: 0 <= i <= |s| && OccursAt(s, needle, i)
  }

  lemma EndsWithContains(s: string, suffix: string)
    requires EndsWith(s, suffix)
    ensures Contains(s, suffix)
  {
    assert OccursAt(s, suffix, |s| - |suffix|);
  }

  /** `implode($sep, $parts)`. */
  function Join(parts: seq<string>, sep: string): (r: string)
    ensures |parts| == 1 ==> r == parts[0]
  {
    if |parts| == 0 then ""
    else if |parts| == 1 then parts[0]
    else parts[0] + sep + Join(parts[1..], sep)
  }

  /** `explode($sep, $s)` for a one-character separator: the pieces between
      separators, always at least one (the empty string gives `[""]`). */
  function Split(s: string, sep: char): (r: seq<string>)
    ensures |r| >= 1
  {
    if |s| == 0 then [""]
    else
      var rest := Split(s[1..], sep);
      if s[0] == sep then [""] + rest
      else [[s[0]] + rest[0]] + rest[1..]
  }

  /** No piece produced by `Split` contains the separator. */
  lemma {:induction false} SplitPiecesHaveNoSeparator(s: string, sep: char)
    ensures forall p :: p in Split(s, sep) ==> sep !in p
  {
    if |s| > 0 {
      SplitPiecesHaveNoSeparator(s[1..], sep);
      var rest := Split(s[1..], sep);
      if s[0] != sep {
        assert rest[0] in rest;
        forall p | p in Split(s, sep)
          ensures sep !in p
        {
          if p != [s[0]] + rest[0] {
            assert p in rest[1..];
          }
        }
      }
    }
  }

  /** Joining the pieces back with the separator restores the exploded string:
      `implode(',', explode(',', $s)) === $s`. */
  lemma {:induction false} JoinSplit(s: string, sep: char)
    ensures Join(Split(s, sep), [sep]) == s
  {
    if |s| > 0 {
      JoinSplit(s[1..], sep);
      var rest := Split(s[1..], sep);
      if s[0] == sep {
        assert Split(s, sep) == [""] + rest;
        assert Join([""] + rest, [sep]) == "" + [sep] + Join(rest, [sep]);
        assert s == [s[0]] + s[1..];
      } else {
        var r := Split(s, sep);
        assert r == [[s[0]] + rest[0]] + rest[1..];
        if |rest| == 1 {
          assert Join(r, [sep]) == [s[0]] + rest[0];
          assert s == [s[0]] + s[1..];
        } else {
          assert r[1..] == rest[1..];
          assert Join(r, [sep]) == [s[0]] + rest[0] + [sep] + Join(rest[1..], [sep]);
          assert Join(rest, [sep]) == rest[0] + [sep] + Join(rest[1..], [sep]);
          assert s == [s[0]] + s[1..];
        }
      }
    }
  }

  /** A string without the separator explodes to itself alone. */
  lemma {:induction false} SplitWhole(s: string, sep: char)
    requires sep !in s
    ensures Split(s, sep) == [s]
  {
    if |s| > 0 {
      SplitWhole(s[1..], sep);
      assert s == [s[0]] + s[1..];
    }
  }

  /** One separator between two separator-free strings explodes to exactly those two. */
  lemma {:induction false} SplitAround(a: string, b: string, sep: char)
    requires sep !in a && sep !in b
    ensures Split(a + [sep] + b, sep) == [a, b]
  {
    var s := a + [sep] + b;
    if |a| == 0 {
      assert s[1..] == b;
      SplitWhole(b, sep);
    } else {
      assert s[1..] == a[1..] + [sep] + b;
      SplitAround(a[1..], b, sep);
      assert a == [a[0]] + a[1..];
    }
  }

  /** A separator after a separator-free head splits off exactly that head. */
  lemma {:induction false} SplitPrefix(a: string, b: string, sep: char)
    requires sep !in a
    ensures Split(a + [sep] + b, sep) == [a] + Split(b, sep)
  {
    var s := a + [sep] + b;
    if |a| == 0 {
      assert s[1..] == b;
    } else {
      assert s[1..] == a[1..] + [sep] + b;
      SplitPrefix(a[1..], b, sep);
      assert a == [a[0]] + a[1..];
    }
  }

  /** The pieces of `implode("<sep> ", $parts)` as `explode` on `sep` sees them: every
      piece after the first keeps the space that followed its separator. */
  function Spaced(parts: seq<string>): (r: seq<string>)
    ensures |r| == |parts|
  {
    seq(|parts|, i requires 0 <= i < |parts| => if i == 0 then parts[i] else " " + parts[i])
  }

  /** Exploding a list joined with a separator and a space, on that separator, gives
      back the parts, each after the first with its leading space, provided no part
      contains the separator. */
  lemma {:induction false} SplitJoinSpaced(parts: seq<string>, sep: char)
    requires |parts| >= 1 && sep != ' '
    requires forall i :: 0 <= i < |parts| ==> sep !in parts[i]
    ensures Split(Join(parts, [sep, ' ']), sep) == Spaced(parts)
  {
    if |parts| == 1 {
      SplitWhole(parts[0], sep);
    } else {
      var tail := Join(parts[1..], [sep, ' ']);
      var spacedTail := Spaced(parts[1..]);
      SplitJoinSpaced(parts[1..], sep);
      assert Join(parts, [sep, ' ']) == parts[0] + [sep] + ([' '] + tail);
      SplitPrefix(parts[0], [' '] + tail, sep);
      assert ([' '] + tail)[1..] == tail;
      var r := Split(Join(parts, [sep, ' ']), sep);
      assert r == [parts[0]] + ([[' '] + spacedTail[0]] + spacedTail[1..]);
      forall i | 0 <= i < |parts|
        ensures r[i] == Spaced(parts)[i]
      {
        if i >= 2 {
          assert r[i] == spacedTail[i - 1];
        }
      }
    }
  }

  /** `rtrim($s, $c)` for a single character: `s` without its trailing run of `c`. */
  function DropTrailing(s: string, c: char): (r: string)
    ensures |r| <= |s| && r == s[..|r|]
    ensures |r| > 0 ==> r[|r| - 1] != c
    ensures forall i :: |r| <= i < |s| ==> s[i] == c
  {
    if |s| > 0 && s[|s| - 1] == c then DropTrailing(s[..|s| - 1], c) else s
  }

  /** `ltrim($s, $c)` for a single character: `s` without its leading run of `c`. */
  function DropLeading(s: string, c: char): (r: string)
    ensures |r| <= |s| && r == s[|s| - |r|..]
    ensures |r| > 0 ==> r[0] != c
    ensures forall i :: 0 <= i < |s| - |r| ==> s[i] == c
  {
    if |s| > 0 && s[0] == c then DropLeading(s[1..], c) else s
  }

  /** The part of `s` after the last `c`; all of `s` when it has no `c`. */
  function AfterLast(s: string, c: char): (r: string)
    ensures |r| <= |s| && r == s[|s| - |r|..]
    ensures c !in r
    ensures |r| < |s| ==> s[|s| - |r| - 1] == c
  {
    if |s| == 0 || s[|s| - 1] == c then ""
    else
      var r := AfterLast(s[..|s| - 1], c);
      AfterLastStep(s, c, r);
      r + [s[|s| - 1]]
  }

  /** Extending the part after the last `c` of all but the final character by that
      character, when it is not `c`, gives the part after the last `c` of `s`. */
  lemma AfterLastStep(s: string, c: char, r: string)
    requires |s| > 0 && s[|s| - 1] != c
    requires |r| <= |s| - 1 && r == s[..|s| - 1][|s| - 1 - |r|..]
    requires c !in r
    requires |r| < |s| - 1 ==> s[..|s| - 1][|s| - 1 - |r| - 1] == c
    ensures r + [s[|s| - 1]] == s[|s| - |r| - 1..]
    ensures c !in r + [s[|s| - 1]]
    ensures |r| + 1 < |s| ==> s[|s| - |r| - 2] == c
  {
    assert s == s[..|s| - 1] + [s[|s| - 1]];
  }

  function DigitChar(d: nat): char
    requires d < 10
  {
    "0123456789"[d]
  }

  /** The decimal rendering of a natural number, as PHP's `(string)` cast gives it. */
  function NatToString(n: nat): (r: string)
    ensures |r| >= 1
    ensures forall i :: 0 <= i < |r| ==> '0' <= r[i] <= '9'
    decreases n
  {
    if n < 10 then [DigitChar(n)] else NatToString(n / 10) + [DigitChar(n % 10)]
  }

  /** `(string) $i` for an integer. */
  function IntToString(i: int): (r: string)
    ensures |r| >= 1
  {
    if i < 0 then "-" + NatToString(-i) else NatToString(i)
  }
}

=== FILE: table_orderer.dfy ===
/** Dependency ordering of tables for insertion (`TableOrderer::order`): Kahn's
    topological sort over foreign-key edges, with a `<base>_id` naming guess, FIFO
    tie-breaking in input order, and a cycle fallback that appends the tables left over
    in input order. */
module TableOrderer {
  import opened Wrappers
  import opened Schema
  import opened Strings
  import opened Sorting

  /** The table a `<base>_id` column is guessed to reference: `plural(base)`. */
  function GuessTarget(columnName: string, plural: string -> string): Option<string> {
    if EndsWith(columnName, "_id") then Some(plural(columnName[..|columnName| - 3])) else None
  }

  /** Column `c` makes its table depend on `d`: an explicit foreign key always does; a
      column without one does when its `_id` guess names a table in the input. */
  predicate Edge(c: Column, d: string, present: set<string>, plural: string -> string) {
    if c.foreignKey.Some? then d == c.foreignKey.value.foreignTable
    else GuessTarget(c.name, plural) == Some(d) && d != "" && d in present
  }

  function ColumnDeps(c: Column, present: set<string>, plural: string -> string): (r: set<string>)
    ensures forall d :: d in r <==> Edge(c, d, present, plural)
  {
    if c.foreignKey.Some? then {c.foreignKey.value.foreignTable}
    else
      match GuessTarget(c.name, plural)
      case Some(g) => if g != "" && g in present then {g} else {}
      case None => {}
  }

  function ColumnsDeps(cs: seq<Column>, present: set<string>, plural: string -> string): (r: set<string>)
    ensures forall d :: d in r <==> exists i :: 0 <= i < |cs| && Edge(cs[i], d, present, plural)
  {
    if |cs| == 0 then {}
    else
      var rest := ColumnsDeps(cs[1..], present, plural);
      assert forall i :: 1 <= i < |cs| ==> cs[i] == cs[1..][i - 1];
      ColumnDeps(cs[0], present, plural) + rest
  }

  /** The tables `t` must be inserted after. A column pointing at its own table never
      creates a dependency. */
  function TableDeps(t: Table, present: set<string>, plural: string -> string): (r: set<string>)
    ensures t.name !in r
    ensures forall d :: d in r <==>
      d != t.name && exists i :: 0 <= i < |t.columns| && Edge(t.columns[i], d, present, plural)
  {
    ColumnsDeps(t.columns, present, plural) - {t.name}
  }

  /** `$byName[$name]`: the last table with that name (later entries overwrite). */
  function LastNamed(tables: seq<Table>, name: string): (r: Table)
    requires name in TableNames(tables)
    ensures r in tables && r.name == name
    ensures exists i :: 0 <= i < |tables| && tables[i] == r
                          && forall j :: i < j < |tables| ==> tables[j].name != name
  {
    var last := tables[|tables| - 1];
    if last.name == name then last
    else
      var init := tables[..|tables| - 1];
      assert TableNames(tables) == TableNames(init) + [last.name];
      var r := LastNamed(init, name);
      assert forall i :: 0 <= i < |init| ==> init[i] == tables[i];
      r
  }

  /** The distinct table names in first-occurrence order (the keys of `$byName`). */
  function Nodes(tables: seq<Table>): (r: seq<string>)
    ensures Distinct(r)
    ensures forall n :: n in r <==> n in TableNames(tables)
    ensures Distinct(TableNames(tables)) ==> r == TableNames(tables)
  {
    Dedupe(TableNames(tables))
  }

  /** The dependency sets of every table, computed from the last table with each name. */
  function Dependencies(tables: seq<Table>, plural: string -> string): (deps: map<string, set<string>>)
    ensures forall n :: n in deps <==> n in TableNames(tables)
    ensures forall n :: n in deps ==>
      deps[n] == TableDeps(LastNamed(tables, n), (set m | m in TableNames(tables)), plural)
  {
    var names := TableNames(tables);
    map n | n in names :: TableDeps(LastNamed(tables, n), (set m | m in names), plural)
  }

  /** Every table emitted has all its dependencies emitted before it. */
  predicate DepsEmittedBefore(ordered: seq<string>, deps: map<string, set<string>>) {
    forall i, d :: 0 <= i < |ordered| && ordered[i] in deps && d in deps[ordered[i]] ==> d in ordered[..i]
  }

  /** Every table not emitted has a dependency that was never emitted either. */
  predicate LeftoversBlocked(names: seq<string>, ordered: seq<string>, deps: map<string, set<string>>)
    requires forall n :: n in names ==> n in deps
  {
    forall n :: n in names && n !in ordered ==> exists d :: d in deps[n] && d !in ordered
  }

  /** The names with no dependency, in input order: the initial FIFO queue. */
  function Ready(names: seq<string>, deps: map<string, set<string>>): (r: seq<string>)
    requires forall n :: n in names ==> n in deps
    ensures forall n :: n in r <==> n in names && deps[n] == {}
    ensures Distinct(names) ==> Distinct(r)
  {
    if |names| == 0 then []
    else
      var rest := Ready(names[1..], deps);
      assert forall n :: n in names[1..] ==> n in names;
      if deps[names[0]] == {} then [names[0]] + rest else rest
  }

  /** The names among the first `k`, in order, that lose their last remaining
      dependency when `node` is emitted; `cur[j]` holds the pending dependencies of
      `names[j]`. */
  function Freed(names: seq<string>, cur: seq<set<string>>, node: string, k: nat): seq<string>
    requires |cur| == |names| && k <= |names|
  {
    if k == 0 then []
    else Freed(names, cur, node, k - 1) + (if cur[k - 1] == {node} then [names[k - 1]] else [])
  }

  /** The freed names come from the first `k`, and are distinct when the names are. */
  lemma {:induction false} FreedFacts(names: seq<string>, cur: seq<set<string>>, node: string, k: nat)
    requires |cur| == |names| && k <= |names|
    ensures forall n :: n in Freed(names, cur, node, k) ==> n in names[..k]
    ensures Distinct(names) ==> Distinct(Freed(names, cur, node, k))
  {
    if k > 0 {
      FreedFacts(names, cur, node, k - 1);
      assert forall n :: n in names[..k - 1] ==> n in names[..k];
      assert Distinct(names) ==> names[k - 1] !in names[..k - 1];
    }
  }

  lemma FreedStep(names: seq<string>, cur: seq<set<string>>, node: string, k: nat, pending: set<string>)
    requires |cur| == |names| && k < |names| && pending == cur[k]
    ensures Freed(names, cur, node, k + 1)
         == Freed(names, cur, node, k) + (if pending == {node} then [names[k]] else [])
  {
  }

  /** With distinct names, a table is freed exactly when `node` was its last pending
      dependency. */
  lemma {:induction false} FreedMember(names: seq<string>, cur: seq<set<string>>, node: string,
                                       k: nat, j: int)
    requires |cur| == |names| && Distinct(names) && 0 <= j < k <= |names|
    ensures names[j] in Freed(names, cur, node, k) <==> cur[j] == {node}
  {
    if j < k - 1 {
      FreedMember(names, cur, node, k - 1, j);
      assert names[j] != names[k - 1];
    } else {
      FreedFacts(names, cur, node, k - 1);
      assert names[j] !in names[..k - 1];
    }
  }

  /** The pending dependency sets before anything is emitted. */
  function Initial(names: seq<string>, deps: map<string, set<string>>): (cur: seq<set<string>>)
    requires forall n :: n in names ==> n in deps
    ensures |cur| == |names| && forall k :: 0 <= k < |names| ==> cur[k] == deps[names[k]]
  {
    seq(|names|, k requires 0 <= k < |names| => deps[names[k]])
  }

  /** The pending sets once `node` is emitted. */
  function Drop(cur: seq<set<string>>, node: string): (r: seq<set<string>>)
    ensures |r| == |cur| && forall k :: 0 <= k < |cur| ==> r[k] == cur[k] - {node}
  {
    seq(|cur|, k requires 0 <= k < |cur| => cur[k] - {node})
  }

  /** How many of the first `k` tables still wait on something. */
  function Waiting(cur: seq<set<string>>, k: nat): nat
    requires k <= |cur|
  {
    if k == 0 then 0 else Waiting(cur, k - 1) + (if cur[k - 1] == {} then 0 else 1)
  }

  /** Emitting `node` stops exactly the freed tables from waiting. */
  lemma {:induction false} DropWaiting(names: seq<string>, cur: seq<set<string>>, node: string, k: nat)
    requires |cur| == |names| && k <= |names|
    ensures Waiting(Drop(cur, node), k) + |Freed(names, cur, node, k)| == Waiting(cur, k)
  {
    if k > 0 {
      DropWaiting(names, cur, node, k - 1);
      assert Drop(cur, node)[k - 1] == {} <==> cur[k - 1] == {} || cur[k - 1] == {node};
    }
  }

  /** The FIFO loop of `TableOrderer::order` as a function: emit the head of the
      queue, then append the tables it frees in input order. */
  function KahnRun(names: seq<string>, cur: seq<set<string>>, queue: seq<string>): seq<string>
    requires |cur| == |names|
    decreases Waiting(cur, |cur|) + |queue|
  {
    if queue == [] then []
    else
      var node := queue[0];
      DropWaiting(names, cur, node, |names|);
      [node] + KahnRun(names, Drop(cur, node), queue[1..] + Freed(names, cur, node, |names|))
  }

  /** The names the Kahn phase emits, in emission order. */
  function KahnOrder(names: seq<string>, deps: map<string, set<string>>): seq<string>
    requires forall n :: n in names ==> n in deps
  {
    KahnRun(names, Initial(names, deps), Ready(names, deps))
  }

  /** The names of `TableOrderer::order`'s result: the Kahn phase, then the rest. */
  function OrderNames(tables: seq<Table>, plural: string -> string): seq<string>
  {
    var o := KahnOrder(Nodes(tables), Dependencies(tables, plural));
    o + Remaining(Nodes(tables), o)
  }

  /** Ties are broken first in, first out: with `c` waiting on `a` and `d` on `b`,
      `c` is freed first and so emitted before `d`. */
  lemma FifoTieBreak()
    ensures KahnOrder(["a", "b", "c", "d"], map["a" := {}, "b" := {}, "c" := {"a"}, "d" := {"b"}])
         == ["a", "b", "c", "d"]
  {
    var names := ["a", "b", "c", "d"];
    var deps := map["a" := {}, "b" := {}, "c" := {"a"}, "d" := {"b"}];
    var cur0: seq<set<string>> := [{}, {}, {"a"}, {"b"}];
    var cur1: seq<set<string>> := [{}, {}, {}, {"b"}];
    var cur2: seq<set<string>> := [{}, {}, {}, {}];
    calc {
      KahnOrder(names, deps);
      { FifoStart(names, deps, cur0); }
      KahnRun(names, cur0, ["a", "b"]);
      { FifoEmitA(names, cur0, cur1); }
      ["a"] + KahnRun(names, cur1, ["b", "c"]);
      { FifoEmitB(names, cur1, cur2); }
      ["a"] + (["b"] + KahnRun(names, cur2, ["c", "d"]));
      { FifoEmitLast(names, cur2, "c", ["d"]); assert ["c", "d"] == ["c"] + ["d"]; }
      ["a"] + (["b"] + (["c"] + KahnRun(names, cur2, ["d"])));
      { FifoEmitLast(names, cur2, "d", []); assert ["d"] == ["d"] + []; }
      ["a"] + (["b"] + (["c"] + (["d"] + KahnRun(names, cur2, []))));
      ["a", "b", "c", "d"];
    }
  }

  lemma FifoStart(names: seq<string>, deps: map<string, set<string>>, cur0: seq<set<string>>)
    requires names == ["a", "b", "c", "d"]
    requires deps == map["a" := {}, "b" := {}, "c" := {"a"}, "d" := {"b"}]
    requires cur0 == [{}, {}, {"a"}, {"b"}]
    ensures KahnOrder(names, deps) == KahnRun(names, cur0, ["a", "b"])
  {
    assert Initial(names, deps) == cur0;
    FifoReady(names, deps);
  }

  lemma FifoReady(names: seq<string>, deps: map<string, set<string>>)
    requires names == ["a", "b", "c", "d"]
    requires deps == map["a" := {}, "b" := {}, "c" := {"a"}, "d" := {"b"}]
    ensures Ready(names, deps) == ["a", "b"]
  {
    assert names[1..] == ["b", "c", "d"] && names[1..][1..] == ["c", "d"];
    assert names[1..][1..][1..] == ["d"] && names[1..][1..][1..][1..] == [];
    assert Ready(["d"], deps) == [];
    assert Ready(["c", "d"], deps) == [];
  }

  lemma FifoEmitA(names: seq<string>, cur0: seq<set<string>>, cur1: seq<set<string>>)
    requires names == ["a", "b", "c", "d"]
    requires cur0 == [{}, {}, {"a"}, {"b"}] && cur1 == [{}, {}, {}, {"b"}]
    ensures KahnRun(names, cur0, ["a", "b"]) == ["a"] + KahnRun(names, cur1, ["b", "c"])
  {
    var d := Drop(cur0, "a");
    assert d[0] == {} && d[1] == {} && d[2] == {} && d[3] == {"b"};
    assert d == cur1;
    FreedOfFour(names, cur0, "a");
    assert ["a", "b"][1..] + Freed(names, cur0, "a", 4) == ["b", "c"];
  }

  lemma FifoEmitB(names: seq<string>, cur1: seq<set<string>>, cur2: seq<set<string>>)
    requires names == ["a", "b", "c", "d"]
    requires cur1 == [{}, {}, {}, {"b"}] && cur2 == [{}, {}, {}, {}]
    ensures KahnRun(names, cur1, ["b", "c"]) == ["b"] + KahnRun(names, cur2, ["c", "d"])
  {
    var d := Drop(cur1, "b");
    assert d[0] == {} && d[1] == {} && d[2] == {} && d[3] == {};
    assert d == cur2;
    FreedOfFour(names, cur1, "b");
    assert ["b", "c"][1..] + Freed(names, cur1, "b", 4) == ["c", "d"];
  }

  /** Once nothing waits, emitting frees nothing more. */
  lemma FifoEmitLast(names: seq<string>, cur2: seq<set<string>>, node: string, rest: seq<string>)
    requires names == ["a", "b", "c", "d"] && cur2 == [{}, {}, {}, {}]
    ensures KahnRun(names, cur2, [node] + rest) == [node] + KahnRun(names, cur2, rest)
  {
    assert {} - {node} == {};
    assert Drop(cur2, node) == cur2;
    FreedOfFour(names, cur2, node);
    assert ([node] + rest)[1..] + Freed(names, cur2, node, 4) == rest;
  }

  lemma FreedOfFour(names: seq<string>, cur: seq<set<string>>, node: string)
    requires |names| == 4 && |cur| == 4
    ensures Freed(names, cur, node, 4)
         == (if cur[0] == {node} then [names[0]] else []) + (if cur[1] == {node} then [names[1]] else [])
          + (if cur[2] == {node} then [names[2]] else []) + (if cur[3] == {node} then [names[3]] else [])
  {
    FreedStep(names, cur, node, 0, cur[0]);
    FreedStep(names, cur, node, 1, cur[1]);
    FreedStep(names, cur, node, 2, cur[2]);
    FreedStep(names, cur, node, 3, cur[3]);
  }

  /** `$remaining = array_diff(array_keys($byName), $ordered)`, in input order. */
  function Remaining(names: seq<string>, ordered: seq<string>): (r: seq<string>)
    ensures forall n :: n in r <==> n in names && n !in ordered
    ensures Distinct(names) ==> Distinct(r)
    ensures |r| <= |names|
  {
    if |names| == 0 then []
    else
      var rest := Remaining(names[1..], ordered);
      assert forall n :: n in names[1..] ==> n in names;
      if names[0] !in ordered then [names[0]] + rest else rest
  }

  lemma {:induction false} DistinctSubsetLength(xs: seq<string>, ys: seq<string>)
    requires Distinct(xs)
    requires forall x :: x in xs ==> x in ys
    ensures |xs| <= |ys|
  {
    var sx := set x | x in xs;
    var sy := set y | y in ys;
    DistinctCard(xs);
    SeqSetCard(ys);
    SubsetCard(sx, sy);
  }

  lemma SubsetCard(a: set<string>, b: set<string>)
    requires a <= b
    ensures |a| <= |b|
    decreases |a|
  {
    if a != {} {
      var x :| x in a;
      SubsetCard(a - {x}, b - {x});
    }
  }

  lemma DistinctConcat(a: seq<string>, b: seq<string>)
    requires Distinct(a + b)
    ensures Distinct(a) && Distinct(b)
    ensures forall x :: x in a ==> x !in b
  {
    forall i, j | 0 <= i < j < |a|
      ensures a[i] != a[j]
    {
      assert (a + b)[i] == a[i] && (a + b)[j] == a[j];
    }
    forall i, j | 0 <= i < j < |b|
      ensures b[i] != b[j]
    {
      assert (a + b)[|a| + i] == b[i] && (a + b)[|a| + j] == b[j];
    }
    forall i, j | 0 <= i < |a| && 0 <= j < |b|
      ensures a[i] != b[j]
    {
      assert (a + b)[i] == a[i] && (a + b)[|a| + j] == b[j];
    }
  }

  lemma DistinctAppend(a: seq<string>, b: seq<string>)
    requires Distinct(a) && Distinct(b)
    requires forall x :: x in b ==> x !in a
    ensures Distinct(a + b)
  {
    var c := a + b;
    forall i, j | 0 <= i < j < |c|
      ensures c[i] != c[j]
    {
      if i < |a| && j >= |a| {
        assert c[j] == b[j - |a|];
        assert c[j] in b;
      } else if i >= |a| {
        assert c[i] == b[i - |a|] && c[j] == b[j - |a|];
      }
    }
  }

  /** Names of a slice are the slice of the names. */
  lemma NamesSlice(r: seq<Table>, k: nat)
    requires k <= |r|
    ensures TableNames(r[..k]) == TableNames(r)[..k]
    ensures TableNames(r[k..]) == TableNames(r)[k..]
  {
  }

  lemma {:induction false} DistinctCard(xs: seq<string>)
    requires Distinct(xs)
    ensures |set x | x in xs| == |xs|
  {
    if |xs| > 0 {
      var tail := xs[1..];
      DistinctCard(tail);
      assert (set x | x in xs) == (set x | x in tail) + {xs[0]};
      assert xs[0] !in tail;
    }
  }

  lemma {:induction false} SeqSetCard(xs: seq<string>)
    ensures |set x | x in xs| <= |xs|
  {
    if |xs| > 0 {
      var tail := xs[1..];
      SeqSetCard(tail);
      assert (set x | x in xs) == (set x | x in tail) + {xs[0]};
    }
  }

  /** The invariant of the Kahn loop. `cur[k]` holds the dependencies of `names[k]`
      not yet emitted and `incoming[k]` their count; a table is emitted or queued
      (`seen`) exactly when none are left. */
  ghost predicate KahnState(names: seq<string>, deps: map<string, set<string>>,
                            cur: seq<set<string>>, incoming: seq<int>,
                            ordered: seq<string>, queue: seq<string>)
  {
    && Tracked(names, deps, cur, incoming)
    && PendingDeps(names, deps, cur, ordered)
    && SeenIffDone(names, cur, ordered + queue)
    && Distinct(ordered + queue)
    && (forall n :: n in ordered + queue ==> n in names)
  }

  ghost predicate Tracked(names: seq<string>, deps: map<string, set<string>>,
                          cur: seq<set<string>>, incoming: seq<int>)
  {
    && |cur| == |names| && |incoming| == |names|
    && (forall n :: n in names ==> n in deps)
    && (forall k :: 0 <= k < |names| ==> incoming[k] == |cur[k]|)
  }

  ghost predicate PendingDeps(names: seq<string>, deps: map<string, set<string>>,
                              cur: seq<set<string>>, ordered: seq<string>)
    requires |cur| == |names| && forall n :: n in names ==> n in deps
  {
    forall k, d :: 0 <= k < |names| ==> (d in cur[k] <==> d in deps[names[k]] && d !in ordered)
  }

  ghost predicate SeenIffDone(names: seq<string>, cur: seq<set<string>>, seen: seq<string>)
    requires |cur| == |names|
  {
    forall k :: 0 <= k < |names| ==> (names[k] in seen <==> cur[k] == {})
  }

  /** The inner `foreach ($deps as $t => $ds)` loop run after `node` is emitted: drops
      `node` from every dependency set and queues, in input order, each table whose
      count reaches zero. */
  method Release(names: seq<string>, node: string, cur0: seq<set<string>>,
                 incoming0: seq<int>, queue0: seq<string>)
    returns (cur: seq<set<string>>, incoming: seq<int>, queue: seq<string>)
    requires |cur0| == |names| && |incoming0| == |names|
    requires forall k :: 0 <= k < |names| ==> incoming0[k] == |cur0[k]|
    ensures |cur| == |names| && |incoming| == |names|
    ensures forall k :: 0 <= k < |names| ==> cur[k] == cur0[k] - {node}
    ensures forall k :: 0 <= k < |names| ==> incoming[k] == |cur[k]|
    ensures queue == queue0 + Freed(names, cur0, node, |names|)
  {
    cur := cur0;
    incoming := incoming0;
    queue := queue0;
    var k := 0;
    while k < |names|
      invariant 0 <= k <= |names|
      invariant ReleasedUpTo(names, node, cur0, queue0, k, cur, incoming, queue)
    {
      var cur1, incoming1, queue1 := ReleaseOne(names, node, k, cur, incoming, queue);
      ReleaseAdvance(names, node, cur0, queue0, k, cur, incoming, queue, cur1, incoming1, queue1);
      cur, incoming, queue := cur1, incoming1, queue1;
      k := k + 1;
    }
  }

  /** The state of `Release` after its first `k` iterations. */
  predicate ReleasedUpTo(names: seq<string>, node: string, cur0: seq<set<string>>, queue0: seq<string>,
                         k: int, cur: seq<set<string>>, incoming: seq<int>, queue: seq<string>)
  {
    && 0 <= k <= |names| && |cur0| == |names|
    && |cur| == |names| && |incoming| == |names|
    && (forall j :: 0 <= j < |names| ==> incoming[j] == |cur[j]|)
    && (forall j :: 0 <= j < k ==> cur[j] == cur0[j] - {node})
    && (forall j :: k <= j < |names| ==> cur[j] == cur0[j])
    && queue == queue0 + Freed(names, cur0, node, k)
  }

  lemma ReleaseAdvance(names: seq<string>, node: string, cur0: seq<set<string>>, queue0: seq<string>,
                       k: int, cur: seq<set<string>>, incoming: seq<int>, queue: seq<string>,
                       cur1: seq<set<string>>, incoming1: seq<int>, queue1: seq<string>)
    requires ReleasedUpTo(names, node, cur0, queue0, k, cur, incoming, queue) && k < |names|
    requires cur1 == cur[k := cur[k] - {node}]
    requires incoming1 == incoming[k := |cur[k] - {node}|]
    requires queue1 == queue + (if cur[k] == {node} then [names[k]] else [])
    ensures ReleasedUpTo(names, node, cur0, queue0, k + 1, cur1, incoming1, queue1)
  {
    assert cur[k] == cur0[k];
    FreedStep(names, cur0, node, k, cur[k]);
    var freed := if cur[k] == {node} then [names[k]] else [];
    assert queue1 == queue0 + (Freed(names, cur0, node, k) + freed);
    forall j | 0 <= j < |names|
      ensures incoming1[j] == |cur1[j]|
      ensures j <= k ==> cur1[j] == cur0[j] - {node}
      ensures k < j ==> cur1[j] == cur0[j]
    {
      if j != k {
        assert cur1[j] == cur[j] && incoming1[j] == incoming[j];
      }
    }
  }

  /** One iteration of the inner loop: when table `k` waits on `node`, the dependency
      is dropped, the count decremented, and the table queued if the count reaches
      zero. */
  method ReleaseOne(names: seq<string>, node: string, k: int, cur0: seq<set<string>>,
                    incoming0: seq<int>, queue0: seq<string>)
    returns (cur: seq<set<string>>, incoming: seq<int>, queue: seq<string>)
    requires 0 <= k < |names| && |cur0| == |names| && |incoming0| == |names|
    requires incoming0[k] == |cur0[k]|
    ensures cur == cur0[k := cur0[k] - {node}]
    ensures incoming == incoming0[k := |cur0[k] - {node}|]
    ensures queue == queue0 + (if cur0[k] == {node} then [names[k]] else [])
  {
    cur, incoming, queue := cur0, incoming0, queue0;
    var pending := cur[k];
    DropOne(pending, node);
    if node in pending {
      cur := cur[k := pending - {node}];
      incoming := incoming[k := incoming[k] - 1];
      if incoming[k] == 0 {
        queue := queue + [names[k]];
      }
    } else {
      assert cur0[k] - {node} == cur0[k];
      assert cur0 == cur0[k := cur0[k] - {node}] && incoming0 == incoming0[k := |cur0[k] - {node}|];
    }
  }

  /** Kahn's algorithm over distinct names: repeatedly emit the queue's head and release
      the tables waiting on it. Returns the emitted names only; cycle members and
      tables blocked by missing dependencies are not among them. */
  method Kahn(names: seq<string>, deps: map<string, set<string>>) returns (ordered: seq<string>)
    requires Distinct(names)
    requires forall n :: n in names ==> n in deps && n !in deps[n]
    ensures Distinct(ordered)
    ensures forall n :: n in ordered ==> n in names
    ensures DepsEmittedBefore(ordered, deps)
    ensures LeftoversBlocked(names, ordered, deps)
    ensures Ready(names, deps) <= ordered
    ensures ordered == KahnOrder(names, deps)
  {
    var cur := Initial(names, deps);
    var incoming := seq(|names|, k requires 0 <= k < |names| => |deps[names[k]]|);
    var queue := Ready(names, deps);
    ordered := [];
    KahnInit(names, deps, cur, incoming, queue);
    assert [] + KahnRun(names, cur, queue) == KahnOrder(names, deps);
    while |queue| > 0
      invariant KahnState(names, deps, cur, incoming, ordered, queue)
      invariant DepsEmittedBefore(ordered, deps)
      invariant Ready(names, deps) <= ordered + queue
      invariant ordered + KahnRun(names, cur, queue) == KahnOrder(names, deps)
      decreases |names| - |ordered|
    {
      var node := queue[0];
      var cur1, incoming1, queue1 := Release(names, node, cur, incoming, queue[1..]);
      KahnStep(names, deps, cur, incoming, ordered, queue, cur1, incoming1, queue1);
      RunStep(names, cur, queue, ordered, cur1, queue1);
      ordered, cur, incoming, queue := ordered + [node], cur1, incoming1, queue1;
      DistinctConcat(ordered, queue);
      DistinctSubsetLength(ordered, names);
    }
    KahnDone(names, deps, cur, incoming, ordered, queue);
  }

  /** One iteration of the loop emits what `KahnRun` emits first. */
  lemma RunStep(names: seq<string>, cur: seq<set<string>>, queue: seq<string>, ordered: seq<string>,
                cur1: seq<set<string>>, queue1: seq<string>)
    requires |cur| == |names| && |queue| > 0
    requires |cur1| == |names| && forall k :: 0 <= k < |names| ==> cur1[k] == cur[k] - {queue[0]}
    requires queue1 == queue[1..] + Freed(names, cur, queue[0], |names|)
    ensures (ordered + [queue[0]]) + KahnRun(names, cur1, queue1) == ordered + KahnRun(names, cur, queue)
  {
    assert cur1 == Drop(cur, queue[0]);
  }

  /** Running the reference from any reachable state keeps every dependency before
      its dependent and stops only when each leftover is blocked. */
  lemma {:induction false} RunKeepsOrder(names: seq<string>, deps: map<string, set<string>>,
                                         cur: seq<set<string>>, incoming: seq<int>,
                                         ordered: seq<string>, queue: seq<string>)
    requires Distinct(names)
    requires KahnState(names, deps, cur, incoming, ordered, queue)
    requires DepsEmittedBefore(ordered, deps)
    ensures Distinct(ordered + KahnRun(names, cur, queue))
    ensures forall n :: n in ordered + KahnRun(names, cur, queue) ==> n in names
    ensures DepsEmittedBefore(ordered + KahnRun(names, cur, queue), deps)
    ensures LeftoversBlocked(names, ordered + KahnRun(names, cur, queue), deps)
    decreases Waiting(cur, |cur|) + |queue|
  {
    if queue == [] {
      KahnDone(names, deps, cur, incoming, ordered, queue);
      assert ordered + KahnRun(names, cur, queue) == ordered;
    } else {
      var node := queue[0];
      var cur1 := Drop(cur, node);
      var incoming1 := seq(|names|, k requires 0 <= k < |names| => |cur1[k]|);
      var queue1 := queue[1..] + Freed(names, cur, node, |names|);
      KahnStep(names, deps, cur, incoming, ordered, queue, cur1, incoming1, queue1);
      RunStep(names, cur, queue, ordered, cur1, queue1);
      DropWaiting(names, cur, node, |names|);
      RunKeepsOrder(names, deps, cur1, incoming1, ordered + [node], queue1);
    }
  }

  /** The Kahn phase emits distinct input names, each after its dependencies, and
      leaves out only tables with a dependency it never emits. */
  lemma KahnOrderSound(names: seq<string>, deps: map<string, set<string>>)
    requires Distinct(names)
    requires forall n :: n in names ==> n in deps
    ensures Distinct(KahnOrder(names, deps))
    ensures forall n :: n in KahnOrder(names, deps) ==> n in names
    ensures DepsEmittedBefore(KahnOrder(names, deps), deps)
    ensures LeftoversBlocked(names, KahnOrder(names, deps), deps)
  {
    var cur := Initial(names, deps);
    var incoming := seq(|names|, k requires 0 <= k < |names| => |deps[names[k]]|);
    KahnInit(names, deps, cur, incoming, Ready(names, deps));
    RunKeepsOrder(names, deps, cur, incoming, [], Ready(names, deps));
    assert [] + KahnOrder(names, deps) == KahnOrder(names, deps);
  }

  /** `TableOrderer::order` lists every table name once; its Kahn prefix respects
      every dependency, and each table after it is blocked by one it never emits. */
  lemma OrderNamesSound(tables: seq<Table>, plural: string -> string)
    ensures Distinct(OrderNames(tables, plural))
    ensures forall n :: n in OrderNames(tables, plural) <==> n in TableNames(tables)
    ensures KahnOrder(Nodes(tables), Dependencies(tables, plural)) <= OrderNames(tables, plural)
    ensures DepsEmittedBefore(KahnOrder(Nodes(tables), Dependencies(tables, plural)), Dependencies(tables, plural))
    ensures LeftoversBlocked(Nodes(tables), KahnOrder(Nodes(tables), Dependencies(tables, plural)),
                             Dependencies(tables, plural))
  {
    var names := Nodes(tables);
    var deps := Dependencies(tables, plural);
    KahnOrderSound(names, deps);
    OrderedThenRemaining(names, KahnOrder(names, deps), Remaining(names, KahnOrder(names, deps)));
  }

  lemma KahnDone(names: seq<string>, deps: map<string, set<string>>,
                 cur: seq<set<string>>, incoming: seq<int>, ordered: seq<string>, queue: seq<string>)
    requires KahnState(names, deps, cur, incoming, ordered, queue)
    requires queue == []
    ensures Distinct(ordered)
    ensures LeftoversBlocked(names, ordered, deps)
  {
    assert ordered + queue == ordered;
    forall n | n in names && n !in ordered
      ensures exists d :: d in deps[n] && d !in ordered
    {
      var k :| 0 <= k < |names| && names[k] == n;
      assert PendingDeps(names, deps, cur, ordered);
      assert names[k] !in ordered + queue;
      assert cur[k] != {};
      var d :| d in cur[k];
      assert d in deps[names[k]] && d !in ordered by {
        assert d in cur[k] <==> d in deps[names[k]] && d !in ordered;
      }
    }
  }

  /** The initial state: nothing emitted, the ready tables queued. */
  lemma KahnInit(names: seq<string>, deps: map<string, set<string>>,
                 cur: seq<set<string>>, incoming: seq<int>, queue: seq<string>)
    requires Distinct(names)
    requires forall n :: n in names ==> n in deps
    requires |cur| == |names| && forall k :: 0 <= k < |names| ==> cur[k] == deps[names[k]]
    requires |incoming| == |names| && forall k :: 0 <= k < |names| ==> incoming[k] == |deps[names[k]]|
    requires queue == Ready(names, deps)
    ensures KahnState(names, deps, cur, incoming, [], queue)
    ensures DepsEmittedBefore([], deps)
    ensures Ready(names, deps) <= [] + queue
  {
    assert [] + queue == queue;
  }

  /** One iteration of the Kahn loop keeps its invariant. */
  lemma KahnStep(names: seq<string>, deps: map<string, set<string>>,
                 cur: seq<set<string>>, incoming: seq<int>,
                 ordered: seq<string>, queue: seq<string>,
                 cur1: seq<set<string>>, incoming1: seq<int>, queue1: seq<string>)
    requires Distinct(names)
    requires KahnState(names, deps, cur, incoming, ordered, queue)
    requires DepsEmittedBefore(ordered, deps)
    requires |queue| > 0
    requires |cur1| == |names| && |incoming1| == |names|
    requires forall k :: 0 <= k < |names| ==> cur1[k] == cur[k] - {queue[0]}
    requires forall k :: 0 <= k < |names| ==> incoming1[k] == |cur1[k]|
    requires queue1 == queue[1..] + Freed(names, cur, queue[0], |names|)
    ensures KahnState(names, deps, cur1, incoming1, ordered + [queue[0]], queue1)
    ensures DepsEmittedBefore(ordered + [queue[0]], deps)
    ensures ordered + queue <= (ordered + [queue[0]]) + queue1
  {
    var node := queue[0];
    var o1 := ordered + [node];
    var freed := Freed(names, cur, node, |names|);
    assert o1 + queue1 == (ordered + queue) + freed;
    FreedFresh(names, cur, ordered + queue, node);
    FreedFacts(names, cur, node, |names|);
    DistinctAppend(ordered + queue, freed);
    StepSeen(names, cur, cur1, ordered + queue, freed, node);
    StepPending(names, deps, cur, cur1, ordered, node);
    assert node in ordered + queue;
    var k :| 0 <= k < |names| && names[k] == node;
    StepDeps(deps, cur[k], ordered, node);
  }

  lemma StepSeen(names: seq<string>, cur: seq<set<string>>, cur1: seq<set<string>>,
                 seen: seq<string>, freed: seq<string>, node: string)
    requires Distinct(names)
    requires |cur| == |names| && |cur1| == |names|
    requires forall k :: 0 <= k < |names| ==> cur1[k] == cur[k] - {node}
    requires SeenIffDone(names, cur, seen)
    requires freed == Freed(names, cur, node, |names|)
    ensures SeenIffDone(names, cur1, seen + freed)
  {
    forall k | 0 <= k < |names|
      ensures names[k] in seen + freed <==> cur1[k] == {}
    {
      if cur1[k] == {} {
        assert cur[k] == {} || cur[k] == {node};
      }
      FreedMember(names, cur, node, |names|, k);
    }
  }

  lemma StepPending(names: seq<string>, deps: map<string, set<string>>,
                    cur: seq<set<string>>, cur1: seq<set<string>>,
                    ordered: seq<string>, node: string)
    requires forall n :: n in names ==> n in deps
    requires |cur| == |names| && |cur1| == |names|
    requires forall k :: 0 <= k < |names| ==> cur1[k] == cur[k] - {node}
    requires PendingDeps(names, deps, cur, ordered)
    ensures PendingDeps(names, deps, cur1, ordered + [node])
  {
    forall k, d | 0 <= k < |names|
      ensures d in cur1[k] <==> d in deps[names[k]] && d !in ordered + [node]
    {
      assert d in ordered + [node] <==> d in ordered || d == node;
      assert d in cur[k] <==> d in deps[names[k]] && d !in ordered;
    }
    assert forall k, d :: 0 <= k < |names| ==>
      (d in cur1[k] <==> d in deps[names[k]] && d !in ordered + [node]);
  }

  /** Dropping `node` from a dependency set: the count falls by one exactly when it was
      there, and reaches zero exactly when it was the only one. */
  lemma DropOne(s: set<string>, node: string)
    ensures |s - {node}| == if node in s then |s| - 1 else |s|
    ensures node in s && |s| - 1 == 0 <==> s == {node}
  {
    if node in s {
      RemoveCard(s, node);
      if |s| == 1 {
        assert s - {node} == {};
      }
    } else {
      assert s - {node} == s;
    }
  }

  lemma RemoveCard(s: set<string>, x: string)
    requires x in s
    ensures |s - {x}| == |s| - 1
  {
    assert s == (s - {x}) + {x};
  }

  lemma StepDeps(deps: map<string, set<string>>, pending: set<string>,
                 ordered: seq<string>, node: string)
    requires DepsEmittedBefore(ordered, deps)
    requires node in deps && pending == {}
    requires forall d :: d in pending <==> d in deps[node] && d !in ordered
    ensures DepsEmittedBefore(ordered + [node], deps)
  {
    var o1 := ordered + [node];
    forall i, d | 0 <= i < |o1| && o1[i] in deps && d in deps[o1[i]]
      ensures d in o1[..i]
    {
      if i < |ordered| {
        assert o1[..i] == ordered[..i];
      } else {
        assert d !in pending;
        assert o1[..i] == ordered;
      }
    }
  }

  /** The tables freed by emitting `node` were neither emitted nor queued before. */
  lemma FreedFresh(names: seq<string>, cur: seq<set<string>>, seen: seq<string>, node: string)
    requires Distinct(names)
    requires |cur| == |names|
    requires SeenIffDone(names, cur, seen)
    ensures forall n :: n in Freed(names, cur, node, |names|) ==> n !in seen
  {
    FreedFacts(names, cur, node, |names|);
    forall n | n in Freed(names, cur, node, |names|)
      ensures n !in seen
    {
      assert n in names[..|names|];
      var k :| 0 <= k < |names| && names[k] == n;
      FreedMember(names, cur, node, |names|, k);
    }
  }

  /** The emitted names followed by the leftovers list every distinct name once. */
  lemma OrderedThenRemaining(names: seq<string>, ordered: seq<string>, rest: seq<string>)
    requires Distinct(names) && Distinct(ordered)
    requires forall n :: n in ordered ==> n in names
    requires rest == Remaining(names, ordered)
    ensures Distinct(ordered + rest)
    ensures forall n :: n in ordered + rest <==> n in names
  {
    DistinctAppend(ordered, rest);
  }

  /** `array_map(fn ($n) => $byName[$n], ...)`: each name becomes the last input table
      carrying it. */
  function TablesFor(tables: seq<Table>, ns: seq<string>): (r: seq<Table>)
    requires forall n :: n in ns ==> n in TableNames(tables)
    ensures |r| == |ns| && forall i :: 0 <= i < |ns| ==> r[i].name == ns[i] && r[i] in tables
    ensures forall i :: 0 <= i < |ns| ==>
      exists k :: (0 <= k < |tables| && tables[k] == r[i] && forall j :: k < j < |tables| ==> tables[j].name != ns[i])
  {
    seq(|ns|, i requires 0 <= i < |ns| => LastNamed(tables, ns[i]))
  }

  /** The table `TablesFor` picks is the one `LastNamed` finds. */
  lemma TablesForLast(tables: seq<Table>, ns: seq<string>)
    requires forall n :: n in ns ==> n in TableNames(tables)
    ensures forall i :: 0 <= i < |ns| ==> TablesFor(tables, ns)[i] == LastNamed(tables, ns[i])
  {
  }

  /** `TableOrderer::order`: the Kahn order followed by the leftover tables in input
      order. The result holds every distinct table name exactly once. */
  method Order(tables: seq<Table>, plural: string -> string) returns (r: seq<Table>, emitted: nat)
    ensures emitted <= |r|
    ensures Distinct(TableNames(r))
    ensures forall n :: n in TableNames(r) <==> n in TableNames(tables)
    ensures forall i :: 0 <= i < |r| ==> r[i] == LastNamed(tables, r[i].name)
    ensures DepsEmittedBefore(TableNames(r[..emitted]), Dependencies(tables, plural))
    ensures LeftoversBlocked(Nodes(tables), TableNames(r[..emitted]), Dependencies(tables, plural))
    ensures TableNames(r[emitted..]) == Remaining(Nodes(tables), TableNames(r[..emitted]))
    ensures Ready(Nodes(tables), Dependencies(tables, plural)) <= TableNames(r)
    ensures TableNames(r) == OrderNames(tables, plural)
    ensures TableNames(r[..emitted]) == KahnOrder(Nodes(tables), Dependencies(tables, plural))
  {
    var names := Nodes(tables);
    var deps := Dependencies(tables, plural);
    var ordered := Kahn(names, deps);
    var rest := Remaining(names, ordered);
    var all := ordered + rest;
    OrderedThenRemaining(names, ordered, rest);
    r := TablesFor(tables, all);
    TablesForLast(tables, all);
    emitted := |ordered|;
    assert TableNames(r) == all;
    NamesSlice(r, emitted);
    assert all[..emitted] == ordered && all[emitted..] == rest;
  }

  /** `users` and `posts` with a `user_id` foreign key to `users` are ordered users
      first, whichever order they come in. */
  method UsersBeforePosts(plural: string -> string, postsFirst: bool) returns (names: seq<string>)
    ensures names == ["users", "posts"]
  {
    var users := Table("users", []);
    var posts := Table("posts", [Column("user_id", "bigint", false, false, false, Some(ForeignKey("users", "id")))]);
    var tables := if postsFirst then [posts, users] else [users, posts];
    assert TableNames(tables) == if postsFirst then ["posts", "users"] else ["users", "posts"];
    DependencyExample(tables, "users", "posts", plural);
    var r, emitted := Order(tables, plural);
    names := TableNames(r);
    NamesSlice(r, emitted);
    TwoTablesOrdered(Nodes(tables), names, emitted, Dependencies(tables, plural), "users", "posts");
  }

  /** The dependencies of the example: the parent has none, the child only the
      parent. */
  lemma DependencyExample(tables: seq<Table>, a: string, b: string, plural: string -> string)
    requires a != b
    requires tables == [Table(a, []), Table(b, [Column("user_id", "bigint", false, false, false, Some(ForeignKey(a, "id")))])]
          || tables == [Table(b, [Column("user_id", "bigint", false, false, false, Some(ForeignKey(a, "id")))]), Table(a, [])]
    ensures a in Dependencies(tables, plural) && Dependencies(tables, plural)[a] == {}
    ensures b in Dependencies(tables, plural) && Dependencies(tables, plural)[b] == {a}
    ensures forall n :: n in TableNames(tables) <==> n == a || n == b
  {
    var present := set m | m in TableNames(tables);
    var child := Table(b, [Column("user_id", "bigint", false, false, false, Some(ForeignKey(a, "id")))]);
    PairNames(tables, a, b);
    assert LastNamed(tables, a) == Table(a, []);
    assert LastNamed(tables, b) == child;
    NoColumnsNoDeps(Table(a, []), present, plural);
    SingleForeignKeyDep(child, a, present, plural);
  }

  lemma PairNames(tables: seq<Table>, a: string, b: string)
    requires |tables| == 2
    requires (tables[0].name == a && tables[1].name == b) || (tables[0].name == b && tables[1].name == a)
    ensures forall n :: n in TableNames(tables) <==> n == a || n == b
  {
    var names := TableNames(tables);
    assert names == [tables[0].name, tables[1].name];
  }

  lemma NoColumnsNoDeps(t: Table, present: set<string>, plural: string -> string)
    requires t.columns == []
    ensures TableDeps(t, present, plural) == {}
  {
  }

  lemma SingleForeignKeyDep(t: Table, d: string, present: set<string>, plural: string -> string)
    requires |t.columns| == 1 && t.columns[0].foreignKey.Some? && t.columns[0].foreignKey.value.foreignTable == d
    requires t.name != d
    ensures TableDeps(t, present, plural) == {d}
  {
    assert Edge(t.columns[0], d, present, plural);
  }

  /** Two tables where only the second depends on the first, and only on it, are
      both emitted by the Kahn phase, the first one first. */
  lemma TwoTablesOrdered(nodes: seq<string>, names: seq<string>, emitted: nat,
                         deps: map<string, set<string>>, a: string, b: string)
    requires forall n :: n in nodes ==> n in deps
    requires a != b && a in nodes && b in nodes && deps[a] == {} && deps[b] == {a}
    requires Distinct(names) && forall n :: n in names ==> n == a || n == b
    requires emitted <= |names|
    requires DepsEmittedBefore(names[..emitted], deps)
    requires LeftoversBlocked(nodes, names[..emitted], deps)
    ensures names == [a, b]
  {
    var ordered := names[..emitted];
    assert a in ordered;
    assert b in ordered;
    DistinctSubsetLength(names, [a, b]);
    assert |ordered| >= 2 by {
      DistinctSubsetLength([a, b], ordered);
    }
    var k :| 0 <= k < |ordered| && ordered[k] == b;
    assert a in ordered[..k];
  }
}

=== FILE: wrappers.dfy ===
/** Failure-compatible wrappers shared by every module of the model. */
module Wrappers {

  /** A value that may be absent; PHP's nullable returns (`?T`). */
  datatype Option<+T> = None | Some(value: T) {
    function GetOr(default: T): T {
      match this
      case Some(v) => v
      case None => default
    }
  }

  /** A value or the message of the exception the source would throw. */
  datatype Result<+T> = Ok(value: T) | Err(message: string) {
    predicate IsFailure() {
      Err?
    }

    function PropagateFailure<U>(): Result<U>
      requires Err?
    {
      Err(message)
    }

    function Extract(): T
      requires Ok?
    {
      value
    }
  }
}
